=== FILE: README.md ===
# SVM wrapper bookkeeping, modelled in Dafny

This project models the logic around an external support-vector machine
in `cameraGeom/geom/svm_wrapper.cpp`. The SVM's training and prediction
are parameters of the model: a predictor is a function from a feature
vector to a response, or to nothing when prediction throws. Everything
the file decides for itself is modelled as pure functions over `real`
values and sequences:

- the threshold **cascade**, both its run-time test and the greedy builder
  that trains it;
- the stratified **K-fold split**;
- the **scores**: weighted success rate with sign correction, precision,
  and balanced success rate;
- the **search** over feature subsets and SVM hyperparameters, with the
  pruning of the hyperparameter grid;
- the **run-time decision**: feature selection and normalisation, the
  decision boundary read off the precision table, classification, and
  probability;
- the **trainer's life cycle**: construction, collecting examples, and
  what is saved on completion.

Modules, in dependency order:

- `Wrappers`: `Option` and `Result`.
- `Counting`, `Select` and `Arith`: counting, the running-best scan, and
  integer facts.
- `Labels`, `Cascade` and `Samples`: classes, scores, weights, threshold
  tests, and the sort.
- `Boosting` and `BoostingScan`: the one-feature candidate search.
- `CascadeBuilder`: the best candidate and the cascade loop.
- `Folds`, `Scores` and `CrossValidation`: folds, scores, fold scores, and
  retraining on all data.
- `Subsets`, `Hyper` and `Search`: candidate subsets, the grid and its
  pruning, and the selection loops.
- `Normalise` and `Runtime`: the run-time classifier.
- `Training`: the trainer.

Two behaviours of the code shape the model:

- With fewer than 20 examples in a class, the trainer's destructor
  (lines 1807-1810) returns without saving anything. `Training.Finish`
  returns `None` there.
- When a prediction throws, `propCorrect` (lines 899-906) abandons the
  whole evaluation and returns 0, leaving the sign correction and the
  precision as they were. `CrossValidation.PropCorrect` does the same.

## Model

| member | source | states |
|---|---|---|
| Labels.SvmClassFlip | cameraGeom/geom/svm_wrapper.cpp:49-52 | a response is read as positive iff it is strictly above 0, so negating a non-zero response swaps its class and a response of exactly 0 is negative both ways |
| Labels.SvmScore | cameraGeom/geom/svm_wrapper.cpp:1064-1067 | the training score of a class reads back as that class under `svmClass` (score > 0), and is ±1 |
| Labels.ComputeNegWeight | cameraGeom/geom/svm_wrapper.cpp:1739-1751 | the positive weight is +1; the negative weight is not positive, is negative when there are positives, and its magnitude times the negative count equals the relative weight times the positive count (the classes balance) |
| Cascade.ThresholdIsRejected | cameraGeom/geom/svm_wrapper.cpp:499-505 | a test keeps a value iff it is strictly below the threshold (reject-above) or strictly above it (reject-below); a value equal to the threshold is always rejected |
| Cascade.CascadeKeeps | cameraGeom/geom/svm_wrapper.cpp:544-552 | a cascade keeps a feature iff every one of its tests keeps it; the empty cascade keeps everything |
| Cascade.FilterFeatures | cameraGeom/geom/svm_wrapper.cpp:736-743 | filtering a collection by one test gives an order-preserving subsequence holding exactly the members the test keeps, each with all of its copies (as a multiset, a kept member occurs as often as in the input and a rejected one not at all) |
| Cascade.FilterByCascade | cameraGeom/geom/svm_wrapper.cpp:721-750 | filtering by a whole cascade gives an order-preserving subsequence holding exactly the members the cascade keeps, each with all of its copies (multiset counts preserved for kept members, zero for rejected ones) |
| Cascade.EmptyCascadeKeepsAll | cameraGeom/geom/svm_wrapper.cpp:544-552 | the empty cascade leaves a collection unchanged, order included |
| Cascade.FilterThenCascade | cameraGeom/geom/svm_wrapper.cpp:727-745 | filtering by the first test and then by the rest of the cascade is the same as filtering by the whole cascade |
| Samples.Sort | cameraGeom/geom/svm_wrapper.cpp:675-677 | the sort returns a permutation of its input ordered by value, ascending or descending as the direction asks |
| Boosting.SamplesOf | cameraGeom/geom/svm_wrapper.cpp:668-673 | one feature's values of a class, in order, each tagged with the class |
| Boosting.SortedSamples | cameraGeom/geom/svm_wrapper.cpp:666-677 | the values of both classes at one index form a sorted permutation of the tagged negatives followed by the tagged positives |
| Boosting.LastQualifying | cameraGeom/geom/svm_wrapper.cpp:682-697 | the last cut below a bound is the last one that separates unequal values with positives below 0.0005 times negatives; no later cut qualifies, or none at all when it is absent |
| Boosting.LastSplitIsLast | cameraGeom/geom/svm_wrapper.cpp:682-697 | the counting loop settles on the last cut that qualifies (no later cut does), and on none exactly when no cut qualifies |
| Boosting.SplitSeparates | cameraGeom/geom/svm_wrapper.cpp:692-695 | the midpoint threshold of a qualifying cut rejects every sample up to the cut, keeps every sample after it, and equals no sample value |
| Boosting.SplitRemovals | cameraGeom/geom/svm_wrapper.cpp:682-697 | the test built at a cut removes exactly the negatives and the positives counted up to that cut |
| Boosting.SplitAvoidsValues | cameraGeom/geom/svm_wrapper.cpp:692-695 | no feature of either class has the threshold's value at the feature index the test reads |
| Boosting.AcceptedCut | cameraGeom/geom/svm_wrapper.cpp:699-714 | a qualifying cut that removes at least 150 negatives and at least a tenth of them yields a worthwhile candidate |
| Boosting.FindBoosterState | cameraGeom/geom/svm_wrapper.cpp:663-714 | the candidate is the "no booster" value or a test on the asked index and direction removing between 0.1 and all of the negatives |
| Boosting.CutCandidate | cameraGeom/geom/svm_wrapper.cpp:699-714 | on sorted samples the decision yields "no booster" or a test on the asked index and direction whose proportion lies between 0.1 and 1 |
| BoostingScan.ScanSplits | cameraGeom/geom/svm_wrapper.cpp:678-697 | the counting loop ends with the threshold at the midpoint of the last qualifying cut and with that cut's negative count, or with −1 removed when no cut qualifies |
| BoostingScan.FindBoosterStateWorthwhile | cameraGeom/geom/svm_wrapper.cpp:699-714 | every real candidate removes at least 150 negatives and at least 0.1 of them, and its proportion is exactly the share it removes |
| BoostingScan.CandidateIffSomeCutSuffices | cameraGeom/geom/svm_wrapper.cpp:682-706 | a candidate is proposed iff some qualifying cut removes enough negatives, so taking the last qualifying cut loses nothing |
| BoostingScan.CutCandidateIffSomeCut | cameraGeom/geom/svm_wrapper.cpp:682-706 | on any samples holding the given number of negatives, a test is proposed iff some qualifying cut removes at least 150 negatives and at least 0.1 of them |
| BoostingScan.SeparableFeatureRemovesAllNegatives | cameraGeom/geom/svm_wrapper.cpp:682-714 | on a feature at or above which lie all of at least 150 negatives and below which lie all positives, reject-above proposes a test removing every negative and too few positives to matter |
| CascadeBuilder.AllCandidates | cameraGeom/geom/svm_wrapper.cpp:759-765 | the pairs are tried reject-below first, then reject-above, feature indices ascending within each direction |
| CascadeBuilder.FindBestBoosterState | cameraGeom/geom/svm_wrapper.cpp:752-773 | the chosen test is "no booster" or the worthwhile candidate its own index and direction propose |
| CascadeBuilder.NoBoosterIffNoCandidate | cameraGeom/geom/svm_wrapper.cpp:756-772 | "no booster" is returned iff no index and direction proposes a candidate |
| CascadeBuilder.BestBoosterIsMaximal | cameraGeom/geom/svm_wrapper.cpp:759-765 | no index and direction proposes a larger share of removed negatives than the chosen test |
| CascadeBuilder.BestBoosterIsEarliest | cameraGeom/geom/svm_wrapper.cpp:762-764 | every pair tried before the chosen one proposes a strictly smaller share, so the first maximum wins a tie |
| CascadeBuilder.FindBoosterStates | cameraGeom/geom/svm_wrapper.cpp:721-750 | the survivors are exactly the inputs the built cascade keeps, in order; each test removes at least 150 negatives, so the loop ends and its "Boosting failed" check cannot fire; the loop stops with no negatives left or no further test |
| CascadeBuilder.FindBoosterStatesAsWritten | cameraGeom/geom/svm_wrapper.cpp:721-760 | the loop as written fails exactly when the cascade removes every negative, because the next search reads the first negative; otherwise it agrees with the corrected loop |
| CascadeBuilder.SeparableDataEmptiesNegatives | cameraGeom/geom/svm_wrapper.cpp:721-760 | on data one feature separates, the corrected loop builds a one-test cascade leaving no negatives, and the loop as written fails |
| CascadeBuilder.AsWrittenFailsOnExample | cameraGeom/geom/svm_wrapper.cpp:721-760 | a concrete input (150 negatives at 1.0, one positive at 0.0) on which the loop as written fails |
| Select.BestStrictIsEarliest | cameraGeom/geom/svm_wrapper.cpp:1578-1580 | a running-best loop with strict `>` keeps its start iff nothing beats it, and otherwise ends on the earliest element with the top key |
| Select.BestTiesIsLatest | cameraGeom/geom/svm_wrapper.cpp:1716-1719 | a running-best loop with `>=` ends on the latest element with the top key, or on its start when every element is below it |
| Folds.BlockBounds | cameraGeom/geom/svm_wrapper.cpp:1092-1093 | validation block `s` runs from `n·s/K` to `n·(s+1)/K`; the first starts at 0, the last ends at `n` |
| Folds.BlocksOrdered | cameraGeom/geom/svm_wrapper.cpp:1092-1093 | an earlier fold's block ends no later than a later one's starts, so the blocks are disjoint |
| Folds.PositionInOneBlock | cameraGeom/geom/svm_wrapper.cpp:1092-1097 | every position of a class lies in the validation block of exactly one fold |
| Folds.BlockNonEmpty | cameraGeom/geom/svm_wrapper.cpp:1092-1093 | with at least K examples every validation block is non-empty |
| Folds.LabelAll | cameraGeom/geom/svm_wrapper.cpp:1103-1104 | every example of a class carries that class's score, in order |
| Folds.SplitByPosition | cameraGeom/geom/svm_wrapper.cpp:1095-1105 | the per-example loop sends the block to validation and everything else to training, each in its original order |
| Folds.SplitClass | cameraGeom/geom/svm_wrapper.cpp:1086-1106 | one class's share of fold `s` is its block for validation and the rest for training |
| Folds.TrainValidateSplit | cameraGeom/geom/svm_wrapper.cpp:1079-1122 | a feature with no values fails the fold; otherwise an empty training side, then an empty validation side, fails it; otherwise the fold is the class blocks, negatives first; with K ≤ both class sizes and K ≥ 2 it succeeds |
| Folds.SidesCoverClass | cameraGeom/geom/svm_wrapper.cpp:1095-1105 | the two sides of a fold together hold every example of a class exactly once (as a multiset) |
| Folds.FoldSidesNonEmpty | cameraGeom/geom/svm_wrapper.cpp:1107-1110 | with 2 ≤ K ≤ n, both sides of every fold hold examples of the class |
| Folds.EnoughExamplesFoldBoth | cameraGeom/geom/svm_wrapper.cpp:1107-1110 | with at least K ≥ 2 examples of each class, neither side of any fold is empty |
| Folds.PartsLabelled | cameraGeom/geom/svm_wrapper.cpp:1103-1104 | every example on either side of a fold comes from its class and carries its class's score |
| Scores.TotalWeight | cameraGeom/geom/svm_wrapper.cpp:969-980 | the total absolute class weight over the examples is non-negative |
| Scores.ErrorWeight | cameraGeom/geom/svm_wrapper.cpp:969-980 | the weight of the misclassified examples lies between 0 and the total |
| Scores.SignCorrection | cameraGeom/geom/svm_wrapper.cpp:982-991 | the sign is +1 iff the error weight is below half the total; the rate is (total − error)/total or error/total accordingly, lies in [0.5, 1], and exists iff the total is positive |
| Scores.TotalSuccessRate | cameraGeom/geom/svm_wrapper.cpp:964-997 | the sign is +1 iff the weighted error is below half the weight; the rate lies in [0.5, 1] when the weight is positive |
| Scores.SuccessRateIsCorrectedAccuracy | cameraGeom/geom/svm_wrapper.cpp:964-997 | for responses other than 0, the rate is the share of the weight that the sign-corrected classifier gets right (a response of exactly 0 is negative under either sign, so it is left out) |
| Scores.AllWrongFlipsSign | cameraGeom/geom/svm_wrapper.cpp:982-991 | a classifier that is wrong on every example of positive weight gets sign −1 and rate 1 |
| Scores.Precision | cameraGeom/geom/svm_wrapper.cpp:999-1025 | precision exists iff something is predicted positive (otherwise 0/0) and lies in [0, 1] |
| Scores.PrecisionPerfect | cameraGeom/geom/svm_wrapper.cpp:999-1025 | precision is 1 iff something is predicted positive and every predicted positive is positive |
| Scores.ClassErrors | cameraGeom/geom/svm_wrapper.cpp:1033-1046 | a class's errors never exceed its examples |
| Scores.ClassSuccessRate | cameraGeom/geom/svm_wrapper.cpp:1033-1048 | a class's success rate exists iff the class has examples, and lies in [0, 1] |
| Scores.BalancedSuccessRate | cameraGeom/geom/svm_wrapper.cpp:1027-1062 | the balanced rate exists iff both classes are present, and lies in [0, 1] |
| Scores.ClassRatePerfect | cameraGeom/geom/svm_wrapper.cpp:1033-1048 | a present class's success rate is 1 iff none of its examples is misclassified |
| Scores.BalancedRatePerfect | cameraGeom/geom/svm_wrapper.cpp:1027-1062 | the balanced rate is 1 iff both classes are present and every example is classified correctly |
| CrossValidation.Outcomes | cameraGeom/geom/svm_wrapper.cpp:885-906 | the responses less the boundary, one per example in order, or nothing iff some prediction throws |
| CrossValidation.PropCorrect | cameraGeom/geom/svm_wrapper.cpp:870-962 | a throwing predictor scores 0 and leaves sign and precision as they were; otherwise the sign and rate are the weighted success rate's and the precision is measured under that sign |
| CrossValidation.FoldScore | cameraGeom/geom/svm_wrapper.cpp:1124-1150 | a fold's score is 0 or lies in [0.5, 1] |
| CrossValidation.FoldScores | cameraGeom/geom/svm_wrapper.cpp:1386-1395 | one score per fold, in fold order |
| CrossValidation.MeanLessPenalty | cameraGeom/geom/svm_wrapper.cpp:1396-1405 | the mean fold score less 0.003 per selected feature exists iff every fold scored, and lies in [−0.003·dims, 1 − 0.003·dims] |
| CrossValidation.UniformScores | cameraGeom/geom/svm_wrapper.cpp:1396-1405 | when every fold scores `v`, the result is `v − 0.003·dims` |
| CrossValidation.CrossValidationScore | cameraGeom/geom/svm_wrapper.cpp:1380-1406 | the K-fold score exists iff every fold scores, within the penalised bounds |
| CrossValidation.KFoldSplits | cameraGeom/geom/svm_wrapper.cpp:1366-1378 | all K folds in order, the failure of an empty feature, and success with 2 ≤ K ≤ both class sizes |
| CrossValidation.AllExamples | cameraGeom/geom/svm_wrapper.cpp:1305-1312 | all negatives then all positives, each labelled with its class's score |
| CrossValidation.PrecisionSweep | cameraGeom/geom/svm_wrapper.cpp:1316-1329 | one table row per boundary in order; a row's precision is measured at its boundary, or carried from the previous row when prediction throws |
| CrossValidation.TrainOnAll | cameraGeom/geom/svm_wrapper.cpp:1296-1337 | the classifier is trained on all examples, the table has one row per boundary, each row's precision is that of the predictions at its boundary (when a prediction there fails, the previous row's precision, or −1 for the first row), and the final sign and score are those of the weighted success rate at boundary 0 |
| CrossValidation.SweepNeverCarries | cameraGeom/geom/svm_wrapper.cpp:1316-1329 | with a predictor that never throws, every row holds the precision measured at its own boundary |
| Subsets.Insert | cameraGeom/geom/svm_wrapper.cpp:1519 | inserting into an ordered set of subsets keeps it ordered and duplicate-free and adds exactly the new subset |
| Subsets.LexTotal | cameraGeom/geom/svm_wrapper.cpp:1502-1541 | the lexicographic order on subsets is total (it is also irreflexive and transitive), so a set of subsets has one iteration order |
| Subsets.WithoutMember | cameraGeom/geom/svm_wrapper.cpp:1510-1514 | removing a member of a duplicate-free subset shortens it by one and keeps the rest in order |
| Subsets.Backwards | cameraGeom/geom/svm_wrapper.cpp:1502-1521 | the new candidates are exactly the best subset less each of its members, as an ordered set |
| Subsets.Forwards | cameraGeom/geom/svm_wrapper.cpp:1523-1541 | the new candidates are exactly the best subset extended by each feature index it lacks, as an ordered set |
| Subsets.BackwardsShrinks | cameraGeom/geom/svm_wrapper.cpp:1502-1521 | every backward candidate is one shorter, duplicate-free, in range, and an order-preserving subsequence of the best subset |
| Subsets.ForwardsGrows | cameraGeom/geom/svm_wrapper.cpp:1523-1541 | every forward candidate is one longer, duplicate-free, in range, and starts with the best subset |
| Subsets.InitialCandidates | cameraGeom/geom/svm_wrapper.cpp:1653-1662 | backward and no-selection modes start from all features; forward mode starts from every single feature; the file mode is not modelled |
| Subsets.NextCandidates | cameraGeom/geom/svm_wrapper.cpp:1493-1500 | whichever rule the mode picks, the next size's candidates form a lexicographically ordered set, hence one without repeats |
| Subsets.InitialCandidatesValid | cameraGeom/geom/svm_wrapper.cpp:1653-1662 | every starting candidate is a duplicate-free set of feature indices in range |
| Subsets.NextCandidatesValid | cameraGeom/geom/svm_wrapper.cpp:1493-1500 | every candidate of the next size is valid and one longer (forward) or one shorter (backward) |
| Hyper.Grid | cameraGeom/geom/svm_wrapper.cpp:1484-1488 | the grid has one setting per (gamma, nu) pair, each unscored (score −1) and built from the listed values |
| Hyper.GridIndex | cameraGeom/geom/svm_wrapper.cpp:1484-1488 | the grid has one unscored setting per (gamma, nu) pair, gamma outermost, nu fastest |
| Hyper.Place | cameraGeom/geom/svm_wrapper.cpp:1616-1618 | assigning into the score-keyed map keeps it strictly descending and replaces any entry with the same score |
| Hyper.ByScore | cameraGeom/geom/svm_wrapper.cpp:1613-1618 | the map holds one entry per distinct score, strictly descending, each the last setting seen with that score |
| Hyper.FilterHyperparameters | cameraGeom/geom/svm_wrapper.cpp:1607-1627 | at most K settings leave the list unchanged; otherwise between 1 and K remain (1 when K is 0, since the copy-out loop appends an entry before it compares the count with K), with strictly descending scores, each the last setting of its score; exactly K remain unless every score of the input survives |
| Hyper.FilterDropsLower | cameraGeom/geom/svm_wrapper.cpp:1607-1627 | any score that pruning drops lies below every kept score |
| Hyper.FilterFirstIsBest | cameraGeom/geom/svm_wrapper.cpp:1607-1627 | after pruning, the first kept setting has the maximum score of the input |
| Search.Evaluate | cameraGeom/geom/svm_wrapper.cpp:1567-1572 | every setting is scored on the subset, keeping its nu and gamma |
| Search.EvaluateForgets | cameraGeom/geom/svm_wrapper.cpp:1567-1572 | scores from an earlier subset have no effect on a later evaluation |
| Search.TrainHyperparameters | cameraGeom/geom/svm_wrapper.cpp:1554-1581 | the best setting for a subset scores at least −1 and at least every setting's score, and is either the unscored start or one of the settings with its score |
| Search.TrainHyperparametersEarliest | cameraGeom/geom/svm_wrapper.cpp:1578-1580 | with nothing above −1 the start is kept; otherwise the result is the earliest setting with the top score |
| Search.Prune | cameraGeom/geom/svm_wrapper.cpp:1703-1704 | settings are pruned only when filtering is on and the subset is larger than a third of the features |
| Search.SizeRound | cameraGeom/geom/svm_wrapper.cpp:1694-1714 | one size's best never scores below its start and is the start or one of the candidates |
| Search.ParamsInForce | cameraGeom/geom/svm_wrapper.cpp:1696-1704 | the settings each candidate is trained on: the full list for the first, then whatever pruning after each earlier candidate left, never more than the full list |
| Search.SizeRoundIsStrictBest | cameraGeom/geom/svm_wrapper.cpp:1696-1714 | with or without pruning, a size's best is the strict running best over the candidates each trained on the settings in force when its turn came |
| Search.SizeRoundBeatsEveryCandidate | cameraGeom/geom/svm_wrapper.cpp:1696-1714 | a size's best scores at least as well as every candidate trained on the settings in force for it |
| Search.SizeRoundUnpruned | cameraGeom/geom/svm_wrapper.cpp:1694-1714 | without pruning, a size's best is the strict running best over the candidates, each trained on the full grid, earliest winning ties |
| Search.SizeBests | cameraGeom/geom/svm_wrapper.cpp:1691-1725 | the search visits all sizes in the selection modes and one size in the file and no-selection modes |
| Search.SearchFrom | cameraGeom/geom/svm_wrapper.cpp:1691-1725 | the overall choice never scores below the choice it starts from, since a size's best replaces it only when scoring at least as well |
| Search.SearchIsLatestBest | cameraGeom/geom/svm_wrapper.cpp:1716-1719 | the overall choice is the non-strict running best over the sizes' bests, so a later size wins a tie |
| Search.SizeBestsValid | cameraGeom/geom/svm_wrapper.cpp:1691-1725 | starting from valid candidates, every size's best names a duplicate-free subset of feature indices |
| Search.TrainSvm | cameraGeom/geom/svm_wrapper.cpp:1666-1736 | the final choice scores at least −1 and names a valid subset |
| Search.TrainSvmIsBestSize | cameraGeom/geom/svm_wrapper.cpp:1691-1725 | the final choice scores at least as well as every size's best, and is the last size's best attaining the top score |
| Normalise.ScaleFromDeviation | cameraGeom/geom/svm_wrapper.cpp:252-255 | the scale is positive: the reciprocal of a positive deviation, otherwise 1 |
| Normalise.SelectInto | cameraGeom/geom/svm_wrapper.cpp:193-206 | one value per selected index, in subset order, each `scale·(value − mean)` |
| Normalise.SelectAndNormalise | cameraGeom/geom/svm_wrapper.cpp:216-237 | an empty subset fails; otherwise the selection is non-empty |
| Normalise.Denormalise | cameraGeom/geom/svm_wrapper.cpp:216-237 | with non-zero scales, every selected raw value is recovered from its normalised value |
| Normalise.OnlySelectedMatter | cameraGeom/geom/svm_wrapper.cpp:216-237 | features that agree on the subset normalise alike |
| Normalise.MeanMapsToZero | cameraGeom/geom/svm_wrapper.cpp:216-237 | a feature equal to the means normalises to zeros |
| Runtime.Nearest | cameraGeom/geom/svm_wrapper.cpp:296-309 | the scan's pick is −1 or an entry with a precision other than the excluded one |
| Runtime.NearestIsEarliestMinimum | cameraGeom/geom/svm_wrapper.cpp:296-309 | the pick is nearest the target of all candidates, and strictly nearer than every earlier one |
| Runtime.NearestTwo | cameraGeom/geom/svm_wrapper.cpp:295-309 | the two-slot loop ends holding the nearest entry and the nearest of the rest |
| Runtime.Line | cameraGeom/geom/svm_wrapper.cpp:311-320 | the fitted line passes through both points: at either point's precision it gives that point's boundary |
| Runtime.InterpPrecisionBoundary | cameraGeom/geom/svm_wrapper.cpp:292-322 | fails iff the two nearest precisions are equal; otherwise returns the point on the line through them, which is the nearest entry's boundary when the target equals its precision |
| Runtime.TwoDistinctPrecisionsFit | cameraGeom/geom/svm_wrapper.cpp:292-322 | with two entries of distinct precisions nearer the target than the sentinel, the fit succeeds |
| Runtime.ExactPrecisionIsNearest | cameraGeom/geom/svm_wrapper.cpp:296-309 | when some entry's precision equals the target, the nearest-entry scan picks an entry with exactly that precision |
| Runtime.ClassificationBoundary | cameraGeom/geom/svm_wrapper.cpp:344-350 | the boundary is 0 when no table is stored or no precision is requested; a stored table, even an empty one, is interpolated: it fails iff the two nearest precisions are equal (always for an empty table), and returns the stored boundary of an entry whose precision is the target exactly |
| Runtime.Validate | cameraGeom/geom/svm_wrapper.cpp:73-80 | the mapping is valid iff both thresholds are probabilities, the low one is below the high one, and the scale is positive |
| Runtime.DefaultSigmoidValid | cameraGeom/geom/svm_wrapper.cpp:62-71 | the default mapping (0.1, 0.9, shift 0, scale 1) is valid |
| Runtime.Prob | cameraGeom/geom/svm_wrapper.cpp:82-86 | with the low threshold below the high one and a logistic value strictly inside (0, 1), the probability lies strictly between the thresholds |
| Runtime.ProbBetweenThresholds | cameraGeom/geom/svm_wrapper.cpp:82-86 | for a valid mapping every response maps strictly between the thresholds, hence to a probability |
| Runtime.Classify | cameraGeom/geom/svm_wrapper.cpp:580-597 | a rejected feature gives −1; with sign 0 a kept feature gives +1; otherwise a result exists iff prediction succeeds |
| Runtime.ClassifyDecision | cameraGeom/geom/svm_wrapper.cpp:580-597 | a rejected feature is negative; with sign +1 (−1) a kept feature is positive iff the response is above (below) the boundary |
| Runtime.Probability | cameraGeom/geom/svm_wrapper.cpp:599-611 | an invalid mapping fails with its reason; otherwise a probability exists iff classification does, lies strictly between the thresholds, and the range check never fails |
| Training.NewTrainer | cameraGeom/geom/svm_wrapper.cpp:1758-1776 | construction fails iff the relative weight is not positive, and otherwise keeps the settings with no examples |
| Training.AddTrainingFeature | cameraGeom/geom/svm_wrapper.cpp:1852-1880 | an example is appended to its own class, duplicates kept, and nothing else changes |
| Training.AddAll | cameraGeom/geom/svm_wrapper.cpp:1852-1880 | a stream of additions grows the example count by the stream's length and leaves the settings unchanged |
| Training.AddAllSorts | cameraGeom/geom/svm_wrapper.cpp:1852-1880 | after a stream of additions each class holds exactly the stream's examples of that class, in arrival order, with the settings untouched |
| Training.WithLabelSplits | cameraGeom/geom/svm_wrapper.cpp:1852-1871 | every example of the stream lands in exactly one class |
| Training.Finish | cameraGeom/geom/svm_wrapper.cpp:1799-1841 | nothing is saved iff a class has fewer than 20 examples; weights exist iff an SVM is chosen; the choice is valid and scores at least −1; without boosting the cascade is empty and an SVM is chosen; with boosting the cascade comes from the corrected builder `CascadeBuilder.FindBoosterStates`, not the loop as written |
| Training.FinishWithoutBoosting | cameraGeom/geom/svm_wrapper.cpp:1811-1834 | without boosting, the weights balance the whole classes and the SVM is the search's choice on all examples |
| Training.FinishWithBoosting | cameraGeom/geom/svm_wrapper.cpp:1812-1834 | with boosting, the saved cascade is the corrected builder's (`CascadeBuilder.FindBoosterStates`); a cascade-only state is saved iff it removes a whole class; otherwise the weights and the search use exactly the surviving examples |
| Training.NewTrainerSavesNothing | cameraGeom/geom/svm_wrapper.cpp:1807-1810 | a trainer that never received an example saves nothing |

## Left out

- The SVM itself (training, prediction, saving, loading, support-vector counts): it is external to the file. It appears as a predictor parameter that may fail, and as a training function producing one.
- File I/O is not modelled: `CSavedSVMState` load and save, `loadHyperparams`, the feature-set file branch of `setupFeatureSelection`, `outputDecisionBoundary`, the result TSV files and the features file. `Subsets.InitialCandidates` gives the file mode no candidates.
- The thread pool in `trainHyperparameters` and the mutex in `addTrainingFeature` are not modelled. The jobs score independent settings, so the model evaluates them in order.
- The sigmoid fitting (`fitSigmoid`, `CLMForSVMSigmoid`) and `exp`/`log` are not modelled. The logistic function is a parameter required to map into (0, 1).
- The log-spaced values of the hyperparameter grid (`pow`, `exp`, floating loop steps) are not modelled; only the order of the gamma × nu product is (`Hyper.Grid`).
- `meanSD` and the square root behind the normalising coefficients are not modelled; only the scale rule (`Normalise.ScaleFromDeviation`) is.
- `CComputeMeanCov`, the duplicate-distance warning and all verbose printing are not modelled, because they only produce output.
- The `bClassificationError` branch of `propCorrect` is not modelled, because its constant is false.
- Duplicate removal in `addTrainingFeature` is not modelled, because `bRemoveDuplicates` is false.
- `CSVMFeature_base` (the lazily filled feature cache) is not modelled; a feature is a sequence of reals.
- Floating point and the `(float)` casts are not modelled; all values are exact `real`s. A NaN (0/0) becomes `None`, and an infinite or NaN fold score is not modelled.
- The `int` products `n·s` in the fold block arithmetic are unbounded here. The source overflows only beyond 2^31 / K examples per class.
- `CHECKPROBABILITY`, `CHECKBADNUM` and `zero` are defined outside this file. They are read as their names say.
- Training.Finish: with boosting on, the cascade is built by the corrected builder `CascadeBuilder.FindBoosterStates`, not by the loop as written at lines 721-760. When an accepted test removes every negative, the source reads `aaadFeatures[false][0]` of an empty collection at line 760 and never reaches the save at line 1837, while the model saves a cascade-only state. The Findings row records the discrepancy. Boosting is switched off at line 1813, so this path is not live.
- Training.FinishWithBoosting: "a cascade-only state is saved iff the cascade removes a whole class" holds for the corrected builder only. With the loop as written, removing every negative ends in the out-of-range read of the Findings row, and nothing is saved.
- Training.Finish: the search's oracle `cv` is a parameter standing for the cross-validation score of a subset and setting on the surviving examples. Normalisation, K-fold construction and retraining feed it but are not composed into it; they are modelled separately (`Normalise`, `Folds`, `CrossValidation`).
- Boosting.FindBoosterState: its own contract states only the shape of the result. Worthwhileness is stated by `BoostingScan.FindBoosterStateWorthwhile`, and when a candidate exists at all by `BoostingScan.CandidateIffSomeCutSuffices`.
- CrossValidation.TrainOnAll: the boundaries of the precision table are a parameter. The source sweeps from −1 to 1 in steps of 0.1 with a floating-point accumulator (line 1317), so the exact set of boundaries it visits is not modelled.
- Runtime.NearestTwo: the `HUGE` sentinel is taken as `FLT_MAX`, the value of the C library macro. An entry at least that far from the target is never picked.
- Normalise.OnlySelectedMatter and Normalise.MeanMapsToZero: these follow directly from the definition of the selection, so they carry no proof of their own.

## Findings

| source | as written | input that shows it | evidently intended | confidence | as-written member | corrected member |
|---|---|---|---|---|---|---|
| cameraGeom/geom/svm_wrapper.cpp:721-760 | `findBoosterStates` loops until `findBestBoosterState` finds no test. That function reads `aaadFeatures[false][0]`, an out-of-range read once an accepted test has removed every negative | 150 negatives with the single value 1.0 and one positive with 0.0. The reject-above test at 0.5 removes all 150 negatives, and the next search reads an empty collection (only reachable with boosting enabled, which line 1813 switches off) | stop building when no negatives remain | not executed | CascadeBuilder.AsWrittenFailsOnExample | CascadeBuilder.FindBoosterStates |

=== FILE: arith.dfy ===
/** Facts about non-negative integer multiplication and division that the
    fold arithmetic needs, and about ratios of counts. On non-negative
    operands Dafny's division agrees with the truncating division of C++ in
    svm_wrapper.cpp. */
module Arith {

  lemma MulMonotone(n: nat, a: nat, b: nat)
    requires a <= b
    ensures n * a <= n * b
  {
    assert n * b == n * a + n * (b - a);
  }

  lemma DivMonotone(a: nat, b: nat, k: nat)
    requires 0 < k && a <= b
    ensures a / k <= b / k
    decreases b - a
  {
    if b - a >= k {
      DivMonotone(a, b - k, k);
      DivPlusDivisor(b - k, k);
    } else {
      var q, r := a / k, a % k;
      assert a == k * q + r;
      if r + (b - a) < k {
        DivUnique(b, k, q, r + (b - a));
      } else {
        assert b == k * (q + 1) + (r + (b - a) - k);
        DivUnique(b, k, q + 1, r + (b - a) - k);
      }
    }
  }

  lemma MulAtLeastSelf(k: nat, d: nat)
    requires 1 <= d
    ensures k <= k * d
  {
    MulMonotone(k, 1, d);
  }

  /** `q` and `r` are the quotient and remainder of `a` by `k`. */
  lemma DivUnique(a: nat, k: nat, q: nat, r: nat)
    requires 0 < k && r < k && a == k * q + r
    ensures a / k == q
  {
    var q' := a / k;
    var r' := a % k;
    assert k * q + r == k * q' + r';
    if q' < q {
      assert k * (q - q') == r' - r;
      MulAtLeastSelf(k, q - q');
    } else if q < q' {
      assert k * (q' - q) == r - r';
      MulAtLeastSelf(k, q' - q);
    }
  }

  lemma DivPlusDivisor(a: nat, k: nat)
    requires 0 < k
    ensures (a + k) / k == a / k + 1
  {
    assert a + k == k * (a / k + 1) + a % k;
    DivUnique(a + k, k, a / k + 1, a % k);
  }

  lemma MulDiv(n: nat, k: nat)
    requires 0 < k
    ensures (n * k) / k == n
  {
    assert n * k == k * n + 0;
    DivUnique(n * k, k, n, 0);
  }

  /** A positive count divided by itself is one. */
  lemma DivSelf(n: nat)
    requires n > 0
    ensures (n as real) / (n as real) == 1.0
  {
  }
}

=== FILE: boosting.dfy ===
/** The greedy cascade builder: for one feature and one direction, sort the
    labelled values, scan running class counts and keep the deepest split
    that removes almost only negatives; take the best split over all
    features and both directions; filter both collections by it and repeat. */
module Boosting {
  import opened Wrappers
  import opened Counting
  import opened Cascade
  import opened Samples

  /** A split may remove fewer than 0.0005 positives per removed negative. */
  const MaxPosPerNeg: real := 0.0005
  /** A split must remove at least this share of all negatives ... */
  const MinimumPower: real := 0.1
  /** ... and at least this many of them. */
  const MinNegRemoved: nat := 150

  /** The values at index `idx` of a collection, tagged with its class. */
  function SamplesOf(fs: seq<Feature>, idx: int, positive: bool): (r: seq<Sample>)
    requires AllIndexable(fs, idx)
    ensures |r| == |fs|
    ensures forall i :: 0 <= i < |fs| ==> fs[i] in fs && r[i] == Sample(fs[i][idx], positive)
    decreases |fs|
  {
    if |fs| == 0 then []
    else
      assert fs[0] in fs;
      assert forall f :: f in fs[1..] ==> f in fs;
      [Sample(fs[0][idx], positive)] + SamplesOf(fs[1..], idx, positive)
  }

  /** Negatives first, then positives, sorted in the order the tests are
      applied: descending values when rejecting above. */
  function SortedSamples(neg: seq<Feature>, pos: seq<Feature>, idx: int, rejectAbove: bool): (a: seq<Sample>)
    requires AllIndexable(neg, idx) && AllIndexable(pos, idx)
    ensures multiset(a) == multiset(SamplesOf(neg, idx, false) + SamplesOf(pos, idx, true))
    ensures Sorted(a, rejectAbove)
    ensures |a| == |neg| + |pos|
  {
    Sort(SamplesOf(neg, idx, false) + SamplesOf(pos, idx, true), rejectAbove)
  }

  function IsNegative(s: Sample): bool
  {
    !s.positive
  }

  function IsPositive(s: Sample): bool
  {
    s.positive
  }

  /** The sample is of class `positive` and the test rejects its value. */
  function RejectedAs(b: BoosterState, positive: bool): Sample -> bool
  {
    (s: Sample) => s.positive == positive && !KeepsValue(b, s.value)
  }

  /** Removing the first `i + 1` sorted samples is acceptable: the cut falls
      between two different values and the removed positives are fewer than
      0.0005 times the removed negatives. */
  predicate Qualifies(a: seq<Sample>, i: int)
  {
    && 0 <= i && i + 1 < |a|
    && a[i].value != a[i + 1].value
    && (CountIf(a[..i + 1], IsPositive) as real) < MaxPosPerNeg * (CountIf(a[..i + 1], IsNegative) as real)
  }

  /** The last qualifying cut below `k`. */
  function LastQualifying(a: seq<Sample>, k: nat): (r: Option<nat>)
    requires k <= |a|
    ensures r.Some? ==> r.value < k && Qualifies(a, r.value) && forall j :: r.value < j < k ==> !Qualifies(a, j)
    ensures r.None? ==> forall j :: 0 <= j < k ==> !Qualifies(a, j)
  {
    if k == 0 then None
    else if Qualifies(a, k - 1) then Some(k - 1)
    else LastQualifying(a, k - 1)
  }

  function LastSplit(a: seq<Sample>): Option<nat>
  {
    LastQualifying(a, |a|)
  }

  /** The last qualifying cut of the whole sequence: it qualifies and no
      later cut does, and there is none exactly when no cut qualifies. */
  lemma LastSplitIsLast(a: seq<Sample>)
    ensures LastSplit(a).Some? ==>
              Qualifies(a, LastSplit(a).value) && forall j :: LastSplit(a).value < j ==> !Qualifies(a, j)
    ensures LastSplit(a).None? <==> forall j :: !Qualifies(a, j)
  {
  }

  function Midpoint(a: seq<Sample>, i: int): real
    requires 0 <= i && i + 1 < |a|
  {
    0.5 * (a[i].value + a[i + 1].value)
  }

  /** A proposed test with the share of negatives it removes. */
  datatype Candidate = Candidate(proportion: real, state: BoosterState)

  const NoCandidate := Candidate(0.0, NoBooster)

  /** How many members of `fs` the test rejects. */
  function Removed(fs: seq<Feature>, b: BoosterState): nat
    requires AllIndexable(fs, b.featureIdx)
  {
    |fs| - |FilterFeatures(fs, b)|
  }

  /** What an accepted test promises about the collections it was built on:
      it removes at least 150 negatives and at least a tenth of them, its
      proportion is the removed share, it removes fewer than 0.0005
      positives per removed negative, and no value equals its threshold. */
  predicate Worthwhile(neg: seq<Feature>, pos: seq<Feature>, c: Candidate)
  {
    var b := c.state;
    && 0 <= b.featureIdx
    && AllIndexable(neg, b.featureIdx) && AllIndexable(pos, b.featureIdx)
    && |neg| > 0
    && Removed(neg, b) >= MinNegRemoved
    && c.proportion == (Removed(neg, b) as real) / (|neg| as real)
    && c.proportion >= MinimumPower
    && (Removed(pos, b) as real) < MaxPosPerNeg * (Removed(neg, b) as real)
    && (forall f :: f in neg ==> f[b.featureIdx] != b.threshold)
    && (forall f :: f in pos ==> f[b.featureIdx] != b.threshold)
  }

  /** On a sorted sequence, a test at the midpoint of an unequal adjacent
      pair rejects exactly the samples up to the cut. */
  lemma SplitSeparates(a: seq<Sample>, i: nat, b: BoosterState)
    requires Sorted(a, b.rejectAbove)
    requires i + 1 < |a| && a[i].value != a[i + 1].value
    requires b.threshold == Midpoint(a, i)
    ensures forall j :: 0 <= j <= i ==> !KeepsValue(b, a[j].value)
    ensures forall j :: i < j < |a| ==> KeepsValue(b, a[j].value)
    ensures forall j :: 0 <= j < |a| ==> a[j].value != b.threshold
  {
    assert Key(a[i], b.rejectAbove) < Key(a[i + 1], b.rejectAbove);
    forall j | 0 <= j < |a|
      ensures j <= i ==> !KeepsValue(b, a[j].value)
      ensures i < j ==> KeepsValue(b, a[j].value)
      ensures a[j].value != b.threshold
    {
      if j < i {
        assert Key(a[j], b.rejectAbove) <= Key(a[i], b.rejectAbove);
      } else if j > i + 1 {
        assert Key(a[i + 1], b.rejectAbove) <= Key(a[j], b.rejectAbove);
      }
    }
  }

  /** The first member adds one to the rejected count exactly when the
      test rejects it. */
  lemma RemovedStep(fs: seq<Feature>, b: BoosterState)
    requires AllIndexable(fs, b.featureIdx) && |fs| > 0
    ensures AllIndexable(fs[1..], b.featureIdx)
    ensures Removed(fs, b) == Removed(fs[1..], b) + if KeepsFeature(b, fs[0]) then 0 else 1
  {
    assert forall f :: f in fs[1..] ==> f in fs;
  }

  lemma {:induction false} SamplesRejected(fs: seq<Feature>, b: BoosterState, tag: bool, positive: bool)
    requires AllIndexable(fs, b.featureIdx)
    ensures CountIf(SamplesOf(fs, b.featureIdx, tag), RejectedAs(b, positive)) ==
            if positive == tag then Removed(fs, b) else 0
    decreases |fs|
  {
    if |fs| > 0 {
      var idx := b.featureIdx;
      assert forall f :: f in fs[1..] ==> f in fs;
      assert fs[0] in fs;
      SamplesRejected(fs[1..], b, tag, positive);
      RemovedStep(fs, b);
      var x := Sample(fs[0][idx], tag);
      assert SamplesOf(fs, idx, tag) == [x] + SamplesOf(fs[1..], idx, tag);
      CountAppend([x], SamplesOf(fs[1..], idx, tag), RejectedAs(b, positive));
      CountSingle(x, RejectedAs(b, positive));
    }
  }

  lemma SamplesLabelCount(fs: seq<Feature>, idx: int, tag: bool)
    requires AllIndexable(fs, idx)
    ensures CountIf(SamplesOf(fs, idx, tag), IsNegative) == if tag then 0 else |fs|
    ensures CountIf(SamplesOf(fs, idx, tag), IsPositive) == if tag then |fs| else 0
  {
    var s := SamplesOf(fs, idx, tag);
    if tag {
      CountNone(s, IsNegative);
      CountAll(s, IsPositive);
    } else {
      CountAll(s, IsNegative);
      CountNone(s, IsPositive);
    }
  }

  lemma SampleMembers(fs: seq<Feature>, idx: int, tag: bool, x: Sample)
    requires AllIndexable(fs, idx)
    requires x in SamplesOf(fs, idx, tag)
    ensures x.positive == tag
    ensures exists f :: f in fs && x.value == f[idx]
  {
    var s := SamplesOf(fs, idx, tag);
    var i :| 0 <= i < |s| && s[i] == x;
    assert fs[i] in fs;
  }

  /** Whole-collection counts of the sorted samples. */
  lemma SortedSampleCounts(neg: seq<Feature>, pos: seq<Feature>, idx: int, rejectAbove: bool)
    requires AllIndexable(neg, idx) && AllIndexable(pos, idx)
    ensures CountIf(SortedSamples(neg, pos, idx, rejectAbove), IsNegative) == |neg|
    ensures CountIf(SortedSamples(neg, pos, idx, rejectAbove), IsPositive) == |pos|
  {
    var a := SortedSamples(neg, pos, idx, rejectAbove);
    var sn := SamplesOf(neg, idx, false);
    var sp := SamplesOf(pos, idx, true);
    CountPermutation(a, sn + sp, IsNegative);
    CountPermutation(a, sn + sp, IsPositive);
    CountAppend(sn, sp, IsNegative);
    CountAppend(sn, sp, IsPositive);
    SamplesLabelCount(neg, idx, false);
    SamplesLabelCount(pos, idx, true);
  }

  /** Counting rejected samples of one class in the sorted sequence. */
  lemma SortedRejectedCount(neg: seq<Feature>, pos: seq<Feature>, b: BoosterState, positive: bool)
    requires 0 <= b.featureIdx
    requires AllIndexable(neg, b.featureIdx) && AllIndexable(pos, b.featureIdx)
    ensures CountIf(SortedSamples(neg, pos, b.featureIdx, b.rejectAbove), RejectedAs(b, positive)) ==
            if positive then Removed(pos, b) else Removed(neg, b)
  {
    var idx := b.featureIdx;
    var a := SortedSamples(neg, pos, idx, b.rejectAbove);
    var sn := SamplesOf(neg, idx, false);
    var sp := SamplesOf(pos, idx, true);
    CountPermutation(a, sn + sp, RejectedAs(b, positive));
    CountAppend(sn, sp, RejectedAs(b, positive));
    SamplesRejected(neg, b, false, positive);
    SamplesRejected(pos, b, true, positive);
  }

  /** The cut's test removes exactly the samples before the cut. */
  lemma SplitRemovals(neg: seq<Feature>, pos: seq<Feature>, a: seq<Sample>, b: BoosterState, i: nat)
    requires 0 <= b.featureIdx
    requires AllIndexable(neg, b.featureIdx) && AllIndexable(pos, b.featureIdx)
    requires a == SortedSamples(neg, pos, b.featureIdx, b.rejectAbove)
    requires i + 1 < |a| && a[i].value != a[i + 1].value && b.threshold == Midpoint(a, i)
    ensures Removed(neg, b) == CountIf(a[..i + 1], IsNegative)
    ensures Removed(pos, b) == CountIf(a[..i + 1], IsPositive)
  {
    PrefixRejected(a, b, i, false);
    PrefixRejected(a, b, i, true);
    SortedRejectedCount(neg, pos, b, false);
    SortedRejectedCount(neg, pos, b, true);
  }

  /** On sorted samples, the samples of a class that the midpoint test
      rejects are that class's samples up to the cut. */
  lemma PrefixRejected(a: seq<Sample>, b: BoosterState, i: nat, positive: bool)
    requires Sorted(a, b.rejectAbove)
    requires i + 1 < |a| && a[i].value != a[i + 1].value && b.threshold == Midpoint(a, i)
    ensures CountIf(a, RejectedAs(b, positive)) == CountIf(a[..i + 1], if positive then IsPositive else IsNegative)
  {
    SplitSeparates(a, i, b);
    var p := if positive then IsPositive else IsNegative;
    var rejected := RejectedAs(b, positive);
    forall k | 0 <= k < i + 1
      ensures rejected(a[k]) == p(a[k])
    {
      assert !KeepsValue(b, a[k].value);
    }
    forall k | i + 1 <= k < |a|
      ensures !rejected(a[k])
    {
      assert KeepsValue(b, a[k].value);
    }
    CountSplit(a, i + 1, rejected, p);
  }

  /** Every feature's value appears among the sorted samples. */
  lemma SampleOfEveryFeature(neg: seq<Feature>, pos: seq<Feature>, idx: int, rejectAbove: bool, f: Feature)
    requires AllIndexable(neg, idx) && AllIndexable(pos, idx)
    requires f in neg || f in pos
    ensures exists j :: 0 <= j < |SortedSamples(neg, pos, idx, rejectAbove)| &&
                        SortedSamples(neg, pos, idx, rejectAbove)[j].value == f[idx]
  {
    var a := SortedSamples(neg, pos, idx, rejectAbove);
    var sn := SamplesOf(neg, idx, false);
    var sp := SamplesOf(pos, idx, true);
    var x := Sample(f[idx], f !in neg);
    if f in neg {
      var k :| 0 <= k < |neg| && neg[k] == f;
      assert sn[k] == x;
      assert x in sn + sp;
    } else {
      var k :| 0 <= k < |pos| && pos[k] == f;
      assert sp[k] == x;
      assert x in sn + sp;
    }
    assert x in multiset(a);
    var j :| 0 <= j < |a| && a[j] == x;
  }

  /** No feature value sits exactly on the cut's threshold. */
  lemma SplitAvoidsValues(neg: seq<Feature>, pos: seq<Feature>, a: seq<Sample>, b: BoosterState, i: nat)
    requires 0 <= b.featureIdx
    requires AllIndexable(neg, b.featureIdx) && AllIndexable(pos, b.featureIdx)
    requires a == SortedSamples(neg, pos, b.featureIdx, b.rejectAbove)
    requires i + 1 < |a| && a[i].value != a[i + 1].value && b.threshold == Midpoint(a, i)
    ensures forall f :: f in neg ==> f[b.featureIdx] != b.threshold
    ensures forall f :: f in pos ==> f[b.featureIdx] != b.threshold
  {
    SplitSeparates(a, i, b);
    forall f | f in neg || f in pos
      ensures f[b.featureIdx] != b.threshold
    {
      SampleOfEveryFeature(neg, pos, b.featureIdx, b.rejectAbove, f);
    }
  }

  /** A qualifying cut removes at least one and at most all negatives. */
  lemma QualifyingCutBounds(a: seq<Sample>, i: nat, total: nat)
    requires Qualifies(a, i) && CountIf(a, IsNegative) == total
    ensures 0 < CountIf(a[..i + 1], IsNegative) <= total
  {
    QualifyingCutRemovesNegative(a, i);
    CountPrefixWhole(a, i + 1, IsNegative);
  }

  lemma QualifyingCutRemovesNegative(a: seq<Sample>, i: nat)
    requires Qualifies(a, i)
    ensures 0 < CountIf(a[..i + 1], IsNegative)
  {
    var p := CountIf(a[..i + 1], IsPositive) as real;
    var n := CountIf(a[..i + 1], IsNegative) as real;
    assert 0.0 <= p < MaxPosPerNeg * n;
  }

  /** A qualifying cut that removes enough negatives yields a worthwhile test. */
  lemma AcceptedCut(neg: seq<Feature>, pos: seq<Feature>, a: seq<Sample>, idx: nat, rejectAbove: bool, i: nat)
    requires AllIndexable(neg, idx) && AllIndexable(pos, idx)
    requires a == SortedSamples(neg, pos, idx, rejectAbove)
    requires Qualifies(a, i)
    requires CountIf(a[..i + 1], IsNegative) >= MinNegRemoved
    requires |neg| > 0
    requires (CountIf(a[..i + 1], IsNegative) as real) / (|neg| as real) >= MinimumPower
    ensures Worthwhile(neg, pos, Candidate((CountIf(a[..i + 1], IsNegative) as real) / (|neg| as real),
                                           BoosterState(idx, Midpoint(a, i), rejectAbove)))
  {
    var b := BoosterState(idx, Midpoint(a, i), rejectAbove);
    SplitRemovals(neg, pos, a, b, i);
    SplitAvoidsValues(neg, pos, a, b, i);
  }

  /** Enough negatives removed to accept a cut. */
  predicate Enough(removed: nat, total: nat)
  {
    total > 0 && removed >= MinNegRemoved && (removed as real) / (total as real) >= MinimumPower
  }

  lemma EnoughMonotone(r1: nat, r2: nat, total: nat)
    requires r1 <= r2
    requires Enough(r1, total)
    ensures Enough(r2, total)
  {
    assert (r1 as real) / (total as real) <= (r2 as real) / (total as real);
  }

  lemma DivAtMostOne(r: nat, n: nat)
    requires 0 < n && r <= n
    ensures (r as real) / (n as real) <= 1.0
  {
    assert (r as real) <= (n as real);
  }

  /** The best test on one feature in one direction, or NoCandidate: a
      proposed test is on that feature and direction, sits at the
      midpoint of the last qualifying cut, and removes between a tenth and
      all of the negatives. */
  function FindBoosterState(neg: seq<Feature>, pos: seq<Feature>, idx: nat, rejectAbove: bool): (c: Candidate)
    requires AllIndexable(neg, idx) && AllIndexable(pos, idx)
    ensures c == NoCandidate ||
            (c.state.featureIdx == idx && c.state.rejectAbove == rejectAbove &&
             MinimumPower <= c.proportion <= 1.0)
  {
    SortedSampleCounts(neg, pos, idx, rejectAbove);
    CutCandidate(SortedSamples(neg, pos, idx, rejectAbove), |neg|, idx, rejectAbove)
  }

  /** The decision on sorted samples holding `total` negatives: the last
      qualifying cut, kept when it removes at least 150 negatives and at
      least a tenth of them. */
  function CutCandidate(a: seq<Sample>, total: nat, idx: nat, rejectAbove: bool): (c: Candidate)
    requires CountIf(a, IsNegative) == total
    ensures c == NoCandidate ||
            (c.state.featureIdx == idx && c.state.rejectAbove == rejectAbove &&
             MinimumPower <= c.proportion <= 1.0)
  {
    match LastSplit(a)
    case None => NoCandidate
    case Some(i) =>
      var removed := CountIf(a[..i + 1], IsNegative);
      QualifyingCutBounds(a, i, total);
      var proportion := (removed as real) / (total as real);
      if proportion < MinimumPower || removed < MinNegRemoved then NoCandidate
      else
        DivAtMostOne(removed, total);
        Candidate(proportion, BoosterState(idx, Midpoint(a, i), rejectAbove))
  }

}

module BoostingScan {
  import opened Wrappers
  import opened Counting
  import opened Cascade
  import opened Samples
  import opened Boosting
  import opened Arith

  /** The scan's state after the first `i` samples: the running counts,
      and the last qualifying cut so far with its removal count and
      threshold. */
  ghost predicate Scanned(a: seq<Sample>, i: nat, numPos: int, numNeg: int, last: Option<nat>,
                          threshold: real, removed: int)
  {
    && i <= |a|
    && numPos == CountIf(a[..i], IsPositive)
    && numNeg == CountIf(a[..i], IsNegative)
    && last == LastQualifying(a, i)
    && (last.None? ==> removed == -1)
    && (last.Some? ==>
          last.value + 1 < |a| &&
          removed == CountIf(a[..last.value + 1], IsNegative) &&
          threshold == Midpoint(a, last.value))
  }

  /** The single pass of svm_wrapper.cpp over the sorted samples: running class
      counts, and the last cut that qualifies. `removed` stays -1 when no
      cut qualifies (the threshold is then never read). */
  method ScanSplits(a: seq<Sample>) returns (threshold: real, removed: int)
    ensures LastSplit(a).None? ==> removed == -1
    ensures LastSplit(a).Some? ==>
              removed == CountIf(a[..LastSplit(a).value + 1], IsNegative) &&
              threshold == Midpoint(a, LastSplit(a).value)
  {
    var numPos := 0;
    var numNeg := 0;
    threshold := 0.0;
    removed := -1;
    var i := 0;
    ghost var last: Option<nat> := None;
    while i < |a| - 1
      invariant Scanned(a, i, numPos, numNeg, last, threshold, removed)
    {
      ghost var (p0, n0, l0, t0, r0) := (numPos, numNeg, last, threshold, removed);
      if a[i].positive {
        numPos := numPos + 1;
      } else {
        numNeg := numNeg + 1;
      }
      if (numPos as real) < MaxPosPerNeg * (numNeg as real) && a[i].value != a[i + 1].value {
        threshold := 0.5 * (a[i].value + a[i + 1].value);
        removed := numNeg;
        last := Some(i);
      }
      ScanAdvance(a, i, p0, n0, l0, t0, r0, numPos, numNeg, last, threshold, removed);
      i := i + 1;
    }
    ScanFinished(a, i, numPos, numNeg, last, threshold, removed);
  }

  /** One step of the scan keeps its state description. */
  lemma ScanAdvance(a: seq<Sample>, i: nat, numPos: int, numNeg: int, last: Option<nat>, threshold: real, removed: int,
                    numPos': int, numNeg': int, last': Option<nat>, threshold': real, removed': int)
    requires i + 1 < |a|
    requires Scanned(a, i, numPos, numNeg, last, threshold, removed)
    requires numPos' == numPos + (if a[i].positive then 1 else 0)
    requires numNeg' == numNeg + (if a[i].positive then 0 else 1)
    requires var cut := (numPos' as real) < MaxPosPerNeg * (numNeg' as real) && a[i].value != a[i + 1].value;
             && (cut ==> threshold' == 0.5 * (a[i].value + a[i + 1].value) && removed' == numNeg' && last' == Some(i))
             && (!cut ==> threshold' == threshold && removed' == removed && last' == last)
    ensures Scanned(a, i + 1, numPos', numNeg', last', threshold', removed')
  {
    CountStep(a, i, IsPositive);
    CountStep(a, i, IsNegative);
    QualifiesByCounts(a, i, numPos', numNeg');
    LastQualifyingStep(a, i);
  }

  /** When the scan stops, its last cut is the last qualifying cut of all. */
  lemma ScanFinished(a: seq<Sample>, i: nat, numPos: int, numNeg: int, last: Option<nat>, threshold: real, removed: int)
    requires !(i < |a| - 1)
    requires Scanned(a, i, numPos, numNeg, last, threshold, removed)
    ensures LastSplit(a) == last
    ensures last.None? ==> removed == -1
    ensures last.Some? ==>
              (last.value + 1 < |a| && removed == CountIf(a[..last.value + 1], IsNegative) &&
               threshold == Midpoint(a, last.value))
  {
    if |a| > 0 {
      assert !Qualifies(a, |a| - 1);
      assert i == |a| - 1 || i == |a|;
      if i == |a| - 1 {
        LastQualifyingStep(a, i);
      }
    }
  }

  /** The scan's test at position `i`, on the running counts, is the
      qualifying condition. */
  lemma QualifiesByCounts(a: seq<Sample>, i: nat, numPos: int, numNeg: int)
    requires i + 1 < |a|
    requires numPos == CountIf(a[..i + 1], IsPositive) && numNeg == CountIf(a[..i + 1], IsNegative)
    ensures Qualifies(a, i) <==> (numPos as real) < MaxPosPerNeg * (numNeg as real) && a[i].value != a[i + 1].value
  {
  }

  lemma LastQualifyingStep(a: seq<Sample>, i: nat)
    requires i < |a|
    ensures LastQualifying(a, i + 1) == if Qualifies(a, i) then Some(i) else LastQualifying(a, i)
  {
  }

  /** The decision on sorted samples spelled out: no test without a
      qualifying cut; at the last qualifying cut, a test exactly when it
      removes enough negatives. */
  lemma CutCandidateOutcome(a: seq<Sample>, total: nat, idx: nat, rejectAbove: bool)
    requires CountIf(a, IsNegative) == total
    ensures var c := CutCandidate(a, total, idx, rejectAbove);
            && (LastSplit(a).None? ==> c == NoCandidate)
            && (LastSplit(a).Some? ==>
                  var i := LastSplit(a).value;
                  var r := CountIf(a[..i + 1], IsNegative);
                  c == if Enough(r, total)
                       then Candidate((r as real) / (total as real), BoosterState(idx, Midpoint(a, i), rejectAbove))
                       else NoCandidate)
  {
    if LastSplit(a).Some? {
      QualifyingCutBounds(a, LastSplit(a).value, total);
    }
  }

  /** FindBoosterState spelled out on its sorted samples. */
  lemma FindBoosterStateOutcome(neg: seq<Feature>, pos: seq<Feature>, idx: nat, rejectAbove: bool)
    requires AllIndexable(neg, idx) && AllIndexable(pos, idx)
    ensures var a := SortedSamples(neg, pos, idx, rejectAbove);
            var c := FindBoosterState(neg, pos, idx, rejectAbove);
            && (LastSplit(a).None? ==> c == NoCandidate)
            && (LastSplit(a).Some? ==>
                  var i := LastSplit(a).value;
                  var r := CountIf(a[..i + 1], IsNegative);
                  c == if Enough(r, |neg|)
                       then Candidate((r as real) / (|neg| as real), BoosterState(idx, Midpoint(a, i), rejectAbove))
                       else NoCandidate)
  {
    SortedSampleCounts(neg, pos, idx, rejectAbove);
    CutCandidateOutcome(SortedSamples(neg, pos, idx, rejectAbove), |neg|, idx, rejectAbove);
  }

  /** Every proposed test is worthwhile on the collections it was built on. */
  lemma FindBoosterStateWorthwhile(neg: seq<Feature>, pos: seq<Feature>, idx: nat, rejectAbove: bool)
    requires AllIndexable(neg, idx) && AllIndexable(pos, idx)
    ensures var c := FindBoosterState(neg, pos, idx, rejectAbove);
            c == NoCandidate || Worthwhile(neg, pos, c)
  {
    var a := SortedSamples(neg, pos, idx, rejectAbove);
    SortedSampleCounts(neg, pos, idx, rejectAbove);
    assert FindBoosterState(neg, pos, idx, rejectAbove) == CutCandidate(a, |neg|, idx, rejectAbove);
    CutCandidateWorthwhile(neg, pos, a, idx, rejectAbove);
  }

  lemma CutCandidateWorthwhile(neg: seq<Feature>, pos: seq<Feature>, a: seq<Sample>, idx: nat, rejectAbove: bool)
    requires AllIndexable(neg, idx) && AllIndexable(pos, idx)
    requires a == SortedSamples(neg, pos, idx, rejectAbove) && CountIf(a, IsNegative) == |neg|
    ensures var c := CutCandidate(a, |neg|, idx, rejectAbove);
            c == NoCandidate || Worthwhile(neg, pos, c)
  {
    var c := CutCandidate(a, |neg|, idx, rejectAbove);
    CutCandidateOutcome(a, |neg|, idx, rejectAbove);
    if LastSplit(a).Some? {
      var i := LastSplit(a).value;
      var r := CountIf(a[..i + 1], IsNegative);
      if Enough(r, |neg|) {
        assert c == Candidate((r as real) / (|neg| as real), BoosterState(idx, Midpoint(a, i), rejectAbove));
        AcceptedCut(neg, pos, a, idx, rejectAbove, i);
      } else {
        assert c == NoCandidate;
      }
    } else {
      assert c == NoCandidate;
    }
  }

  /** A deeper cut removes at least as many negatives, so the last
      qualifying cut removes enough negatives exactly when some qualifying
      cut does. */
  lemma LastCutDecides(a: seq<Sample>, total: nat)
    ensures (LastSplit(a).Some? && Enough(CountIf(a[..LastSplit(a).value + 1], IsNegative), total)) <==>
            (exists j :: Qualifies(a, j) && Enough(CountIf(a[..j + 1], IsNegative), total))
  {
    if j :| Qualifies(a, j) && Enough(CountIf(a[..j + 1], IsNegative), total) {
      var i := LastSplit(a).value;
      CountPrefixMonotone(a, j + 1, i + 1, IsNegative);
      EnoughMonotone(CountIf(a[..j + 1], IsNegative), CountIf(a[..i + 1], IsNegative), total);
    }
  }

  /** On sorted samples, a test is proposed exactly when some qualifying
      cut removes enough negatives. */
  lemma CutCandidateIffSomeCut(a: seq<Sample>, total: nat, idx: nat, rejectAbove: bool)
    requires CountIf(a, IsNegative) == total
    ensures CutCandidate(a, total, idx, rejectAbove) != NoCandidate <==>
            exists j :: Qualifies(a, j) && Enough(CountIf(a[..j + 1], IsNegative), total)
  {
    CutCandidateOutcome(a, total, idx, rejectAbove);
    LastCutDecides(a, total);
    if LastSplit(a).Some? {
      var i := LastSplit(a).value;
      var r := CountIf(a[..i + 1], IsNegative);
      if Enough(r, total) {
        assert CutCandidate(a, total, idx, rejectAbove).state.featureIdx == idx;
      }
    }
  }

  /** Taking the last qualifying cut loses nothing: a test is proposed
      exactly when some qualifying cut removes enough negatives. */
  lemma CandidateIffSomeCutSuffices(neg: seq<Feature>, pos: seq<Feature>, idx: nat, rejectAbove: bool)
    requires AllIndexable(neg, idx) && AllIndexable(pos, idx)
    ensures var a := SortedSamples(neg, pos, idx, rejectAbove);
            FindBoosterState(neg, pos, idx, rejectAbove) != NoCandidate <==>
            exists j :: Qualifies(a, j) && Enough(CountIf(a[..j + 1], IsNegative), |neg|)
  {
    SortedSampleCounts(neg, pos, idx, rejectAbove);
    CutCandidateIffSomeCut(SortedSamples(neg, pos, idx, rejectAbove), |neg|, idx, rejectAbove);
  }

  function AtLeast(cut: real): Sample -> bool
  {
    (s: Sample) => s.value >= cut
  }

  /** In a descending sequence the samples at or above a cut form a prefix. */
  lemma {:induction false} DescendingPrefix(a: seq<Sample>, cut: real)
    requires Sorted(a, true)
    ensures forall j :: 0 <= j < CountIf(a, AtLeast(cut)) ==> a[j].value >= cut
    ensures forall j :: CountIf(a, AtLeast(cut)) <= j < |a| ==> a[j].value < cut
    decreases |a|
  {
    if |a| > 0 {
      var n := |a| - 1;
      if a[n].value >= cut {
        forall j | 0 <= j < |a|
          ensures AtLeast(cut)(a[j])
        {
          if j < n {
            assert Key(a[j], true) <= Key(a[n], true);
          }
        }
        CountAll(a, AtLeast(cut));
      } else {
        DescendingPrefix(a[..n], cut);
      }
    }
  }

  lemma SeparableCounts(neg: seq<Feature>, pos: seq<Feature>, idx: nat, cut: real)
    requires AllIndexable(neg, idx) && AllIndexable(pos, idx)
    requires forall f :: f in neg ==> f[idx] >= cut
    requires forall f :: f in pos ==> f[idx] < cut
    ensures CountIf(SortedSamples(neg, pos, idx, true), AtLeast(cut)) == |neg|
    ensures forall j :: 0 <= j < |SortedSamples(neg, pos, idx, true)| &&
                        SortedSamples(neg, pos, idx, true)[j].positive ==>
                        SortedSamples(neg, pos, idx, true)[j].value < cut
  {
    var a := SortedSamples(neg, pos, idx, true);
    var sn := SamplesOf(neg, idx, false);
    var sp := SamplesOf(pos, idx, true);
    forall j | 0 <= j < |sn|
      ensures AtLeast(cut)(sn[j])
    {
      assert neg[j] in neg;
    }
    forall j | 0 <= j < |sp|
      ensures !AtLeast(cut)(sp[j])
    {
      assert pos[j] in pos;
    }
    CountAll(sn, AtLeast(cut));
    CountNone(sp, AtLeast(cut));
    CountAppend(sn, sp, AtLeast(cut));
    CountPermutation(a, sn + sp, AtLeast(cut));
    forall j | 0 <= j < |a| && a[j].positive
      ensures a[j].value < cut
    {
      assert a[j] in multiset(sn + sp);
      assert a[j] in sn || a[j] in sp;
      if a[j] in sn {
        SampleMembers(neg, idx, false, a[j]);
      } else {
        SampleMembers(pos, idx, true, a[j]);
      }
    }
  }

  /** On a descending sequence whose samples at or above a cut are exactly
      its `n` negatives, cutting after the first `n` samples qualifies and
      removes all of them. */
  lemma SeparatedQualifies(a: seq<Sample>, n: nat, cut: real)
    requires Sorted(a, true)
    requires 0 < n < |a|
    requires CountIf(a, AtLeast(cut)) == n
    requires forall j :: 0 <= j < |a| && a[j].positive ==> a[j].value < cut
    ensures Qualifies(a, n - 1)
    ensures CountIf(a[..n], IsNegative) == n
  {
    DescendingPrefix(a, cut);
    assert forall j :: 0 <= j < n ==> IsNegative(a[j]);
    CountAll(a[..n], IsNegative);
    CountNone(a[..n], IsPositive);
    assert a[n - 1].value >= cut > a[n].value;
  }

  /** ... and so does the last qualifying cut, which lies no earlier. */
  lemma SeparatedCut(a: seq<Sample>, n: nat, cut: real)
    requires Sorted(a, true)
    requires 0 < n < |a|
    requires CountIf(a, AtLeast(cut)) == n
    requires CountIf(a, IsNegative) == n
    requires forall j :: 0 <= j < |a| && a[j].positive ==> a[j].value < cut
    ensures LastSplit(a).Some? && CountIf(a[..LastSplit(a).value + 1], IsNegative) == n
  {
    SeparatedQualifies(a, n, cut);
    var i := LastSplit(a).value;
    CountPrefixMonotone(a, n, i + 1, IsNegative);
    CountPrefixWhole(a, i + 1, IsNegative);
  }

  /** The sorted samples of a separable feature meet the conditions of
      SeparatedCut. */
  lemma SeparableSamples(neg: seq<Feature>, pos: seq<Feature>, idx: nat, cut: real)
    requires AllIndexable(neg, idx) && AllIndexable(pos, idx)
    requires |neg| > 0 && |pos| > 0
    requires forall f :: f in neg ==> f[idx] >= cut
    requires forall f :: f in pos ==> f[idx] < cut
    ensures var a := SortedSamples(neg, pos, idx, true);
            && Sorted(a, true) && 0 < |neg| < |a|
            && CountIf(a, AtLeast(cut)) == |neg|
            && CountIf(a, IsNegative) == |neg|
            && forall j :: 0 <= j < |a| && a[j].positive ==> a[j].value < cut
  {
    SeparableCounts(neg, pos, idx, cut);
    SortedSampleCounts(neg, pos, idx, true);
  }

  lemma SeparableSplit(neg: seq<Feature>, pos: seq<Feature>, idx: nat, cut: real)
    requires AllIndexable(neg, idx) && AllIndexable(pos, idx)
    requires |neg| > 0 && |pos| > 0
    requires forall f :: f in neg ==> f[idx] >= cut
    requires forall f :: f in pos ==> f[idx] < cut
    ensures var a := SortedSamples(neg, pos, idx, true);
            LastSplit(a).Some? && CountIf(a[..LastSplit(a).value + 1], IsNegative) == |neg|
  {
    var a := SortedSamples(neg, pos, idx, true);
    SeparableSamples(neg, pos, idx, cut);
    SeparatedCut(a, |neg|, cut);
    assert LastSplit(a).Some? && CountIf(a[..LastSplit(a).value + 1], IsNegative) == |neg|;
  }

  /** When every negative lies at or above a cut and every positive below
      it on one feature, and there are at least 150 negatives and one
      positive, the reject-above test on that feature removes every
      negative, and fewer than 0.0005 positives per negative. */
  lemma SeparableFeatureRemovesAllNegatives(neg: seq<Feature>, pos: seq<Feature>, idx: nat, cut: real)
    requires AllIndexable(neg, idx) && AllIndexable(pos, idx)
    requires |neg| >= MinNegRemoved && |pos| >= 1
    requires forall f :: f in neg ==> f[idx] >= cut
    requires forall f :: f in pos ==> f[idx] < cut
    ensures var c := FindBoosterState(neg, pos, idx, true);
            && c.proportion == 1.0
            && c.state.featureIdx == idx
            && |FilterFeatures(neg, c.state)| == 0
            && (Removed(pos, c.state) as real) < MaxPosPerNeg * (|neg| as real)
  {
    var c := FindBoosterState(neg, pos, idx, true);
    assert c.proportion == 1.0 && c.state.featureIdx == idx by {
      SeparableSplit(neg, pos, idx, cut);
      DivSelf(|neg|);
      assert Enough(|neg|, |neg|);
      FindBoosterStateOutcome(neg, pos, idx, true);
    }
    FindBoosterStateWorthwhile(neg, pos, idx, true);
    WorthwhileRemovingAll(neg, pos, c);
  }

  /** A worthwhile test of proportion one removes every negative. */
  lemma WorthwhileRemovingAll(neg: seq<Feature>, pos: seq<Feature>, c: Candidate)
    requires Worthwhile(neg, pos, c) && c.proportion == 1.0
    ensures |FilterFeatures(neg, c.state)| == 0
    ensures (Removed(pos, c.state) as real) < MaxPosPerNeg * (|neg| as real)
  {
    var r := Removed(neg, c.state) as real;
    var n := |neg| as real;
    assert r / n == 1.0;
    assert r == (r / n) * n;
  }
}

=== FILE: cascade.dfy ===
/** The runtime cascade: single-feature threshold tests that reject easy
    negatives before the classifier is consulted. */
module Cascade {
  import opened Counting

  /** A feature vector: one value per feature index. */
  type Feature = seq<real>

  /** One threshold test on one feature. */
  datatype BoosterState = BoosterState(featureIdx: int, threshold: real, rejectAbove: bool)

  /** The "no booster" value, recognised by its feature index -1. (In
      svm_wrapper.cpp the threshold here is HUGE; it is never read.) */
  const NoBooster := BoosterState(-1, 0.0, false)

  /** A test keeps a value strictly on the accepted side of its threshold;
      a value equal to the threshold is rejected in both directions. */
  predicate KeepsValue(b: BoosterState, v: real)
  {
    if b.rejectAbove then v < b.threshold else v > b.threshold
  }

  lemma ThresholdIsRejected(b: BoosterState, v: real)
    ensures KeepsValue(b, v) ==> v != b.threshold
    ensures KeepsValue(b, v) <==> (b.rejectAbove && v < b.threshold) || (!b.rejectAbove && b.threshold < v)
  {
  }

  /** Every feature of `fs` has a value at index `idx`. */
  predicate AllIndexable(fs: seq<Feature>, idx: int)
  {
    forall f :: f in fs ==> 0 <= idx < |f|
  }

  function KeepsFeature(b: BoosterState, f: Feature): bool
    requires 0 <= b.featureIdx < |f|
  {
    KeepsValue(b, f[b.featureIdx])
  }

  /** Every test of the cascade reads an index the feature has. */
  predicate Applicable(cascade: seq<BoosterState>, f: Feature)
  {
    forall i :: 0 <= i < |cascade| ==> 0 <= cascade[i].featureIdx < |f|
  }

  /** The cascade keeps a feature iff every test keeps it; tests are applied
      in order and the first rejection stops the scan. The empty cascade
      keeps everything. */
  function CascadeKeeps(cascade: seq<BoosterState>, f: Feature): (r: bool)
    requires Applicable(cascade, f)
    ensures r <==> forall i :: 0 <= i < |cascade| ==> KeepsFeature(cascade[i], f)
    ensures |cascade| == 0 ==> r
  {
    if |cascade| == 0 then true
    else if !KeepsFeature(cascade[0], f) then false
    else
      assert forall i :: 1 <= i < |cascade| ==> cascade[i] == cascade[1..][i - 1];
      CascadeKeeps(cascade[1..], f)
  }

  /** Replace a collection by the members one test keeps, in order; a
      kept feature keeps all its copies. */
  function FilterFeatures(fs: seq<Feature>, b: BoosterState): (r: seq<Feature>)
    requires AllIndexable(fs, b.featureIdx)
    ensures IsSubsequence(r, fs)
    ensures |r| <= |fs|
    ensures forall f :: f in r ==> f in fs && KeepsFeature(b, f)
    ensures forall f :: f in fs && KeepsFeature(b, f) ==> f in r
    ensures forall f {:trigger multiset(r)[f]} :: f in fs ==> multiset(r)[f] == if KeepsFeature(b, f) then multiset(fs)[f] else 0
    decreases |fs|
  {
    if |fs| == 0 then []
    else
      assert forall f :: f in fs[1..] ==> f in fs;
      var rest := FilterFeatures(fs[1..], b);
      assert fs == [fs[0]] + fs[1..];
      if KeepsFeature(b, fs[0]) then
        assert ([fs[0]] + rest)[1..] == rest;
        [fs[0]] + rest
      else
        SubsequenceSkip(rest, fs[1..], fs[0]);
        rest
  }

  predicate CascadeApplicable(cascade: seq<BoosterState>, fs: seq<Feature>)
  {
    forall f :: f in fs ==> Applicable(cascade, f)
  }

  /** The members of `fs` that the whole cascade keeps, in order, each
      with all its copies. */
  function FilterByCascade(fs: seq<Feature>, cascade: seq<BoosterState>): (r: seq<Feature>)
    requires CascadeApplicable(cascade, fs)
    ensures IsSubsequence(r, fs)
    ensures |r| <= |fs|
    ensures forall f :: f in r <==> f in fs && CascadeKeeps(cascade, f)
    ensures forall f {:trigger multiset(r)[f]} :: f in fs ==> multiset(r)[f] == if CascadeKeeps(cascade, f) then multiset(fs)[f] else 0
    decreases |fs|
  {
    if |fs| == 0 then []
    else
      assert forall f :: f in fs[1..] ==> f in fs;
      var rest := FilterByCascade(fs[1..], cascade);
      assert fs == [fs[0]] + fs[1..];
      if CascadeKeeps(cascade, fs[0]) then
        assert ([fs[0]] + rest)[1..] == rest;
        [fs[0]] + rest
      else
        SubsequenceSkip(rest, fs[1..], fs[0]);
        rest
  }

  /** The empty cascade keeps the whole collection, in order. */
  lemma {:induction false} EmptyCascadeKeepsAll(fs: seq<Feature>)
    ensures CascadeApplicable([], fs)
    ensures FilterByCascade(fs, []) == fs
    decreases |fs|
  {
    if |fs| > 0 {
      assert forall f :: f in fs[1..] ==> f in fs;
      EmptyCascadeKeepsAll(fs[1..]);
      assert fs == [fs[0]] + fs[1..];
    }
  }

  /** Filtering by one test and then by the rest of a cascade is filtering
      by the whole cascade. */
  lemma {:induction false} FilterThenCascade(fs: seq<Feature>, b: BoosterState, rest: seq<BoosterState>)
    requires AllIndexable(fs, b.featureIdx)
    requires CascadeApplicable([b] + rest, fs)
    ensures CascadeApplicable(rest, FilterFeatures(fs, b))
    ensures FilterByCascade(FilterFeatures(fs, b), rest) == FilterByCascade(fs, [b] + rest)
    decreases |fs|
  {
    var c := [b] + rest;
    assert forall f :: f in fs ==> Applicable(rest, f) by {
      forall f | f in fs ensures Applicable(rest, f) {
        assert forall i :: 0 <= i < |rest| ==> rest[i] == c[i + 1];
      }
    }
    if |fs| > 0 {
      assert forall f :: f in fs[1..] ==> f in fs;
      FilterThenCascade(fs[1..], b, rest);
      assert c[1..] == rest;
      assert CascadeKeeps(c, fs[0]) == (KeepsFeature(b, fs[0]) && CascadeKeeps(rest, fs[0]));
    }
  }
}

=== FILE: cascade_builder.dfy ===
/** Building the cascade: try every feature in both directions, keep the
    test that removes the largest share of negatives, filter both
    collections by it and repeat until no test is worthwhile. */
module CascadeBuilder {
  import opened Wrappers
  import opened Counting
  import opened Select
  import opened Cascade
  import opened Boosting
  import opened BoostingScan

  /** Every feature of the collection has `d` values. */
  predicate SameDimension(fs: seq<Feature>, d: nat)
  {
    forall f :: f in fs ==> |f| == d
  }

  function Proportion(c: Candidate): real
  {
    c.proportion
  }

  /** Position of a (feature, direction) pair in the order the pairs are
      tried: every feature rejecting below, then every feature rejecting
      above. */
  function TryPosition(idx: nat, rejectAbove: bool, d: nat): nat
  {
    if rejectAbove then d + idx else idx
  }

  /** The candidates in the order they are tried: every feature rejecting
      below, then every feature rejecting above. */
  function AllCandidates(neg: seq<Feature>, pos: seq<Feature>, d: nat): (r: seq<Candidate>)
    requires SameDimension(neg, d) && SameDimension(pos, d)
    ensures |r| == 2 * d
    ensures forall idx :: 0 <= idx < d ==> r[idx] == FindBoosterState(neg, pos, idx, false)
    ensures forall idx :: 0 <= idx < d ==> r[d + idx] == FindBoosterState(neg, pos, idx, true)
  {
    var below := Direction(neg, pos, d, false);
    var above := Direction(neg, pos, d, true);
    AppendIndex(below, above, d);
    below + above
  }

  /** The candidates of one direction, feature by feature. */
  function Direction(neg: seq<Feature>, pos: seq<Feature>, d: nat, rejectAbove: bool): (r: seq<Candidate>)
    requires SameDimension(neg, d) && SameDimension(pos, d)
    ensures |r| == d
    ensures forall idx :: 0 <= idx < d ==> r[idx] == FindBoosterState(neg, pos, idx, rejectAbove)
  {
    seq(d, idx requires 0 <= idx < d =>
      assert AllIndexable(neg, idx) && AllIndexable(pos, idx);
      FindBoosterState(neg, pos, idx, rejectAbove))
  }

  /** Indexing into a concatenation whose first part has length `n`. */
  lemma AppendIndex<T>(a: seq<T>, b: seq<T>, n: nat)
    requires |a| == n
    ensures forall k :: 0 <= k < n ==> (a + b)[k] == a[k]
    ensures forall k :: 0 <= k < |b| ==> (a + b)[n + k] == b[k]
  {
  }

  /** The shape of the tried candidates: at position `i` either nothing, or
      a test on the feature and direction tried there with a positive share. */
  predicate Shaped(xs: seq<Candidate>, d: nat)
  {
    && |xs| == 2 * d
    && forall i :: 0 <= i < |xs| ==>
         xs[i] == NoCandidate ||
         (xs[i].state.featureIdx == (if i < d then i else i - d) &&
          xs[i].state.rejectAbove == (i >= d) && 0.0 < xs[i].proportion)
  }

  lemma CandidatesShaped(neg: seq<Feature>, pos: seq<Feature>, d: nat)
    requires SameDimension(neg, d) && SameDimension(pos, d)
    ensures Shaped(AllCandidates(neg, pos, d), d)
  {
    var xs := AllCandidates(neg, pos, d);
    forall i | 0 <= i < 2 * d
      ensures xs[i] == NoCandidate ||
              (xs[i].state.featureIdx == (if i < d then i else i - d) &&
               xs[i].state.rejectAbove == (i >= d) && 0.0 < xs[i].proportion)
    {
      if i < d {
        assert xs[i] == FindBoosterState(neg, pos, i, false);
      } else {
        assert xs[d + (i - d)] == FindBoosterState(neg, pos, i - d, true);
      }
    }
  }

  /** The strict scan over shaped candidates: nothing exactly when every
      position proposes nothing; otherwise a candidate found at its own
      position, with a share no position beats and that every earlier
      position falls short of. */
  lemma {:induction false} ShapedBest(xs: seq<Candidate>, d: nat)
    requires Shaped(xs, d)
    ensures var r := Best(xs, Proportion, NoCandidate, false);
            (r == NoCandidate <==> forall i :: 0 <= i < |xs| ==> xs[i] == NoCandidate)
    ensures var r := Best(xs, Proportion, NoCandidate, false);
            r != NoCandidate ==>
              && 0 <= r.state.featureIdx < d
              && xs[TryPosition(r.state.featureIdx, r.state.rejectAbove, d)] == r
              && (forall i :: 0 <= i < |xs| ==> xs[i].proportion <= r.proportion)
              && (forall j :: 0 <= j < TryPosition(r.state.featureIdx, r.state.rejectAbove, d) ==>
                    xs[j].proportion < r.proportion)
  {
    var r := Best(xs, Proportion, NoCandidate, false);
    BestStrictIsEarliest(xs, Proportion, NoCandidate);
    if forall i :: 0 <= i < |xs| ==> xs[i] == NoCandidate {
      assert forall i :: 0 <= i < |xs| ==> Proportion(xs[i]) <= Proportion(NoCandidate);
    } else {
      var i :| 0 <= i < |xs| && xs[i] != NoCandidate;
      assert Proportion(xs[i]) > Proportion(NoCandidate);
      var k :| 0 <= k < |xs| && r == xs[k] && Proportion(NoCandidate) < Proportion(xs[k]) &&
                forall j :: 0 <= j < k ==> Proportion(xs[j]) < Proportion(xs[k]);
      assert r != NoCandidate;
      assert k == TryPosition(r.state.featureIdx, r.state.rejectAbove, d);
    }
  }

  /** A found candidate is the one tried at its own position, and the one
      tried at any position proposes no larger share. */
  lemma ShapedBestAt(xs: seq<Candidate>, d: nat, idx: nat, rejectAbove: bool)
    requires Shaped(xs, d) && idx < d
    requires Best(xs, Proportion, NoCandidate, false) != NoCandidate
    ensures var r := Best(xs, Proportion, NoCandidate, false);
            && r.state.featureIdx < d
            && xs[TryPosition(r.state.featureIdx, r.state.rejectAbove, d)] == r
            && xs[TryPosition(idx, rejectAbove, d)].proportion <= r.proportion
  {
    ShapedBest(xs, d);
  }

  /** The strict left-to-right scan over the candidates, starting from
      "nothing proposed". */
  function BestCandidate(neg: seq<Feature>, pos: seq<Feature>, d: nat): Candidate
    requires SameDimension(neg, d) && SameDimension(pos, d)
  {
    Best(AllCandidates(neg, pos, d), Proportion, NoCandidate, false)
  }

  /** The scan yields either nothing or a worthwhile candidate that is the
      one its own feature and direction propose. */
  lemma BestCandidateShape(neg: seq<Feature>, pos: seq<Feature>, d: nat)
    requires SameDimension(neg, d) && SameDimension(pos, d)
    ensures var r := BestCandidate(neg, pos, d);
            r == NoCandidate ||
            (0 <= r.state.featureIdx < d &&
             FindBoosterState(neg, pos, r.state.featureIdx, r.state.rejectAbove) == r &&
             Worthwhile(neg, pos, r))
  {
    var xs := AllCandidates(neg, pos, d);
    var r := BestCandidate(neg, pos, d);
    CandidatesShaped(neg, pos, d);
    ShapedBest(xs, d);
    if r != NoCandidate {
      var idx := r.state.featureIdx;
      if r.state.rejectAbove {
        assert xs[d + idx] == FindBoosterState(neg, pos, idx, true);
      } else {
        assert xs[idx] == FindBoosterState(neg, pos, idx, false);
      }
      FindBoosterStateWorthwhile(neg, pos, idx, r.state.rejectAbove);
    }
  }

  /** The test whose candidate removes the largest share of negatives over
      all features (as many as the first negative has) and both
      directions; the first one tried wins a tie, and NoBooster when no
      test is worthwhile. */
  function FindBestBoosterState(neg: seq<Feature>, pos: seq<Feature>): (b: BoosterState)
    requires |neg| > 0
    requires SameDimension(neg, |neg[0]|) && SameDimension(pos, |neg[0]|)
    ensures var d := |neg[0]|;
            b == NoBooster ||
            (0 <= b.featureIdx < d &&
             FindBoosterState(neg, pos, b.featureIdx, b.rejectAbove).state == b &&
             Worthwhile(neg, pos, FindBoosterState(neg, pos, b.featureIdx, b.rejectAbove)))
  {
    BestCandidateShape(neg, pos, |neg[0]|);
    BestCandidate(neg, pos, |neg[0]|).state
  }

  lemma CandidateAtPosition(neg: seq<Feature>, pos: seq<Feature>, d: nat, idx: nat, rejectAbove: bool)
    requires SameDimension(neg, d) && SameDimension(pos, d) && idx < d
    ensures AllIndexable(neg, idx) && AllIndexable(pos, idx)
    ensures FindBoosterState(neg, pos, idx, rejectAbove) == AllCandidates(neg, pos, d)[TryPosition(idx, rejectAbove, d)]
  {
  }

  /** NoBooster is chosen exactly when no feature and direction proposes a
      test at all. */
  lemma NoBoosterIffNoCandidate(neg: seq<Feature>, pos: seq<Feature>)
    requires |neg| > 0
    requires SameDimension(neg, |neg[0]|) && SameDimension(pos, |neg[0]|)
    ensures FindBestBoosterState(neg, pos) == NoBooster <==>
            forall idx, rejectAbove :: 0 <= idx < |neg[0]| ==> FindBoosterState(neg, pos, idx, rejectAbove) == NoCandidate
  {
    var d := |neg[0]|;
    var xs := AllCandidates(neg, pos, d);
    var r := BestCandidate(neg, pos, d);
    CandidatesShaped(neg, pos, d);
    ShapedBest(xs, d);
    if r == NoCandidate {
      forall idx, rejectAbove | 0 <= idx < d
        ensures FindBoosterState(neg, pos, idx, rejectAbove) == NoCandidate
      {
        CandidateAtPosition(neg, pos, d, idx, rejectAbove);
      }
    } else {
      var idx := r.state.featureIdx;
      CandidateAtPosition(neg, pos, d, idx, r.state.rejectAbove);
      assert FindBoosterState(neg, pos, idx, r.state.rejectAbove) != NoCandidate;
    }
  }

  /** The chosen test is optimal: no feature and direction proposes a test
      removing a larger share of negatives. */
  lemma BestBoosterIsMaximal(neg: seq<Feature>, pos: seq<Feature>)
    requires |neg| > 0
    requires SameDimension(neg, |neg[0]|) && SameDimension(pos, |neg[0]|)
    ensures var d := |neg[0]|;
            var b := FindBestBoosterState(neg, pos);
            b != NoBooster ==>
            forall idx, rejectAbove :: 0 <= idx < d ==>
              FindBoosterState(neg, pos, idx, rejectAbove).proportion <=
              FindBoosterState(neg, pos, b.featureIdx, b.rejectAbove).proportion
  {
    var d := |neg[0]|;
    var xs := AllCandidates(neg, pos, d);
    var r := BestCandidate(neg, pos, d);
    CandidatesShaped(neg, pos, d);
    if r != NoCandidate {
      ShapedBestAt(xs, d, r.state.featureIdx, r.state.rejectAbove);
      CandidateAtPosition(neg, pos, d, r.state.featureIdx, r.state.rejectAbove);
      forall idx, rejectAbove | 0 <= idx < d
        ensures FindBoosterState(neg, pos, idx, rejectAbove).proportion <= r.proportion
      {
        CandidateAtPosition(neg, pos, d, idx, rejectAbove);
        ShapedBestAt(xs, d, idx, rejectAbove);
      }
    }
  }

  /** Among equally good tests the first one tried is chosen: any pair
      tried before the chosen one proposes a strictly smaller share. */
  lemma BestBoosterIsEarliest(neg: seq<Feature>, pos: seq<Feature>, idx: nat, rejectAbove: bool)
    requires |neg| > 0
    requires SameDimension(neg, |neg[0]|) && SameDimension(pos, |neg[0]|)
    requires var b := FindBestBoosterState(neg, pos);
             b != NoBooster && idx < |neg[0]| &&
             TryPosition(idx, rejectAbove, |neg[0]|) < TryPosition(b.featureIdx, b.rejectAbove, |neg[0]|)
    ensures var b := FindBestBoosterState(neg, pos);
            AllIndexable(neg, idx) && AllIndexable(pos, idx) &&
            FindBoosterState(neg, pos, idx, rejectAbove).proportion <
            FindBoosterState(neg, pos, b.featureIdx, b.rejectAbove).proportion
  {
    var d := |neg[0]|;
    var xs := AllCandidates(neg, pos, d);
    var r := BestCandidate(neg, pos, d);
    var b := FindBestBoosterState(neg, pos);
    var p := TryPosition(idx, rejectAbove, d);
    assert b == r.state && r != NoCandidate;
    assert xs[p].proportion < r.proportion &&
           xs[TryPosition(b.featureIdx, b.rejectAbove, d)] == r by {
      CandidatesShaped(neg, pos, d);
      ShapedBest(xs, d);
    }
    CandidateAtPosition(neg, pos, d, b.featureIdx, b.rejectAbove);
    CandidateAtPosition(neg, pos, d, idx, rejectAbove);
  }

  /** The cascade built so far and the collections it leaves. */
  datatype CascadeRun = CascadeRun(cascade: seq<BoosterState>, neg: seq<Feature>, pos: seq<Feature>)

  lemma FilterKeepsDimension(fs: seq<Feature>, b: BoosterState, d: nat)
    requires SameDimension(fs, d) && 0 <= b.featureIdx < d
    ensures AllIndexable(fs, b.featureIdx)
    ensures SameDimension(FilterFeatures(fs, b), d)
  {
  }

  /** Putting an accepted test in front of the run built on what it keeps. */
  lemma ExtendRun(neg: seq<Feature>, pos: seq<Feature>, d: nat, b: BoosterState, rest: CascadeRun)
    requires SameDimension(neg, d) && SameDimension(pos, d) && 0 <= b.featureIdx < d
    requires Removed(neg, b) >= MinNegRemoved
    requires forall i :: 0 <= i < |rest.cascade| ==> 0 <= rest.cascade[i].featureIdx < d
    requires CascadeApplicable(rest.cascade, FilterFeatures(neg, b))
    requires CascadeApplicable(rest.cascade, FilterFeatures(pos, b))
    requires rest.neg == FilterByCascade(FilterFeatures(neg, b), rest.cascade)
    requires rest.pos == FilterByCascade(FilterFeatures(pos, b), rest.cascade)
    requires |rest.neg| + MinNegRemoved * |rest.cascade| <= |FilterFeatures(neg, b)|
    ensures var c := [b] + rest.cascade;
            && (forall i :: 0 <= i < |c| ==> 0 <= c[i].featureIdx < d)
            && CascadeApplicable(c, neg) && CascadeApplicable(c, pos)
            && rest.neg == FilterByCascade(neg, c)
            && rest.pos == FilterByCascade(pos, c)
            && |rest.neg| + MinNegRemoved * |c| <= |neg|
  {
    var c := [b] + rest.cascade;
    assert forall i :: 0 <= i < |c| ==> 0 <= c[i].featureIdx < d;
    ExtendSide(neg, d, b, rest.cascade);
    ExtendSide(pos, d, b, rest.cascade);
  }

  /** The same for one collection: filtering by the test and then by the
      rest of the cascade is filtering by the whole cascade. */
  lemma ExtendSide(fs: seq<Feature>, d: nat, b: BoosterState, rest: seq<BoosterState>)
    requires SameDimension(fs, d) && 0 <= b.featureIdx < d
    requires forall i :: 0 <= i < |rest| ==> 0 <= rest[i].featureIdx < d
    ensures AllIndexable(fs, b.featureIdx)
    ensures CascadeApplicable([b] + rest, fs)
    ensures CascadeApplicable(rest, FilterFeatures(fs, b))
    ensures FilterByCascade(FilterFeatures(fs, b), rest) == FilterByCascade(fs, [b] + rest)
  {
    var c := [b] + rest;
    assert forall i :: 0 <= i < |c| ==> 0 <= c[i].featureIdx < d;
    FilterThenCascade(fs, b, rest);
  }

  /** The builder, stopping once no negatives are left. Each accepted test
      removes at least 150 negatives, so the "Boosting failed"
      check (no negative removed) never fires. */
  function FindBoosterStates(neg: seq<Feature>, pos: seq<Feature>, d: nat): (r: CascadeRun)
    requires SameDimension(neg, d) && SameDimension(pos, d)
    ensures forall i :: 0 <= i < |r.cascade| ==> 0 <= r.cascade[i].featureIdx < d
    ensures CascadeApplicable(r.cascade, neg) && CascadeApplicable(r.cascade, pos)
    ensures r.neg == FilterByCascade(neg, r.cascade)
    ensures r.pos == FilterByCascade(pos, r.cascade)
    ensures |r.neg| + MinNegRemoved * |r.cascade| <= |neg|
    ensures SameDimension(r.neg, d) && SameDimension(r.pos, d)
    ensures |r.neg| == 0 || FindBestBoosterState(r.neg, r.pos) == NoBooster
    decreases |neg|
  {
    EmptyCascadeKeepsAll(neg);
    EmptyCascadeKeepsAll(pos);
    if |neg| == 0 then
      CascadeRun([], neg, pos)
    else
      assert neg[0] in neg;
      var b := FindBestBoosterState(neg, pos);
      if b == NoBooster then
        CascadeRun([], neg, pos)
      else
        FilterKeepsDimension(neg, b, d);
        FilterKeepsDimension(pos, b, d);
        var rest := FindBoosterStates(FilterFeatures(neg, b), FilterFeatures(pos, b), d);
        ExtendRun(neg, pos, d, b, rest);
        CascadeRun([b] + rest.cascade, rest.neg, rest.pos)
  }

  /** Why the builder of svm_wrapper.cpp can fail: it has no negatives to take the
      feature count from. */
  datatype BuildError = NoNegativesLeft

  /** The builder as svm_wrapper.cpp writes it: it only stops when no test is
      found, and asking for the best test reads the first negative, which
      is undefined once a test has removed every negative. */
  function FindBoosterStatesAsWritten(neg: seq<Feature>, pos: seq<Feature>, d: nat): (r: Result<CascadeRun, BuildError>)
    requires SameDimension(neg, d) && SameDimension(pos, d)
    ensures r.Success? ==> r.value == FindBoosterStates(neg, pos, d)
    ensures r.Failure? <==> |FindBoosterStates(neg, pos, d).neg| == 0
    decreases |neg|
  {
    if |neg| == 0 then
      Failure(NoNegativesLeft)
    else
      assert neg[0] in neg;
      var b := FindBestBoosterState(neg, pos);
      if b == NoBooster then
        Success(CascadeRun([], neg, pos))
      else
        FilterKeepsDimension(neg, b, d);
        FilterKeepsDimension(pos, b, d);
        match FindBoosterStatesAsWritten(FilterFeatures(neg, b), FilterFeatures(pos, b), d)
        case Failure(e) => Failure(e)
        case Success(rest) => Success(CascadeRun([b] + rest.cascade, rest.neg, rest.pos))
  }

  /** On data that one feature separates (at least 150 negatives at or above
      a cut, at least one positive, every positive below it) the first
      accepted test removes every negative: the corrected builder stops
      with a one-test cascade, and the builder as written fails. */
  lemma SeparableDataEmptiesNegatives(neg: seq<Feature>, pos: seq<Feature>, d: nat, idx: nat, cut: real)
    requires SameDimension(neg, d) && SameDimension(pos, d) && idx < d
    requires |neg| >= MinNegRemoved && |pos| >= 1
    requires forall f :: f in neg ==> f[idx] >= cut
    requires forall f :: f in pos ==> f[idx] < cut
    ensures |FindBoosterStates(neg, pos, d).cascade| == 1
    ensures |FindBoosterStates(neg, pos, d).neg| == 0
    ensures FindBoosterStatesAsWritten(neg, pos, d).Failure?
  {
    assert neg[0] in neg;
    SeparableFeatureRemovesAllNegatives(neg, pos, idx, cut);
    NoBoosterIffNoCandidate(neg, pos);
    BestBoosterIsMaximal(neg, pos);
    var b := FindBestBoosterState(neg, pos);
    var c := FindBoosterState(neg, pos, b.featureIdx, b.rejectAbove);
    assert FindBoosterState(neg, pos, idx, true).proportion == 1.0;
    assert c.proportion == 1.0;
    WorthwhileRemovingAll(neg, pos, c);
    FilterKeepsDimension(neg, b, d);
    FilterKeepsDimension(pos, b, d);
  }

  /** A concrete instance: 150 one-value negatives at 1.0 and one positive
      at 0.0. */
  lemma AsWrittenFailsOnExample()
    ensures FindBoosterStatesAsWritten(seq(150, i => [1.0]), [[0.0]], 1).Failure?
  {
    var neg: seq<Feature> := seq(150, i => [1.0]);
    var pos: seq<Feature> := [[0.0]];
    forall f | f in neg
      ensures |f| == 1 && f[0] >= 1.0
    {
    }
    SeparableDataEmptiesNegatives(neg, pos, 1, 0, 1.0);
  }
}

=== FILE: counting.dfy ===
/** Counting and order-preserving selection over sequences: the bookkeeping
    the cascade builder and the fold splitter rely on. */
module Counting {

  /** Number of elements of `s` satisfying `p`. */
  function CountIf<T>(s: seq<T>, p: T -> bool): (n: nat)
    ensures n <= |s|
  {
    if |s| == 0 then 0
    else CountIf(s[..|s| - 1], p) + (if p(s[|s| - 1]) then 1 else 0)
  }

  lemma {:induction false} CountAppend<T>(a: seq<T>, b: seq<T>, p: T -> bool)
    ensures CountIf(a + b, p) == CountIf(a, p) + CountIf(b, p)
    decreases |b|
  {
    if |b| == 0 {
      assert a + b == a;
    } else {
      assert (a + b)[..|a + b| - 1] == a + b[..|b| - 1];
      CountAppend(a, b[..|b| - 1], p);
    }
  }

  lemma CountSingle<T>(x: T, p: T -> bool)
    ensures CountIf([x], p) == if p(x) then 1 else 0
  {
    assert [x][..0] == [];
  }

  /** Counting does not depend on the order of the elements. */
  lemma {:induction false} CountPermutation<T>(a: seq<T>, b: seq<T>, p: T -> bool)
    requires multiset(a) == multiset(b)
    ensures CountIf(a, p) == CountIf(b, p)
    decreases |a|
  {
    if |a| == 0 {
      assert |b| == |multiset(b)| == 0;
    } else {
      var x := a[0];
      assert x in multiset(b);
      var k :| 0 <= k < |b| && b[k] == x;
      var b' := b[..k] + b[k + 1..];
      assert b == b[..k] + [x] + b[k + 1..];
      assert multiset(b) == multiset(b[..k]) + multiset{x} + multiset(b[k + 1..]);
      assert a == [x] + a[1..];
      assert multiset(a) == multiset{x} + multiset(a[1..]);
      assert multiset(b') == multiset(b[..k]) + multiset(b[k + 1..]);
      assert multiset(a[1..]) == multiset(a) - multiset{x};
      assert multiset(b') == multiset(b) - multiset{x};
      CountPermutation(a[1..], b', p);
      CountAppend([x], a[1..], p);
      CountAppend(b[..k] + [x], b[k + 1..], p);
      CountAppend(b[..k], [x], p);
      CountAppend(b[..k], b[k + 1..], p);
      CountSingle(x, p);
    }
  }

  /** Two predicates that agree on every element count the same. */
  lemma {:induction false} CountCongruent<T>(s: seq<T>, p: T -> bool, q: T -> bool)
    requires forall i :: 0 <= i < |s| ==> p(s[i]) == q(s[i])
    ensures CountIf(s, p) == CountIf(s, q)
    decreases |s|
  {
    if |s| > 0 {
      CountCongruent(s[..|s| - 1], p, q);
    }
  }

  lemma {:induction false} CountAll<T>(s: seq<T>, p: T -> bool)
    requires forall i :: 0 <= i < |s| ==> p(s[i])
    ensures CountIf(s, p) == |s|
    decreases |s|
  {
    if |s| > 0 {
      CountAll(s[..|s| - 1], p);
    }
  }

  lemma {:induction false} CountNone<T>(s: seq<T>, p: T -> bool)
    requires forall i :: 0 <= i < |s| ==> !p(s[i])
    ensures CountIf(s, p) == 0
    decreases |s|
  {
    if |s| > 0 {
      CountNone(s[..|s| - 1], p);
    }
  }

  /** When `p` agrees with `q` before position `n` and holds nowhere from
      `n` on, `p` counts exactly what `q` counts in the first `n` elements. */
  lemma CountSplit<T>(s: seq<T>, n: nat, p: T -> bool, q: T -> bool)
    requires n <= |s|
    requires forall k :: 0 <= k < n ==> p(s[k]) == q(s[k])
    requires forall k :: n <= k < |s| ==> !p(s[k])
    ensures CountIf(s, p) == CountIf(s[..n], q)
  {
    var pre, post := s[..n], s[n..];
    assert s == pre + post;
    forall k | 0 <= k < |post|
      ensures !p(post[k])
    {
      assert post[k] == s[n + k];
    }
    CountAppend(pre, post, p);
    CountCongruent(pre, p, q);
    CountNone(post, p);
  }

  /** A predicate implied by another counts at least as many elements, and
      the counts are equal only when the two agree on every element. */
  lemma {:induction false} CountImplies<T>(s: seq<T>, p: T -> bool, q: T -> bool)
    requires forall i :: 0 <= i < |s| ==> p(s[i]) ==> q(s[i])
    ensures CountIf(s, p) <= CountIf(s, q)
    ensures CountIf(s, p) == CountIf(s, q) ==> forall i :: 0 <= i < |s| ==> q(s[i]) ==> p(s[i])
    decreases |s|
  {
    if |s| > 0 {
      var init := s[..|s| - 1];
      CountImplies(init, p, q);
      assert forall i :: 0 <= i < |init| ==> init[i] == s[i];
    }
  }

  /** Some element satisfies `p` exactly when the count is positive. */
  lemma {:induction false} CountPositive<T>(s: seq<T>, p: T -> bool)
    ensures CountIf(s, p) > 0 <==> exists i :: 0 <= i < |s| && p(s[i])
    decreases |s|
  {
    if |s| > 0 {
      var init := s[..|s| - 1];
      CountPositive(init, p);
      assert forall i :: 0 <= i < |init| ==> init[i] == s[i];
      if CountIf(s, p) > 0 && !p(s[|s| - 1]) {
        var i :| 0 <= i < |init| && p(init[i]);
        assert p(s[i]);
      }
    }
  }

  /** A count over a prefix never exceeds the count over a longer prefix. */
  lemma CountPrefixMonotone<T>(s: seq<T>, i: nat, j: nat, p: T -> bool)
    requires i <= j <= |s|
    ensures CountIf(s[..i], p) <= CountIf(s[..j], p)
  {
    assert s[..j] == s[..i] + s[i..j];
    CountAppend(s[..i], s[i..j], p);
  }

  /** Extending a prefix by one element adds that element's count. */
  lemma CountStep<T>(s: seq<T>, i: nat, p: T -> bool)
    requires i < |s|
    ensures CountIf(s[..i + 1], p) == CountIf(s[..i], p) + (if p(s[i]) then 1 else 0)
  {
    assert s[..i + 1][..i] == s[..i];
  }

  /** A count over a prefix never exceeds the count over the whole. */
  lemma CountPrefixWhole<T>(s: seq<T>, i: nat, p: T -> bool)
    requires i <= |s|
    ensures CountIf(s[..i], p) <= CountIf(s, p)
  {
    CountPrefixMonotone(s, i, |s|, p);
    assert s[..|s|] == s;
  }

  /** `a` is obtained from `b` by deleting elements, keeping the order. */
  predicate IsSubsequence<T(==)>(a: seq<T>, b: seq<T>)
    decreases |b|
  {
    if |a| == 0 then true
    else if |b| == 0 then false
    else if a[0] == b[0] then IsSubsequence(a[1..], b[1..])
    else IsSubsequence(a, b[1..])
  }

  lemma {:induction false} SubsequenceMembers<T>(a: seq<T>, b: seq<T>)
    requires IsSubsequence(a, b)
    ensures |a| <= |b|
    ensures forall x :: x in a ==> x in b
    decreases |b|
  {
    if |a| > 0 && |b| > 0 {
      if a[0] == b[0] {
        SubsequenceMembers(a[1..], b[1..]);
        assert a == [a[0]] + a[1..];
      } else {
        SubsequenceMembers(a, b[1..]);
      }
    }
  }

  lemma {:induction false} SubsequenceDropFirst<T>(a: seq<T>, b: seq<T>)
    requires |a| > 0 && IsSubsequence(a, b)
    ensures IsSubsequence(a[1..], b)
    decreases |b|, 1
  {
    if |a| > 1 && |b| > 0 {
      if a[0] == b[0] {
        SubsequenceSkip(a[1..], b[1..], b[0]);
      } else {
        SubsequenceDropFirst(a, b[1..]);
        if a[1] == b[0] {
          SubsequenceDropFirst(a[1..], b[1..]);
          assert a[1..][1..] == a[2..];
        }
      }
    }
  }

  /** Prepending an element to the longer sequence keeps a subsequence. */
  lemma {:induction false} SubsequenceSkip<T>(a: seq<T>, b: seq<T>, x: T)
    requires IsSubsequence(a, b)
    ensures IsSubsequence(a, [x] + b)
    decreases |b| + 1, 0
  {
    assert ([x] + b)[1..] == b;
    if |a| > 0 && a[0] == x {
      SubsequenceDropFirst(a, b);
    }
  }

  lemma {:induction false} SubsequenceTransitive<T>(a: seq<T>, b: seq<T>, c: seq<T>)
    requires IsSubsequence(a, b) && IsSubsequence(b, c)
    ensures IsSubsequence(a, c)
    decreases |c|
  {
    if |a| > 0 && |c| > 0 {
      if |b| == 0 {
      } else if b[0] == c[0] {
        if a[0] == b[0] {
          SubsequenceTransitive(a[1..], b[1..], c[1..]);
        } else {
          SubsequenceTransitive(a, b[1..], c[1..]);
        }
      } else {
        SubsequenceTransitive(a, b, c[1..]);
      }
      if a[0] == c[0] && !IsSubsequence(a[1..], c[1..]) {
        SubsequenceDropFirst(a, c[1..]);
      }
    }
  }

  lemma {:induction false} SubsequenceReflexive<T>(a: seq<T>)
    ensures IsSubsequence(a, a)
    decreases |a|
  {
    if |a| > 0 {
      SubsequenceReflexive(a[1..]);
    }
  }
}

=== FILE: crossval.dfy ===
/** K-fold cross-validation and the final retraining. The external
    classifier enters as functions: a trainer from labelled examples to a
    predictor, and a predictor from a feature to its raw response, or to
    nothing when the classifier throws. */
module CrossValidation {
  import opened Wrappers
  import opened Labels
  import opened Cascade
  import opened Folds
  import opened Scores

  /** A trained classifier's raw response; `None` when prediction throws. */
  type Predictor = Feature -> Option<real>

  /** The CV score loses 0.003 per selected feature. */
  const PenaltyPerDim: real := 0.003

  /** The precision the training sweep starts from, before any boundary has
      been scored; it is also the "no precision requested" value. */
  const NoPrecision: real := -1.0

  /** The responses of `predict` on the examples, shifted by the decision
      boundary; nothing if any prediction throws. */
  function Outcomes(predict: Predictor, ex: seq<Example>, boundary: real): (r: Option<seq<Outcome>>)
    ensures r.Some? <==> forall i :: 0 <= i < |ex| ==> predict(ex[i].feature).Some?
    ensures r.Some? ==> (|r.value| == |ex| &&
              forall i :: 0 <= i < |ex| ==> r.value[i] == Outcome(ex[i].score, predict(ex[i].feature).value - boundary))
  {
    if |ex| == 0 then Some([])
    else
      var init := ex[..|ex| - 1];
      var last := ex[|ex| - 1];
      assert forall i :: 0 <= i < |init| ==> init[i] == ex[i];
      match Outcomes(predict, init, boundary)
      case None => None
      case Some(os) =>
        match predict(last.feature)
        case None => None
        case Some(v) => Some(os + [Outcome(last.score, v - boundary)])
  }

  datatype Evaluation = Evaluation(rate: Option<real>, sign: real, precision: Option<real>)

  /** Scores a trained classifier on labelled examples at a decision
      boundary. If any prediction throws the score is 0 and the incoming
      sign correction and precision are kept; otherwise the sign correction
      is chosen by the weighted success rate, the score is that rate, and
      the precision is measured under the chosen sign. */
  function PropCorrect(predict: Predictor, ex: seq<Example>, w: ClassWeights, boundary: real,
                       sign: real, precision: Option<real>): (e: Evaluation)
    ensures Outcomes(predict, ex, boundary).None? ==> e == Evaluation(Some(0.0), sign, precision)
    ensures Outcomes(predict, ex, boundary).Some? ==>
              var os := Outcomes(predict, ex, boundary).value;
              && (e.sign == 1.0 || e.sign == -1.0)
              && (e.sign == 1.0 <==> 2.0 * ErrorWeight(os, w) < TotalWeight(os, w))
              && (e.rate.Some? <==> TotalWeight(os, w) > 0.0)
              && (e.rate.Some? ==> 0.5 <= e.rate.value <= 1.0)
              && e.precision == Precision(os, e.sign)
              && e.sign == TotalSuccessRate(os, w).sign && e.rate == TotalSuccessRate(os, w).rate
  {
    match Outcomes(predict, ex, boundary)
    case None => Evaluation(Some(0.0), sign, precision)
    case Some(os) =>
      var r := TotalSuccessRate(os, w);
      Evaluation(r.rate, r.sign, Precision(os, r.sign))
  }

  /** The score of one fold: train on its training side, then score the
      validation side at boundary 0 from a zero sign correction. */
  function FoldScore(train: seq<Example> -> Predictor, fold: FoldSplit, w: ClassWeights): (r: Option<real>)
    ensures r.Some? ==> r.value == 0.0 || 0.5 <= r.value <= 1.0
  {
    PropCorrect(train(fold.train), fold.validate, w, 0.0, 0.0, Some(0.0)).rate
  }

  /** The score of every fold, in order. */
  function FoldScores(train: seq<Example> -> Predictor, folds: seq<FoldSplit>, w: ClassWeights): (r: seq<Option<real>>)
    ensures |r| == |folds|
    ensures forall i :: 0 <= i < |folds| ==> r[i] == FoldScore(train, folds[i], w)
  {
    seq(|folds|, i requires 0 <= i < |folds| => FoldScore(train, folds[i], w))
  }

  /** Fold scores lie in [0, 1]. */
  predicate ScoresInRange(scores: seq<Option<real>>)
  {
    forall i :: 0 <= i < |scores| && scores[i].Some? ==> 0.0 <= scores[i].value <= 1.0
  }

  /** The sum of the scores; nothing if any score is missing (a NaN in
      svm_wrapper.cpp, which the sum carries along). */
  function Sum(scores: seq<Option<real>>): (r: Option<real>)
    ensures r.Some? <==> forall i :: 0 <= i < |scores| ==> scores[i].Some?
    ensures r.Some? && ScoresInRange(scores) ==> 0.0 <= r.value <= |scores| as real
  {
    if |scores| == 0 then Some(0.0)
    else
      var init := scores[..|scores| - 1];
      assert forall i :: 0 <= i < |init| ==> init[i] == scores[i];
      match Sum(init)
      case None => None
      case Some(s) =>
        match scores[|scores| - 1]
        case None => None
        case Some(v) => Some(s + v)
  }

  /** The mean of the scores less 0.003 per selected feature. */
  function MeanLessPenalty(scores: seq<Option<real>>, dims: nat): (r: Option<real>)
    requires |scores| > 0
    ensures r.Some? <==> forall i :: 0 <= i < |scores| ==> scores[i].Some?
    ensures r.Some? && ScoresInRange(scores) ==>
              -PenaltyPerDim * (dims as real) <= r.value <= 1.0 - PenaltyPerDim * (dims as real)
  {
    match Sum(scores)
    case None => None
    case Some(s) => Some(Penalised(s, |scores|, dims))
  }

  /** A sum of `n` scores turned into their mean less the penalty. */
  function Penalised(sum: real, n: nat, dims: nat): (r: real)
    requires n > 0
    ensures 0.0 <= sum <= n as real ==> -PenaltyPerDim * (dims as real) <= r <= 1.0 - PenaltyPerDim * (dims as real)
  {
    if 0.0 <= sum <= n as real then
      MeanBounds(sum, n);
      sum / (n as real) - PenaltyPerDim * (dims as real)
    else sum / (n as real) - PenaltyPerDim * (dims as real)
  }

  lemma MeanBounds(s: real, n: nat)
    requires 0 < n && 0.0 <= s <= n as real
    ensures 0.0 <= s / (n as real) <= 1.0
  {
    var q := s / (n as real);
    assert q * (n as real) == s;
  }

  lemma {:induction false} UniformSum(scores: seq<Option<real>>, v: real)
    requires forall i :: 0 <= i < |scores| ==> scores[i] == Some(v)
    ensures Sum(scores) == Some(v * (|scores| as real))
    decreases |scores|
  {
    if |scores| > 0 {
      var init := scores[..|scores| - 1];
      assert forall i :: 0 <= i < |init| ==> init[i] == scores[i];
      UniformSum(init, v);
      ScaleStep(v, |init|, |scores|);
      assert scores[|scores| - 1] == Some(v);
      assert Sum(init).Some? && Sum(scores).Some?;
      assert Sum(scores).value == Sum(init).value + v;
      assert Sum(init).value == v * (|init| as real);
      assert Sum(scores).value == v * (|scores| as real);
    }
  }

  lemma ScaleStep(v: real, m: nat, n: nat)
    requires n == m + 1
    ensures v * (m as real) + v == v * (n as real)
  {
  }

  lemma CancelScale(v: real, n: nat, total: real)
    requires n > 0 && total == v * (n as real)
    ensures total / (n as real) == v
  {
  }

  /** When every score is the same, the result is that score less the
      penalty. */
  lemma UniformScores(scores: seq<Option<real>>, dims: nat, v: real)
    requires |scores| > 0
    requires forall i :: 0 <= i < |scores| ==> scores[i] == Some(v)
    ensures MeanLessPenalty(scores, dims) == Some(v - PenaltyPerDim * (dims as real))
  {
    UniformSum(scores, v);
    var total := Sum(scores).value;
    CancelScale(v, |scores|, total);
    assert Penalised(total, |scores|, dims) == v - PenaltyPerDim * (dims as real);
  }

  /** The K-fold CV score: the mean fold score less the penalty. It exists
      exactly when every fold has a score, and it lies in
      [-0.003 dims, 1 - 0.003 dims]. */
  function CrossValidationScore(train: seq<Example> -> Predictor, folds: seq<FoldSplit>, w: ClassWeights, dims: nat): (r: Option<real>)
    requires |folds| > 0
    ensures r.Some? <==> forall i :: 0 <= i < |folds| ==> FoldScore(train, folds[i], w).Some?
    ensures r.Some? ==> -PenaltyPerDim * (dims as real) <= r.value <= 1.0 - PenaltyPerDim * (dims as real)
  {
    var scores := FoldScores(train, folds, w);
    assert ScoresInRange(scores);
    MeanLessPenalty(scores, dims)
  }

  /** All `k` folds of the data, built in order; the first failing fold
      stops the construction. */
  method KFoldSplits(neg: seq<Feature>, pos: seq<Feature>, k: nat) returns (r: Result<seq<FoldSplit>, FoldError>)
    requires 0 < k
    ensures r.Success? ==> |r.value| == k && forall s :: 0 <= s < k ==> r.value[s] == FoldOf(neg, pos, s, k)
    ensures HasEmptyFeature(neg + pos) ==> r == Failure(EmptyFeature)
    ensures !HasEmptyFeature(neg + pos) && 2 <= k <= |neg| && k <= |pos| ==> r.Success?
  {
    var folds: seq<FoldSplit> := [];
    var s := 0;
    while s < k
      invariant 0 <= s <= k
      invariant |folds| == s
      invariant forall j :: 0 <= j < s ==> folds[j] == FoldOf(neg, pos, j, k)
      invariant s > 0 ==> !HasEmptyFeature(neg + pos)
    {
      var fold := TrainValidateSplit(neg, pos, s, k);
      if fold.Failure? {
        return Failure(fold.error);
      }
      folds := folds + [fold.value];
      s := s + 1;
    }
    return Success(folds);
  }

  /** Every example of the training data, negatives first, labelled with
      its class's score. */
  function AllExamples(neg: seq<Feature>, pos: seq<Feature>): (r: seq<Example>)
    ensures |r| == |neg| + |pos|
    ensures forall i :: 0 <= i < |neg| ==> r[i] == Example(neg[i], SvmScore(false))
    ensures forall i :: 0 <= i < |pos| ==> r[|neg| + i] == Example(pos[i], SvmScore(true))
  {
    LabelAll(neg, false) + LabelAll(pos, true)
  }

  /** One row of the precision/boundary table. */
  datatype PrEntry = PrEntry(boundary: real, precision: Option<real>)

  datatype Sweep = Sweep(table: seq<PrEntry>, sign: real, precision: Option<real>)

  /** Scores the classifier at each boundary in turn, carrying the sign
      correction and precision from one boundary to the next. */
  function PrecisionSweep(predict: Predictor, ex: seq<Example>, w: ClassWeights, boundaries: seq<real>,
                          sign: real, precision: Option<real>): (r: Sweep)
    ensures |r.table| == |boundaries|
    ensures forall i :: 0 <= i < |boundaries| ==> r.table[i].boundary == boundaries[i]
    ensures forall i :: 0 <= i < |boundaries| && Outcomes(predict, ex, boundaries[i]).Some? ==>
              var os := Outcomes(predict, ex, boundaries[i]).value;
              r.table[i].precision == Precision(os, TotalSuccessRate(os, w).sign)
    ensures forall i :: 0 <= i < |boundaries| && Outcomes(predict, ex, boundaries[i]).None? ==>
              r.table[i].precision == if i == 0 then precision else r.table[i - 1].precision
    ensures |boundaries| == 0 ==> r == Sweep([], sign, precision)
    ensures |boundaries| > 0 ==> r.precision == r.table[|boundaries| - 1].precision
    decreases |boundaries|
  {
    if |boundaries| == 0 then Sweep([], sign, precision)
    else
      var e := PropCorrect(predict, ex, w, boundaries[0], sign, precision);
      var rest := PrecisionSweep(predict, ex, w, boundaries[1..], e.sign, e.precision);
      var r := Sweep([PrEntry(boundaries[0], e.precision)] + rest.table, rest.sign, rest.precision);
      assert r.table[0] == PrEntry(boundaries[0], e.precision);
      forall i | 1 <= i < |boundaries|
        ensures r.table[i] == rest.table[i - 1] && boundaries[i] == boundaries[1..][i - 1]
      {
      }
      r
  }

  datatype TrainedModel = TrainedModel(predict: Predictor, table: seq<PrEntry>, sign: real, score: Option<real>)

  /** Retrains on every example, sweeps the boundaries for the precision
      table, then scores at boundary 0, which also fixes the final sign
      correction. */
  function TrainOnAll(train: seq<Example> -> Predictor, neg: seq<Feature>, pos: seq<Feature>, w: ClassWeights,
                      boundaries: seq<real>, sign: real): (m: TrainedModel)
    ensures m.predict == train(AllExamples(neg, pos))
    ensures |m.table| == |boundaries|
    ensures forall i :: 0 <= i < |boundaries| ==> m.table[i].boundary == boundaries[i]
    ensures Outcomes(m.predict, AllExamples(neg, pos), 0.0).Some? ==>
              var os := Outcomes(m.predict, AllExamples(neg, pos), 0.0).value;
              m.sign == TotalSuccessRate(os, w).sign && m.score == TotalSuccessRate(os, w).rate
    ensures Outcomes(m.predict, AllExamples(neg, pos), 0.0).None? ==> m.score == Some(0.0)
    ensures forall i :: 0 <= i < |boundaries| && Outcomes(m.predict, AllExamples(neg, pos), boundaries[i]).Some? ==>
              var os := Outcomes(m.predict, AllExamples(neg, pos), boundaries[i]).value;
              m.table[i].precision == Precision(os, TotalSuccessRate(os, w).sign)
    ensures forall i :: 0 <= i < |boundaries| && Outcomes(m.predict, AllExamples(neg, pos), boundaries[i]).None? ==>
              m.table[i].precision == if i == 0 then Some(NoPrecision) else m.table[i - 1].precision
  {
    var ex := AllExamples(neg, pos);
    var predict := train(ex);
    var sweep := PrecisionSweep(predict, ex, w, boundaries, sign, Some(NoPrecision));
    var final := PropCorrect(predict, ex, w, 0.0, sweep.sign, sweep.precision);
    TrainedModel(predict, sweep.table, final.sign, final.rate)
  }

  /** A predictor that never throws fills every row of the table with the
      precision measured at that row's boundary. */
  lemma SweepNeverCarries(predict: Predictor, ex: seq<Example>, w: ClassWeights, boundaries: seq<real>,
                          sign: real, precision: Option<real>)
    requires forall f :: predict(f).Some?
    ensures var r := PrecisionSweep(predict, ex, w, boundaries, sign, precision);
            forall i :: 0 <= i < |boundaries| ==>
              Outcomes(predict, ex, boundaries[i]).Some? &&
              r.table[i].precision == Precision(Outcomes(predict, ex, boundaries[i]).value,
                                               TotalSuccessRate(Outcomes(predict, ex, boundaries[i]).value, w).sign)
  {
  }
}

=== FILE: folds.dfy ===
/** Stratified K-fold division of the labelled examples. For fold `s` of
    `k`, each class of `n` examples sends the block of positions
    [n*s/k, n*(s+1)/k) to validation and the rest to training; each
    example is labelled with its class's training score. */
module Folds {
  import opened Wrappers
  import opened Arith
  import opened Labels
  import opened Cascade

  /** Number of folds of the cross-validation. */
  const NumFolds: nat := 6

  datatype Example = Example(feature: Feature, score: real)

  /** The two sides of one fold. */
  datatype FoldSplit = FoldSplit(train: seq<Example>, validate: seq<Example>)

  /** The reasons svm_wrapper.cpp refuses to build a fold. */
  datatype FoldError = EmptyFeature | NoTrainingData | NoValidationData

  function BlockStart(n: nat, s: nat, k: nat): nat
    requires 0 < k
  {
    (n * s) / k
  }

  function BlockEnd(n: nat, s: nat, k: nat): nat
    requires 0 < k
  {
    (n * (s + 1)) / k
  }

  predicate InBlock(i: nat, n: nat, s: nat, k: nat)
    requires 0 < k
  {
    BlockStart(n, s, k) <= i < BlockEnd(n, s, k)
  }

  /** The block boundaries grow with the fold number, start at 0 and end at
      `n`; consecutive blocks touch. */
  lemma BlockBounds(n: nat, s: nat, k: nat)
    requires 0 < k
    ensures BlockStart(n, s, k) <= BlockEnd(n, s, k)
    ensures s < k ==> BlockEnd(n, s, k) <= n
    ensures BlockStart(n, 0, k) == 0
    ensures BlockEnd(n, k - 1, k) == n
  {
    MulMonotone(n, s, s + 1);
    DivMonotone(n * s, n * (s + 1), k);
    if s < k {
      MulMonotone(n, s + 1, k);
      DivMonotone(n * (s + 1), n * k, k);
      MulDiv(n, k);
    }
    MulDiv(n, k);
  }

  /** An earlier block ends no later than a later block starts. */
  lemma BlocksOrdered(n: nat, s: nat, t: nat, k: nat)
    requires 0 < k && s < t
    ensures BlockEnd(n, s, k) <= BlockStart(n, t, k)
  {
    MulMonotone(n, s + 1, t);
    DivMonotone(n * (s + 1), n * t, k);
  }

  lemma {:induction false} FindBlock(i: nat, n: nat, s: nat, k: nat)
    requires 0 < k && s < k
    requires BlockStart(n, s, k) <= i < n
    ensures exists t :: s <= t < k && InBlock(i, n, t, k)
    decreases k - s
  {
    BlockBounds(n, s, k);
    if i < BlockEnd(n, s, k) {
      assert InBlock(i, n, s, k);
    } else {
      assert s + 1 < k;
      BlockBounds(n, s + 1, k);
      FindBlock(i, n, s + 1, k);
    }
  }

  /** Every position of a class lies in the validation block of exactly one
      of the `k` folds: it is validated once and trained on in every other
      fold. */
  lemma PositionInOneBlock(i: nat, n: nat, k: nat)
    requires 0 < k && i < n
    ensures exists s :: 0 <= s < k && InBlock(i, n, s, k)
    ensures forall s, t :: 0 <= s < k && 0 <= t < k && InBlock(i, n, s, k) && InBlock(i, n, t, k) ==> s == t
  {
    BlockBounds(n, 0, k);
    FindBlock(i, n, 0, k);
    forall s, t | 0 <= s < k && 0 <= t < k && InBlock(i, n, s, k) && InBlock(i, n, t, k)
      ensures s == t
    {
      if s < t {
        BlocksOrdered(n, s, t, k);
      } else if t < s {
        BlocksOrdered(n, t, s, k);
      }
    }
  }

  /** With at least `k` examples every validation block is non-empty. */
  lemma BlockNonEmpty(n: nat, s: nat, k: nat)
    requires 0 < k <= n
    ensures BlockStart(n, s, k) < BlockEnd(n, s, k)
  {
    assert n * (s + 1) == n * s + n;
    DivMonotone(n * s + k, n * s + n, k);
    DivPlusDivisor(n * s, k);
  }

  /** A class's features, each labelled with the class's training score. */
  function LabelAll(fs: seq<Feature>, positive: bool): (r: seq<Example>)
    ensures |r| == |fs|
    ensures forall i :: 0 <= i < |fs| ==> r[i] == Example(fs[i], SvmScore(positive))
  {
    seq(|fs|, i requires 0 <= i < |fs| => Example(fs[i], SvmScore(positive)))
  }

  function Min(a: nat, b: nat): nat
  {
    if a <= b then a else b
  }

  /** The part of one class that fold `s` validates on: the examples whose
      position is in the block, in order. */
  function ValidationPart(fs: seq<Feature>, positive: bool, s: nat, k: nat): seq<Example>
    requires 0 < k
  {
    BlockBounds(|fs|, s, k);
    var ex := LabelAll(fs, positive);
    ex[Min(BlockStart(|fs|, s, k), |fs|)..Min(BlockEnd(|fs|, s, k), |fs|)]
  }

  /** The part of one class that fold `s` trains on: every example outside
      the block, in order. */
  function TrainingPart(fs: seq<Feature>, positive: bool, s: nat, k: nat): seq<Example>
    requires 0 < k
  {
    BlockBounds(|fs|, s, k);
    var ex := LabelAll(fs, positive);
    ex[..Min(BlockStart(|fs|, s, k), |fs|)] + ex[Min(BlockEnd(|fs|, s, k), |fs|)..]
  }

  /** A pass over one class that sends each example to validation exactly
      when its position is in [start, end), and to training otherwise. */
  method SplitByPosition(fs: seq<Feature>, positive: bool, start: nat, end: nat) returns (train: seq<Example>, validate: seq<Example>)
    requires start <= end
    ensures var ex := LabelAll(fs, positive);
            validate == ex[Min(start, |fs|)..Min(end, |fs|)] &&
            train == ex[..Min(start, |fs|)] + ex[Min(end, |fs|)..]
  {
    var n := |fs|;
    var ex := LabelAll(fs, positive);
    var lo := Min(start, n);
    var hi := Min(end, n);
    train := [];
    validate := [];
    var i := 0;
    while i < n
      invariant 0 <= i <= n
      invariant i <= lo ==> validate == [] && train == ex[..i]
      invariant lo <= i <= hi ==> validate == ex[lo..i] && train == ex[..lo]
      invariant hi <= i ==> validate == ex[lo..hi] && train == ex[..lo] + ex[hi..i]
    {
      var x := Example(fs[i], SvmScore(positive));
      assert x == ex[i];
      if start <= i < end {
        SliceGrows(ex, lo, i);
        validate := validate + [x];
      } else if i < lo {
        SliceGrows(ex, 0, i);
        train := train + [x];
      } else {
        SliceGrows(ex, hi, i);
        train := train + [x];
      }
      i := i + 1;
    }
    SliceGrows(ex, hi, n);
  }

  /** Extending a slice by the next element; a slice up to the end is the
      suffix. */
  lemma SliceGrows<T>(ex: seq<T>, a: nat, i: nat)
    requires a <= i <= |ex|
    ensures i < |ex| ==> ex[a..i + 1] == ex[a..i] + [ex[i]]
    ensures a == 0 && i < |ex| ==> ex[..i + 1] == ex[..i] + [ex[i]]
    ensures i == |ex| ==> ex[a..i] == ex[a..]
  {
  }

  /** One class's share of fold `s`: the examples of its block validate,
      every other example trains. */
  method SplitClass(fs: seq<Feature>, positive: bool, s: nat, k: nat) returns (train: seq<Example>, validate: seq<Example>)
    requires 0 < k
    ensures validate == ValidationPart(fs, positive, s, k)
    ensures train == TrainingPart(fs, positive, s, k)
  {
    BlockBounds(|fs|, s, k);
    train, validate := SplitByPosition(fs, positive, BlockStart(|fs|, s, k), BlockEnd(|fs|, s, k));
  }

  predicate HasEmptyFeature(fs: seq<Feature>)
  {
    exists i :: 0 <= i < |fs| && |fs[i]| == 0
  }

  /** Fold `s` of `k` over both classes, negatives first on each side. */
  function FoldOf(neg: seq<Feature>, pos: seq<Feature>, s: nat, k: nat): FoldSplit
    requires 0 < k
  {
    FoldSplit(TrainingPart(neg, false, s, k) + TrainingPart(pos, true, s, k),
              ValidationPart(neg, false, s, k) + ValidationPart(pos, true, s, k))
  }

  /** Builds fold `s` of `k`: every feature must have values, and then
      neither side of the fold may be empty. */
  method TrainValidateSplit(neg: seq<Feature>, pos: seq<Feature>, s: nat, k: nat) returns (r: Result<FoldSplit, FoldError>)
    requires 0 < k
    ensures HasEmptyFeature(neg + pos) <==> r == Failure(EmptyFeature)
    ensures !HasEmptyFeature(neg + pos) ==>
              var fold := FoldOf(neg, pos, s, k);
              && (r == Failure(NoTrainingData) <==> |fold.train| == 0)
              && (r == Failure(NoValidationData) <==> |fold.train| > 0 && |fold.validate| == 0)
              && (r.Success? ==> r.value == fold)
    ensures !HasEmptyFeature(neg + pos) && 2 <= k <= |neg| && k <= |pos| && s < k ==> r.Success?
  {
    var all := neg + pos;
    var j := 0;
    while j < |all|
      invariant 0 <= j <= |all|
      invariant forall i :: 0 <= i < j ==> |all[i]| > 0
    {
      if |all[j]| == 0 {
        return Failure(EmptyFeature);
      }
      j := j + 1;
    }
    var trainNeg, validateNeg := SplitClass(neg, false, s, k);
    var trainPos, validatePos := SplitClass(pos, true, s, k);
    var train := trainNeg + trainPos;
    var validate := validateNeg + validatePos;
    if 2 <= k <= |neg| && k <= |pos| && s < k {
      FoldSidesNonEmpty(neg, false, s, k);
      FoldSidesNonEmpty(pos, true, s, k);
    }
    if |train| == 0 {
      return Failure(NoTrainingData);
    }
    if |validate| == 0 {
      return Failure(NoValidationData);
    }
    return Success(FoldSplit(train, validate));
  }

  /** Each fold keeps every example of a class exactly once, on one side or
      the other. */
  lemma SidesCoverClass(fs: seq<Feature>, positive: bool, s: nat, k: nat)
    requires 0 < k
    ensures |TrainingPart(fs, positive, s, k)| + |ValidationPart(fs, positive, s, k)| == |fs|
    ensures multiset(TrainingPart(fs, positive, s, k) + ValidationPart(fs, positive, s, k)) == multiset(LabelAll(fs, positive))
  {
    var ex := LabelAll(fs, positive);
    BlockBounds(|fs|, s, k);
    var lo := Min(BlockStart(|fs|, s, k), |fs|);
    var hi := Min(BlockEnd(|fs|, s, k), |fs|);
    assert TrainingPart(fs, positive, s, k) == ex[..lo] + ex[hi..];
    assert ValidationPart(fs, positive, s, k) == ex[lo..hi];
    CutOutBlock(ex, lo, hi);
  }

  /** Cutting a block out of a sequence and putting it at the end keeps
      every element. */
  lemma CutOutBlock<T>(ex: seq<T>, lo: nat, hi: nat)
    requires lo <= hi <= |ex|
    ensures |ex[..lo] + ex[hi..]| + |ex[lo..hi]| == |ex|
    ensures multiset(ex[..lo] + ex[hi..] + ex[lo..hi]) == multiset(ex)
  {
    assert ex == ex[..lo] + ex[lo..hi] + ex[hi..];
    calc {
      multiset(ex[..lo] + ex[hi..] + ex[lo..hi]);
      multiset(ex[..lo]) + multiset(ex[hi..]) + multiset(ex[lo..hi]);
      multiset(ex[..lo] + ex[lo..hi] + ex[hi..]);
    }
  }

  /** With at least `k >= 2` examples of a class, each fold validates on
      some of them and trains on others: its own block is non-empty, and so
      is the block of another fold, which lies outside it. */
  lemma FoldSidesNonEmpty(fs: seq<Feature>, positive: bool, s: nat, k: nat)
    requires 2 <= k <= |fs| && s < k
    ensures |ValidationPart(fs, positive, s, k)| > 0
    ensures |TrainingPart(fs, positive, s, k)| > 0
  {
    var n := |fs|;
    BlockBounds(n, s, k);
    BlockNonEmpty(n, s, k);
    if s == 0 {
      BlockNonEmpty(n, 1, k);
      BlocksOrdered(n, 0, 1, k);
      BlockBounds(n, 1, k);
    } else {
      BlockNonEmpty(n, 0, k);
      BlocksOrdered(n, 0, s, k);
    }
  }

  /** With at least `k >= 2` examples of each class and no empty feature,
      neither side of any fold is empty, so the checks of svm_wrapper.cpp never
      fire. */
  lemma EnoughExamplesFoldBoth(neg: seq<Feature>, pos: seq<Feature>, s: nat, k: nat)
    requires 2 <= k <= |neg| && k <= |pos| && s < k
    ensures |FoldOf(neg, pos, s, k).train| > 0
    ensures |FoldOf(neg, pos, s, k).validate| > 0
  {
    FoldSidesNonEmpty(neg, false, s, k);
    FoldSidesNonEmpty(pos, true, s, k);
  }

  /** Every validation example of a class carries that class's score. */
  lemma PartsLabelled(fs: seq<Feature>, positive: bool, s: nat, k: nat)
    requires 0 < k
    ensures forall e :: e in ValidationPart(fs, positive, s, k) ==> e.score == SvmScore(positive) && e.feature in fs
    ensures forall e :: e in TrainingPart(fs, positive, s, k) ==> e.score == SvmScore(positive) && e.feature in fs
  {
    var ex := LabelAll(fs, positive);
    forall e | e in ex ensures e.score == SvmScore(positive) && e.feature in fs {
      var i :| 0 <= i < |ex| && ex[i] == e;
    }
  }
}

=== FILE: hyper.dfy ===
/** SVM hyperparameter settings, the grid they are drawn from and the
    pruning of that grid to the best few once the search is under way. */
module Hyper {

  /** One hyperparameter setting with the cross-validation score it last
      obtained; -1 stands for "not set". */
  datatype Param = Param(nu: real, gamma: real, cvScore: real)

  /** A default-constructed setting: no nu, no gamma, score -1. */
  const Unscored := Param(-1.0, -1.0, -1.0)

  function Score(p: Param): real
  {
    p.cvScore
  }

  /** The settings for one gamma, one per nu, in order. */
  function Row(gamma: real, nus: seq<real>): (r: seq<Param>)
    ensures |r| == |nus|
    ensures forall j :: 0 <= j < |nus| ==> r[j] == Param(nus[j], gamma, -1.0)
  {
    seq(|nus|, j requires 0 <= j < |nus| => Param(nus[j], gamma, -1.0))
  }

  /** The grid: gamma in the outer loop, nu in the inner one, unscored. */
  function Grid(gammas: seq<real>, nus: seq<real>): (r: seq<Param>)
    ensures |r| == |gammas| * |nus|
    ensures forall x :: x in r ==> x.cvScore == -1.0 && x.gamma in gammas && x.nu in nus
    decreases |gammas|
  {
    if |gammas| == 0 then []
    else
      var rest := Grid(gammas[1..], nus);
      assert |gammas| * |nus| == |nus| + (|gammas| - 1) * |nus|;
      assert forall x :: x in rest ==> x.gamma in gammas[1..] ==> x.gamma in gammas;
      Row(gammas[0], nus) + rest
  }

  /** Entry `g * |nus| + n` of the grid pairs gamma `g` with nu `n`: every
      combination occurs once, nu varying fastest. */
  lemma {:induction false} GridIndex(gammas: seq<real>, nus: seq<real>, g: nat, n: nat)
    requires g < |gammas| && n < |nus|
    ensures g * |nus| + n < |Grid(gammas, nus)|
    ensures Grid(gammas, nus)[g * |nus| + n] == Param(nus[n], gammas[g], -1.0)
    decreases |gammas|
  {
    var m := |nus|;
    var row := Row(gammas[0], nus);
    var rest := Grid(gammas[1..], nus);
    assert Grid(gammas, nus) == row + rest;
    if g > 0 {
      GridIndex(gammas[1..], nus, g - 1, n);
      assert gammas[1..][g - 1] == gammas[g];
      assert g * m + n == m + ((g - 1) * m + n);
      assert (row + rest)[m + ((g - 1) * m + n)] == rest[(g - 1) * m + n];
    }
  }

  /** Scores strictly decrease along the list, as in a `std::map` keyed by
      score with the greater-than comparison. */
  predicate Descending(m: seq<Param>)
  {
    forall i, j :: 0 <= i < j < |m| ==> m[i].cvScore > m[j].cvScore
  }

  /** A setting scoring above every entry of a map may head it. */
  lemma DescendingCons(h: Param, t: seq<Param>)
    requires Descending(t)
    requires forall x :: x in t ==> x.cvScore < h.cvScore
    ensures Descending([h] + t)
  {
    forall i, j | 0 <= i < j < |[h] + t|
      ensures ([h] + t)[i].cvScore > ([h] + t)[j].cvScore
    {
      assert ([h] + t)[j] == t[j - 1];
      if i > 0 {
        assert ([h] + t)[i] == t[i - 1];
      }
    }
  }

  /** Every entry of a map after its head scores below the head. */
  lemma DescendingTail(m: seq<Param>)
    requires Descending(m) && |m| > 0
    ensures Descending(m[1..])
    ensures forall x :: x in m[1..] ==> x.cvScore < m[0].cvScore
    ensures m == [m[0]] + m[1..]
  {
    forall x | x in m[1..] ensures x.cvScore < m[0].cvScore {
      var j :| 0 <= j < |m[1..]| && m[1..][j] == x;
      assert m[j + 1] == x;
    }
  }

  /** Assignment `m[p.cvScore] = p` in such a map: `p` replaces the entry of
      equal score or goes where its score belongs. */
  function Place(m: seq<Param>, p: Param): (r: seq<Param>)
    requires Descending(m)
    ensures Descending(r)
    ensures forall x :: x in r <==> x == p || (x in m && x.cvScore != p.cvScore)
    decreases |m|
  {
    if |m| == 0 then [p]
    else
      DescendingTail(m);
      if p.cvScore == m[0].cvScore then
        DescendingCons(p, m[1..]);
        [p] + m[1..]
      else if p.cvScore > m[0].cvScore then
        DescendingCons(p, m);
        [p] + m
      else
        var tail := Place(m[1..], p);
        DescendingCons(m[0], tail);
        [m[0]] + tail
  }

  /** `x` is the last setting of `ps` that has `x`'s score. */
  predicate LastWithScore(ps: seq<Param>, x: Param)
  {
    exists i :: 0 <= i < |ps| && ps[i] == x && forall j :: i < j < |ps| ==> ps[j].cvScore != x.cvScore
  }

  /** Some setting of the list has score `v`. */
  predicate HasScore(m: seq<Param>, v: real)
  {
    exists x :: x in m && x.cvScore == v
  }

  /** The map built by assigning every setting in order: one entry per
      distinct score, the last setting seen with that score. */
  function ByScore(ps: seq<Param>): (r: seq<Param>)
    ensures Descending(r)
    ensures forall x :: x in r ==> LastWithScore(ps, x)
    ensures forall i :: 0 <= i < |ps| ==> HasScore(r, ps[i].cvScore)
    decreases |ps|
  {
    if |ps| == 0 then []
    else
      var init := ps[..|ps| - 1];
      var p := ps[|ps| - 1];
      assert ps == init + [p];
      var m := ByScore(init);
      PlaceKeepsLast(init, p, m);
      PlaceKeepsScores(init, p, m);
      Place(m, p)
  }

  lemma PlaceKeepsLast(init: seq<Param>, p: Param, m: seq<Param>)
    requires Descending(m)
    requires forall x :: x in m ==> LastWithScore(init, x)
    ensures forall x :: x in Place(m, p) ==> LastWithScore(init + [p], x)
  {
    var ps := init + [p];
    forall x | x in Place(m, p) ensures LastWithScore(ps, x) {
      if x == p {
        assert ps[|ps| - 1] == x;
      } else {
        assert LastWithScore(init, x);
        var i :| 0 <= i < |init| && init[i] == x && forall j :: i < j < |init| ==> init[j].cvScore != x.cvScore;
        assert ps[i] == x;
        assert forall j :: i < j < |ps| ==> ps[j].cvScore != x.cvScore;
      }
    }
  }

  lemma PlaceKeepsScores(init: seq<Param>, p: Param, m: seq<Param>)
    requires Descending(m)
    requires forall i :: 0 <= i < |init| ==> HasScore(m, init[i].cvScore)
    ensures forall i :: 0 <= i < |init| + 1 ==> HasScore(Place(m, p), (init + [p])[i].cvScore)
  {
    var ps := init + [p];
    var r := Place(m, p);
    assert p in r;
    forall i | 0 <= i < |ps| ensures HasScore(r, ps[i].cvScore) {
      if i == |ps| - 1 || ps[i].cvScore == p.cvScore {
        assert p.cvScore == ps[i].cvScore;
      } else {
        assert init[i] == ps[i];
        assert HasScore(m, init[i].cvScore);
        var x :| x in m && x.cvScore == ps[i].cvScore;
        assert x in r;
      }
    }
  }

  /** How many map entries the copy-out loop keeps: it appends an entry
      before it compares the count with `k`, so at least one. */
  function Kept(k: nat): nat
  {
    if k == 0 then 1 else k
  }

  /** Keeps the `k` best-scoring settings once there are more than `k`: the
      settings go into the score-keyed map and its first entries are
      kept, `k` of them (one when `k` is 0). */
  function FilterHyperparameters(ps: seq<Param>, k: nat): (r: seq<Param>)
    ensures |ps| <= k ==> r == ps
    ensures |ps| > k ==> 0 < |r| <= Kept(k) && Descending(r) && forall x :: x in r ==> LastWithScore(ps, x)
    ensures |ps| > k ==> |r| == Kept(k) || forall i :: 0 <= i < |ps| ==> HasScore(r, ps[i].cvScore)
  {
    if |ps| <= k then ps
    else
      var m := ByScore(ps);
      assert HasScore(m, ps[0].cvScore);
      if |m| <= Kept(k) then m else m[..Kept(k)]
  }

  /** A score of a map missing from its first `k` entries lies below all
      of them. */
  lemma PrefixHoldsTop(m: seq<Param>, k: nat, v: real)
    requires Descending(m) && k <= |m|
    requires HasScore(m, v) && !HasScore(m[..k], v)
    ensures forall x :: x in m[..k] ==> v < x.cvScore
  {
    var y :| y in m && y.cvScore == v;
    var a :| 0 <= a < |m| && m[a] == y;
    assert forall c :: 0 <= c < k ==> m[..k][c] == m[c];
    assert forall c :: 0 <= c < k ==> m[c].cvScore != v;
    forall x | x in m[..k] ensures v < x.cvScore {
      var b :| 0 <= b < k && m[..k][b] == x;
    }
  }

  /** When pruning happens, any setting whose score was dropped scores
      below every kept one. */
  lemma FilterDropsLower(ps: seq<Param>, k: nat)
    requires |ps| > k
    ensures var r := FilterHyperparameters(ps, k);
            forall i, x :: 0 <= i < |ps| && !HasScore(r, ps[i].cvScore) && x in r ==> ps[i].cvScore < x.cvScore
  {
    var m := ByScore(ps);
    var r := FilterHyperparameters(ps, k);
    forall i | 0 <= i < |ps| && !HasScore(r, ps[i].cvScore)
      ensures forall x :: x in r ==> ps[i].cvScore < x.cvScore
    {
      if |m| > Kept(k) {
        PrefixHoldsTop(m, Kept(k), ps[i].cvScore);
      }
    }
  }

  /** When pruning happens and keeps anything, the first kept setting has
      the best score of all. */
  lemma FilterFirstIsBest(ps: seq<Param>, k: nat)
    requires k < |ps|
    ensures var r := FilterHyperparameters(ps, k);
            |r| > 0 && forall i :: 0 <= i < |ps| ==> ps[i].cvScore <= r[0].cvScore
  {
    var m := ByScore(ps);
    var r := FilterHyperparameters(ps, k);
    assert HasScore(m, ps[0].cvScore);
    assert r[0] == m[0];
    forall i | 0 <= i < |ps| ensures ps[i].cvScore <= r[0].cvScore {
      assert HasScore(m, ps[i].cvScore);
      var y :| y in m && y.cvScore == ps[i].cvScore;
      var a :| 0 <= a < |m| && m[a] == y;
    }
  }
}

=== FILE: labels.dfy ===
/** Class labels, classifier scores and per-class weights. The external
    classifier is trained on the scores +1 (positive) and -1 (negative) and
    its raw output is read as "positive" when it is strictly above zero. */
module Labels {

  /** Class read off a score: positive exactly when the score is above 0. */
  function SvmClass(score: real): bool
  {
    score > 0.0
  }

  /** Negating a non-zero score swaps its class; a score of exactly 0 is
      negative whichever way round it is read. */
  lemma SvmClassFlip(score: real)
    ensures score != 0.0 ==> SvmClass(-score) == !SvmClass(score)
    ensures score == 0.0 ==> !SvmClass(score) && !SvmClass(-score)
  {
  }

  /** Training score of a class; reading it back gives the class again. */
  function SvmScore(positive: bool): (s: real)
    ensures SvmClass(s) == positive
    ensures s * s == 1.0
  {
    if positive then 1.0 else -1.0
  }

  function Abs(x: real): real
  {
    if x < 0.0 then -x else x
  }

  /** The two-row class-weight table handed to the classifier: row 0 is the
      negative class, row 1 the positive class. */
  datatype ClassWeights = ClassWeights(negative: real, positive: real)

  function ClassWeight(w: ClassWeights, positive: bool): real
  {
    if positive then w.positive else w.negative
  }

  /** Weights that make the total cost of the negatives equal to
      `negRelativeWeight` times the total cost of the positives; the
      negative weight is stored with a negative sign, the positive weight
      is the positive training score. */
  function ComputeNegWeight(numPos: nat, numNeg: nat, negRelativeWeight: real): (w: ClassWeights)
    requires numNeg > 0
    requires negRelativeWeight > 0.0
    ensures w.positive == SvmScore(true)
    ensures Abs(w.negative) * (numNeg as real) == negRelativeWeight * (numPos as real)
    ensures w.negative <= 0.0
    ensures numPos > 0 ==> w.negative < 0.0
  {
    var balance := (numPos as real) / (numNeg as real);
    ClassWeights(-negRelativeWeight * balance, SvmScore(true))
  }
}

=== FILE: normalise.dfy ===
/** Selection of the chosen feature subset and per-feature scaling
    `scale * (value - mean)` before a feature reaches the classifier. */
module Normalise {
  import opened Wrappers
  import opened Cascade

  /** The chosen subset with one mean and one scale per feature index. */
  datatype Normaliser = Normaliser(subset: seq<int>, mean: seq<real>, scale: seq<real>)

  /** Every index of the subset names a coefficient and a value of `f`. */
  predicate Fits(n: Normaliser, f: Feature)
  {
    forall i :: 0 <= i < |n.subset| ==>
      0 <= n.subset[i] < |f| && n.subset[i] < |n.mean| && n.subset[i] < |n.scale|
  }

  /** The scale of one feature from its standard deviation: its reciprocal,
      or 1 for a feature that never varies. */
  function ScaleFromDeviation(sd: real): (r: real)
    ensures r > 0.0
    ensures sd > 0.0 ==> r * sd == 1.0
    ensures sd <= 0.0 ==> r == 1.0
  {
    if sd > 0.0 then 1.0 / sd else 1.0
  }

  /** The value of one selected feature after scaling. */
  function Scaled(n: Normaliser, f: Feature, i: nat): real
    requires i < |n.subset| && Fits(n, f)
  {
    var idx := n.subset[i];
    n.scale[idx] * (f[idx] - n.mean[idx])
  }

  /** The variant used while classifying: no check on the subset. */
  function SelectInto(n: Normaliser, f: Feature): (r: Feature)
    requires Fits(n, f)
    ensures |r| == |n.subset|
    ensures forall i :: 0 <= i < |r| ==> r[i] == Scaled(n, f, i)
  {
    seq(|n.subset|, i requires 0 <= i < |n.subset| => Scaled(n, f, i))
  }

  datatype NormaliseError = EmptySubset

  /** The checked variant: an empty subset is refused, and otherwise the
      result holds one scaled value per selected index, in subset order. */
  function SelectAndNormalise(n: Normaliser, f: Feature): (r: Result<Feature, NormaliseError>)
    requires Fits(n, f)
    ensures r.Failure? <==> |n.subset| == 0
    ensures r.Success? ==> r.value == SelectInto(n, f) && |r.value| > 0
  {
    if |n.subset| == 0 then Failure(EmptySubset) else Success(SelectInto(n, f))
  }

  /** Undoing the scaling recovers every selected raw value. */
  lemma Denormalise(n: Normaliser, f: Feature)
    requires Fits(n, f)
    requires forall i :: 0 <= i < |n.scale| ==> n.scale[i] != 0.0
    ensures var r := SelectInto(n, f);
            forall i :: 0 <= i < |r| ==> f[n.subset[i]] == r[i] / n.scale[n.subset[i]] + n.mean[n.subset[i]]
  {
    var r := SelectInto(n, f);
    forall i | 0 <= i < |r|
      ensures f[n.subset[i]] == r[i] / n.scale[n.subset[i]] + n.mean[n.subset[i]]
    {
      var idx := n.subset[i];
      UnscaleOne(n.scale[idx], f[idx], n.mean[idx], r[i]);
    }
  }

  lemma UnscaleOne(s: real, v: real, m: real, x: real)
    requires s != 0.0 && x == s * (v - m)
    ensures v == x / s + m
  {
    assert x / s == v - m;
  }

  /** Only the selected values matter: features that agree on the subset
      are normalised alike. */
  lemma OnlySelectedMatter(n: Normaliser, f: Feature, g: Feature)
    requires Fits(n, f) && Fits(n, g)
    requires forall i :: 0 <= i < |n.subset| ==> f[n.subset[i]] == g[n.subset[i]]
    ensures SelectInto(n, f) == SelectInto(n, g)
  {
  }

  /** A feature equal to the means normalises to all zeros. */
  lemma MeanMapsToZero(n: Normaliser, f: Feature)
    requires Fits(n, f)
    requires forall i :: 0 <= i < |n.subset| ==> f[n.subset[i]] == n.mean[n.subset[i]]
    ensures forall i :: 0 <= i < |n.subset| ==> SelectInto(n, f)[i] == 0.0
  {
  }
}

=== FILE: runtime.dfy ===
/** The saved classifier at run time: the decision boundary read off the
    precision table, the decision itself, and the probability mapping. */
module Runtime {
  import opened Wrappers
  import opened Labels
  import opened Cascade
  import opened Normalise
  import opened CrossValidation

  /** The `HUGE` sentinel of the C math library (`FLT_MAX`): the precision
      of "no entry yet". */
  const Huge: real := 340282346638528859811704183484516925440.0

  /** Precision of entry `i`; the sentinel for -1 and for entries without
      a precision (which never win a comparison). */
  function PrecisionAt(table: seq<PrEntry>, i: int): real
  {
    if 0 <= i < |table| && table[i].precision.Some? then table[i].precision.value else Huge
  }

  /** Boundary of entry `i`, 0 for -1. */
  function BoundaryAt(table: seq<PrEntry>, i: int): real
  {
    if 0 <= i < |table| then table[i].boundary else 0.0
  }

  /** Entry `j` has a precision and is not the excluded one. */
  predicate Candidate(table: seq<PrEntry>, j: int, excl: int)
  {
    0 <= j < |table| && j != excl && table[j].precision.Some?
  }

  /** The entry among the first `n`, other than `excl`, that a scan with
      strict comparisons keeps as nearest the target; -1 when none is
      nearer than the sentinel. */
  function Nearest(table: seq<PrEntry>, n: nat, t: real, excl: int): (r: int)
    requires n <= |table|
    ensures -1 <= r < n
    ensures r >= 0 ==> Candidate(table, r, excl)
    decreases n
  {
    if n == 0 then -1
    else
      var r := Nearest(table, n - 1, t, excl);
      if Candidate(table, n - 1, excl) && Abs(PrecisionAt(table, n - 1) - t) < Abs(PrecisionAt(table, r) - t) then n - 1
      else r
  }

  /** The entry `Nearest` picks has the least distance to the target of
      all candidates, and is the earliest with that distance. */
  lemma {:induction false} NearestIsEarliestMinimum(table: seq<PrEntry>, n: nat, t: real, excl: int)
    requires n <= |table|
    ensures var r := Nearest(table, n, t, excl);
            forall j :: 0 <= j < n && Candidate(table, j, excl) ==>
              Abs(PrecisionAt(table, r) - t) <= Abs(PrecisionAt(table, j) - t)
    ensures var r := Nearest(table, n, t, excl);
            r >= 0 ==> forall j :: 0 <= j < r && Candidate(table, j, excl) ==>
              Abs(PrecisionAt(table, r) - t) < Abs(PrecisionAt(table, j) - t)
    decreases n
  {
    if n > 0 {
      NearestIsEarliestMinimum(table, n - 1, t, excl);
    }
  }

  /** One step of the scan. */
  lemma NearestStep(table: seq<PrEntry>, n: nat, t: real, excl: int)
    requires n < |table|
    ensures var r := Nearest(table, n, t, excl);
            Nearest(table, n + 1, t, excl) ==
              if Candidate(table, n, excl) && Abs(PrecisionAt(table, n) - t) < Abs(PrecisionAt(table, r) - t) then n else r
  {
  }

  /** Excluding an entry beyond the prefix changes nothing. */
  lemma {:induction false} NearestExclusionBeyond(table: seq<PrEntry>, n: nat, t: real, excl: int)
    requires n <= |table| && excl >= n
    ensures Nearest(table, n, t, excl) == Nearest(table, n, t, -1)
    decreases n
  {
    if n > 0 {
      NearestExclusionBeyond(table, n - 1, t, excl);
    }
  }

  /** The straight line through (p1, b1) and (p2, b2), evaluated at `t`:
      slope and intercept fitted to the two points, so the line passes
      through both of them. */
  function Line(p1: real, b1: real, p2: real, b2: real, t: real): (r: real)
    requires p1 != p2
    ensures t == p1 ==> r == b1
    ensures t == p2 ==> r == b2
  {
    var m := (b2 - b1) / (p2 - p1);
    var c := b1 - m * p1;
    assert m * (p2 - p1) == b2 - b1;
    assert p2 * m + c == b1 + m * (p2 - p1);
    t * m + c
  }

  datatype InterpError = LineFitFailed

  /** The one pass over the table that keeps the nearest and the second
      nearest entry: a closer entry than the nearest demotes it to second,
      a closer entry than the second replaces only that. Entries without a
      precision are skipped. */
  method NearestTwo(t: real, table: seq<PrEntry>) returns (p1: real, b1: real, p2: real, b2: real)
    ensures var i1 := Nearest(table, |table|, t, -1);
            var i2 := Nearest(table, |table|, t, i1);
            && p1 == PrecisionAt(table, i1) && b1 == BoundaryAt(table, i1)
            && p2 == PrecisionAt(table, i2) && b2 == BoundaryAt(table, i2)
  {
    p1, b1, p2, b2 := Huge, 0.0, Huge, 0.0;
    ghost var i1, i2 := -1, -1;
    var i := 0;
    while i < |table|
      invariant 0 <= i <= |table|
      invariant i1 == Nearest(table, i, t, -1) && i2 == Nearest(table, i, t, i1)
      invariant p1 == PrecisionAt(table, i1) && b1 == BoundaryAt(table, i1)
      invariant p2 == PrecisionAt(table, i2) && b2 == BoundaryAt(table, i2)
    {
      var entry := table[i];
      NearestStep(table, i, t, -1);
      NearestStep(table, i, t, i1);
      match entry.precision {
        case None =>
        case Some(p) =>
          if Abs(p - t) < Abs(p1 - t) {
            NearestExclusionBeyond(table, i, t, i);
            p2, b2 := p1, b1;
            p1, b1 := p, entry.boundary;
            i2, i1 := i1, i;
          } else if Abs(p - t) < Abs(p2 - t) {
            p2, b2 := p, entry.boundary;
            i2 := i;
          }
      }
      i := i + 1;
    }
  }

  /** The decision boundary for a target precision: the straight line
      through the two entries nearest the target. With the two precisions
      equal the fit has no slope and is refused. */
  method InterpPrecisionBoundary(t: real, table: seq<PrEntry>) returns (r: Result<real, InterpError>)
    ensures var i1 := Nearest(table, |table|, t, -1);
            var i2 := Nearest(table, |table|, t, i1);
            var p1 := PrecisionAt(table, i1);
            var p2 := PrecisionAt(table, i2);
            && (r.Failure? <==> p1 == p2)
            && (r.Success? ==> r.value == Line(p1, BoundaryAt(table, i1), p2, BoundaryAt(table, i2), t))
            && (r.Success? && t == p1 ==> r.value == BoundaryAt(table, i1))
  {
    var p1, b1, p2, b2 := NearestTwo(t, table);
    if p1 == p2 {
      return Failure(LineFitFailed);
    }
    return Success(Line(p1, b1, p2, b2, t));
  }

  /** With two or more entries carrying precisions, all distinct and nearer
      the target than the sentinel, the fit succeeds. */
  lemma TwoDistinctPrecisionsFit(table: seq<PrEntry>, t: real, a: nat, b: nat)
    requires a < b < |table| && table[a].precision.Some? && table[b].precision.Some?
    requires forall j :: 0 <= j < |table| && table[j].precision.Some? ==> Abs(table[j].precision.value - t) < Abs(Huge - t)
    requires forall j, k :: 0 <= j < k < |table| && table[j].precision.Some? && table[k].precision.Some? ==>
               table[j].precision.value != table[k].precision.value
    ensures var i1 := Nearest(table, |table|, t, -1);
            var i2 := Nearest(table, |table|, t, i1);
            0 <= i1 && 0 <= i2 && PrecisionAt(table, i1) != PrecisionAt(table, i2)
  {
    var i1 := Nearest(table, |table|, t, -1);
    NearestIsEarliestMinimum(table, |table|, t, -1);
    NearestIsEarliestMinimum(table, |table|, t, i1);
    assert Candidate(table, a, -1);
    assert Abs(PrecisionAt(table, i1) - t) < Abs(Huge - t);
    assert i1 >= 0;
    var other := if i1 == a then b else a;
    assert Candidate(table, other, i1);
    var i2 := Nearest(table, |table|, t, i1);
    assert Abs(PrecisionAt(table, i2) - t) < Abs(Huge - t);
    assert i2 >= 0 && i2 != i1;
  }

  /** An entry holding exactly the target precision is as near as any, so
      the nearest precision is the target itself. */
  lemma ExactPrecisionIsNearest(table: seq<PrEntry>, t: real, j: nat)
    requires j < |table| && table[j].precision == Some(t)
    ensures PrecisionAt(table, Nearest(table, |table|, t, -1)) == t
  {
    NearestIsEarliestMinimum(table, |table|, t, -1);
    assert Candidate(table, j, -1);
  }

  /** The boundary a saved classifier uses. `stored` is `None` when the
      saved state has no `boundaries` entry. With a stored table, even an
      empty one, and a requested precision the boundary is interpolated
      off the table; otherwise it is 0. A stored precision equal to the
      requested one gives back the boundary stored with it. */
  method ClassificationBoundary(stored: Option<seq<PrEntry>>, precision: real) returns (r: Result<real, InterpError>)
    ensures stored.None? || precision == NoPrecision ==> r == Success(0.0)
    ensures stored.Some? && precision != NoPrecision ==>
              var table := stored.value;
              var i1 := Nearest(table, |table|, precision, -1);
              var i2 := Nearest(table, |table|, precision, i1);
              && (r.Failure? <==> PrecisionAt(table, i1) == PrecisionAt(table, i2))
              && (r.Success? ==> r.value == Line(PrecisionAt(table, i1), BoundaryAt(table, i1),
                                                 PrecisionAt(table, i2), BoundaryAt(table, i2), precision))
    ensures stored == Some([]) && precision != NoPrecision ==> r.Failure?
    ensures stored.Some? && precision != NoPrecision && r.Success? ==>
              forall j :: 0 <= j < |stored.value| && stored.value[j].precision == Some(precision) ==>
                exists k :: 0 <= k < |stored.value| && stored.value[k].precision == Some(precision) &&
                            r.value == stored.value[k].boundary
  {
    if stored.Some? && precision != NoPrecision {
      var table := stored.value;
      r := InterpPrecisionBoundary(precision, table);
      if r.Success? {
        forall j | 0 <= j < |table| && table[j].precision == Some(precision)
          ensures exists k :: 0 <= k < |table| && table[k].precision == Some(precision) && r.value == table[k].boundary
        {
          ExactPrecisionIsNearest(table, precision, j);
          var i1 := Nearest(table, |table|, precision, -1);
          assert r.value == BoundaryAt(table, i1) == table[i1].boundary;
        }
      }
    } else {
      r := Success(0.0);
    }
  }

  /** The four numbers of the probability mapping. */
  datatype SigmoidParams = SigmoidParams(threshLo: real, threshHi: real, shift: real, scale: real)

  const DefaultSigmoid := SigmoidParams(0.1, 0.9, 0.0, 1.0)

  predicate IsProbability(x: real)
  {
    0.0 <= x <= 1.0
  }

  datatype SigmoidError = NotProbability | BadThresholds | BadScale

  /** Both thresholds are probabilities, in increasing order, and the scale
      is positive; the checks run in that order. */
  function Validate(s: SigmoidParams): (r: Result<(), SigmoidError>)
    ensures r.Success? <==> IsProbability(s.threshLo) && IsProbability(s.threshHi) &&
                            s.threshLo < s.threshHi && s.scale > 0.0
    ensures r == Failure(BadScale) ==> s.threshLo < s.threshHi
  {
    if !IsProbability(s.threshLo) || !IsProbability(s.threshHi) then Failure(NotProbability)
    else if s.threshLo >= s.threshHi then Failure(BadThresholds)
    else if s.scale <= 0.0 then Failure(BadScale)
    else Success(())
  }

  lemma DefaultSigmoidValid()
    ensures Validate(DefaultSigmoid).Success?
  {
  }

  /** The probability of a response: the logistic curve squeezed into
      (threshLo, threshHi). The logistic function is a parameter. */
  function Prob(s: SigmoidParams, logistic: real -> real, response: real): (r: real)
    ensures s.threshLo < s.threshHi && 0.0 < logistic(Stretch(s, response)) < 1.0 ==>
              s.threshLo < r < s.threshHi
  {
    Squeeze(s.threshLo, s.threshHi, logistic(Stretch(s, response)));
    Between(s.threshLo, s.threshHi, logistic(Stretch(s, response)))
  }

  /** The argument of the logistic curve: the response shifted and scaled. */
  function Stretch(s: SigmoidParams, response: real): real
  {
    s.scale * (response - s.shift)
  }

  /** The point a fraction `y` of the way from `lo` to `hi`. */
  function Between(lo: real, hi: real, y: real): real
  {
    lo + (hi - lo) * y
  }

  /** For valid parameters every response maps strictly between the two
      thresholds, hence to a probability. */
  lemma ProbBetweenThresholds(s: SigmoidParams, logistic: real -> real, response: real)
    requires Validate(s).Success?
    requires forall x :: 0.0 < logistic(x) < 1.0
    ensures s.threshLo < Prob(s, logistic, response) < s.threshHi
    ensures IsProbability(Prob(s, logistic, response))
  {
  }

  /** A point strictly inside the unit interval maps strictly inside
      (lo, hi). */
  lemma Squeeze(lo: real, hi: real, y: real)
    ensures lo < hi && 0.0 < y < 1.0 ==> lo < Between(lo, hi, y) < hi
  {
    if lo < hi && 0.0 < y < 1.0 {
      AboveLow(lo, hi, y);
      BelowHigh(lo, hi, y);
      assert Between(lo, hi, y) == lo + (hi - lo) * y;
    }
  }

  lemma AboveLow(lo: real, hi: real, y: real)
    requires lo < hi && 0.0 < y
    ensures lo < lo + (hi - lo) * y
  {
    assert (hi - lo) * y > 0.0;
  }

  lemma BelowHigh(lo: real, hi: real, y: real)
    requires lo < hi && y < 1.0
    ensures lo + (hi - lo) * y < hi
  {
    var z := 1.0 - y;
    assert (hi - lo) * z > 0.0;
    assert y == 1.0 - z;
    assert (hi - lo) * y == (hi - lo) - (hi - lo) * z;
  }

  /** A loaded classifier: its cascade, the subset and coefficients, the
      sign correction (0 when no SVM was trained), the boundary and the
      probability mapping. */
  datatype Classifier = Classifier(cascade: seq<BoosterState>, normaliser: Normaliser, sign: real,
                                   boundary: real, sigmoid: SigmoidParams)

  predicate Readable(c: Classifier, f: Feature)
  {
    Applicable(c.cascade, f) && Fits(c.normaliser, f)
  }

  /** The decision value: -1 when the cascade rejects; +1 when no SVM
      exists (everything the cascade keeps is an inlier); otherwise the
      sign-corrected distance of the response from the boundary. Nothing
      when the SVM's prediction throws. */
  function Classify(c: Classifier, predict: Predictor, f: Feature): (r: Option<real>)
    requires Readable(c, f)
    ensures !CascadeKeeps(c.cascade, f) ==> r == Some(-1.0)
    ensures CascadeKeeps(c.cascade, f) && c.sign == 0.0 ==> r == Some(1.0)
    ensures CascadeKeeps(c.cascade, f) && c.sign != 0.0 ==>
              (r.Some? <==> predict(SelectInto(c.normaliser, f)).Some?)
  {
    if !CascadeKeeps(c.cascade, f) then Some(-1.0)
    else if c.sign == 0.0 then Some(1.0)
    else
      match predict(SelectInto(c.normaliser, f))
      case None => None
      case Some(v) => Some(c.sign * (v - c.boundary))
  }

  /** With sign +1 a feature the cascade keeps is positive iff the response
      exceeds the boundary; with sign -1 iff it falls below it. A feature
      the cascade rejects is always negative. */
  lemma ClassifyDecision(c: Classifier, predict: Predictor, f: Feature)
    requires Readable(c, f)
    ensures !CascadeKeeps(c.cascade, f) ==> !SvmClass(Classify(c, predict, f).value)
    ensures CascadeKeeps(c.cascade, f) && predict(SelectInto(c.normaliser, f)).Some? ==>
              var v := predict(SelectInto(c.normaliser, f)).value;
              && (c.sign == 1.0 ==> (SvmClass(Classify(c, predict, f).value) <==> v > c.boundary))
              && (c.sign == -1.0 ==> (SvmClass(Classify(c, predict, f).value) <==> v < c.boundary))
  {
  }

  datatype RuntimeError = Sigmoid(e: SigmoidError) | PredictFailed | ProbabilityOutOfRange

  /** The probability of a feature: the mapping is validated, the feature
      classified and the decision value mapped; the final probability check
      never fires once the mapping is valid. */
  function Probability(c: Classifier, predict: Predictor, logistic: real -> real, f: Feature): (r: Result<real, RuntimeError>)
    requires Readable(c, f)
    requires forall x :: 0.0 < logistic(x) < 1.0
    ensures Validate(c.sigmoid).Failure? ==> r == Failure(Sigmoid(Validate(c.sigmoid).error))
    ensures Validate(c.sigmoid).Success? ==> (r.Success? <==> Classify(c, predict, f).Some?)
    ensures r.Success? ==> c.sigmoid.threshLo < r.value < c.sigmoid.threshHi
    ensures r != Failure(ProbabilityOutOfRange)
  {
    match Validate(c.sigmoid)
    case Failure(e) => Failure(Sigmoid(e))
    case Success(_) =>
      match Classify(c, predict, f)
      case None => Failure(PredictFailed)
      case Some(score) =>
        ProbBetweenThresholds(c.sigmoid, logistic, score);
        var p := Prob(c.sigmoid, logistic, score);
        if !IsProbability(p) then Failure(ProbabilityOutOfRange) else Success(p)
  }
}

=== FILE: samples.dfy ===
/** One feature's values paired with class labels, and the sort the cascade
    builder applies to them (descending when the test rejects values above
    the threshold, ascending otherwise). */
module Samples {

  datatype Sample = Sample(value: real, positive: bool)

  /** Sort key: sorting by ascending key is sorting by descending value
      when `descending` holds. */
  function Key(x: Sample, descending: bool): real
  {
    if descending then -x.value else x.value
  }

  predicate Sorted(a: seq<Sample>, descending: bool)
  {
    forall i, j :: 0 <= i < j < |a| ==> Key(a[i], descending) <= Key(a[j], descending)
  }

  lemma SortedCons(h: Sample, t: seq<Sample>, descending: bool)
    requires Sorted(t, descending)
    requires forall y :: y in t ==> Key(h, descending) <= Key(y, descending)
    ensures Sorted([h] + t, descending)
  {
    var s := [h] + t;
    forall i, j | 0 <= i < j < |s|
      ensures Key(s[i], descending) <= Key(s[j], descending)
    {
      assert s[j] == t[j - 1];
      if i > 0 {
        assert s[i] == t[i - 1];
      }
    }
  }

  function Insert(x: Sample, a: seq<Sample>, descending: bool): (r: seq<Sample>)
    requires Sorted(a, descending)
    ensures Sorted(r, descending)
    ensures multiset(r) == multiset(a) + multiset{x}
    decreases |a|, 1
  {
    if |a| == 0 then [x]
    else if Key(x, descending) <= Key(a[0], descending) then
      SortedCons(x, a, descending);
      [x] + a
    else
      var rest := Insert(x, a[1..], descending);
      assert a == [a[0]] + a[1..];
      InsertAfterHead(x, a, descending);
      SortedCons(a[0], rest, descending);
      [a[0]] + rest
  }

  /** Inserting past the head of a sorted sequence leaves a tail whose
      every key is at least the head's. */
  lemma InsertAfterHead(x: Sample, a: seq<Sample>, descending: bool)
    requires Sorted(a, descending) && |a| > 0
    requires Key(a[0], descending) < Key(x, descending)
    ensures forall y :: y in Insert(x, a[1..], descending) ==> Key(a[0], descending) <= Key(y, descending)
    decreases |a|, 0
  {
    var rest := Insert(x, a[1..], descending);
    forall y | y in rest
      ensures Key(a[0], descending) <= Key(y, descending)
    {
      assert y in multiset(rest);
      if y != x {
        assert y in multiset(a[1..]);
        var k :| 0 <= k < |a[1..]| && a[1..][k] == y;
        assert a[k + 1] == y;
      }
    }
  }

  /** Insertion sort: a sorted permutation of the input. */
  function Sort(a: seq<Sample>, descending: bool): (r: seq<Sample>)
    ensures Sorted(r, descending)
    ensures multiset(r) == multiset(a)
    ensures |r| == |a|
    decreases |a|
  {
    if |a| == 0 then []
    else
      assert a == [a[0]] + a[1..];
      var r := Insert(a[0], Sort(a[1..], descending), descending);
      assert |r| == |multiset(r)| == |multiset(a)| == |a|;
      r
  }
}

=== FILE: scores.dfy ===
/** Scoring a trained classifier on validation examples. Each example pairs
    its ground-truth score with the classifier's response (prediction minus
    the decision boundary). The weighted success rate also decides the sign
    correction: a classifier that is wrong more often than right is read
    with its sign flipped. Precision and the balanced success rate are then
    computed from the sign-corrected predictions. A ratio 0/0, which is NaN
    in svm_wrapper.cpp, is `None` here. */
module Scores {
  import opened Wrappers
  import opened Counting
  import opened Labels
  import opened Arith

  datatype Outcome = Outcome(truthScore: real, response: real)

  /** The class the example belongs to. */
  function Truth(o: Outcome): bool
  {
    SvmClass(o.truthScore)
  }

  /** The class predicted for the example under sign correction `sign`. */
  function Predicted(o: Outcome, sign: real): bool
  {
    SvmClass(sign * o.response)
  }

  /** `part / whole` for a fraction; the empty fraction 0/0 has no value. */
  function Ratio(part: real, whole: real): (r: Option<real>)
    requires 0.0 <= part <= whole
    ensures r.Some? <==> whole > 0.0
    ensures r.Some? ==> 0.0 <= r.value <= 1.0 && r.value * whole == part
    ensures r.Some? && 2.0 * part >= whole ==> r.value >= 0.5
  {
    if whole == 0.0 then None
    else
      FractionBounds(part, whole);
      Some(part / whole)
  }

  lemma FractionBounds(part: real, whole: real)
    requires 0.0 <= part <= whole && whole > 0.0
    ensures (part / whole) * whole == part
    ensures 0.0 <= part / whole <= 1.0
    ensures 2.0 * part >= whole ==> part / whole >= 0.5
  {
    var q := part / whole;
    assert q * whole == part;
  }

  /** The cost of one example: the absolute weight of its class. */
  function Cost(w: ClassWeights, o: Outcome): real
  {
    Abs(ClassWeight(w, Truth(o)))
  }

  function TotalWeight(os: seq<Outcome>, w: ClassWeights): (t: real)
    ensures t >= 0.0
  {
    if |os| == 0 then 0.0
    else TotalWeight(os[..|os| - 1], w) + Cost(w, os[|os| - 1])
  }

  /** Weight of the examples the uncorrected response misclassifies; it
      never exceeds the total weight. */
  function ErrorWeight(os: seq<Outcome>, w: ClassWeights): (e: real)
    ensures 0.0 <= e <= TotalWeight(os, w)
  {
    if |os| == 0 then 0.0
    else
      var last := os[|os| - 1];
      ErrorWeight(os[..|os| - 1], w) + (if Truth(last) != SvmClass(last.response) then Cost(w, last) else 0.0)
  }

  /** Weight of the examples classified correctly under sign correction
      `sign`: the independent reading of what the success rate measures. */
  function CorrectWeight(os: seq<Outcome>, w: ClassWeights, sign: real): real
  {
    if |os| == 0 then 0.0
    else
      var last := os[|os| - 1];
      CorrectWeight(os[..|os| - 1], w, sign) + (if Predicted(last, sign) == Truth(last) then Cost(w, last) else 0.0)
  }

  datatype SuccessRate = SuccessRate(sign: real, rate: Option<real>)

  /** The sign correction and success rate chosen from the accumulated
      total and error weights: keep the sign while the errors are under half
      the total, otherwise flip it; the rate is the share the chosen sign
      gets right. */
  function SignCorrection(total: real, error: real): (r: SuccessRate)
    requires 0.0 <= error <= total
    ensures r.sign == 1.0 || r.sign == -1.0
    ensures r.sign == 1.0 <==> 2.0 * error < total
    ensures r.rate.Some? <==> total > 0.0
    ensures r.rate.Some? ==> 0.5 <= r.rate.value <= 1.0
    ensures r.rate.Some? ==> r.rate.value * total == if r.sign == 1.0 then total - error else error
  {
    if error < 0.5 * total then SuccessRate(1.0, Ratio(total - error, total))
    else SuccessRate(-1.0, Ratio(error, total))
  }

  /** The sign kept while the errors are under half the total, and the rate
      computed for the chosen sign. */
  lemma SignCorrectionChoice(total: real, error: real)
    requires 0.0 <= error <= total
    ensures SignCorrection(total, error) ==
            if 2.0 * error < total then SuccessRate(1.0, Ratio(total - error, total))
            else SuccessRate(-1.0, Ratio(error, total))
  {
  }

  /** The weighted success rate and the sign correction it chooses. */
  function TotalSuccessRate(os: seq<Outcome>, w: ClassWeights): (r: SuccessRate)
    ensures r.sign == 1.0 <==> 2.0 * ErrorWeight(os, w) < TotalWeight(os, w)
    ensures r.rate.Some? <==> TotalWeight(os, w) > 0.0
    ensures r.rate.Some? ==> 0.5 <= r.rate.value <= 1.0
  {
    SignCorrection(TotalWeight(os, w), ErrorWeight(os, w))
  }

  /** Without correction, the correct weight is what the errors leave. */
  lemma {:induction false} CorrectWeightUncorrected(os: seq<Outcome>, w: ClassWeights)
    ensures CorrectWeight(os, w, 1.0) == TotalWeight(os, w) - ErrorWeight(os, w)
    decreases |os|
  {
    if |os| > 0 {
      CorrectWeightUncorrected(os[..|os| - 1], w);
    }
  }

  /** With the sign flipped, the correct weight is the error weight, as long
      as no response sits exactly on the boundary (a response of 0 is
      "negative" whichever way it is read). */
  lemma {:induction false} CorrectWeightFlipped(os: seq<Outcome>, w: ClassWeights)
    requires forall i :: 0 <= i < |os| ==> os[i].response != 0.0
    ensures CorrectWeight(os, w, -1.0) == ErrorWeight(os, w)
    decreases |os|
  {
    if |os| > 0 {
      var init := os[..|os| - 1];
      assert forall i :: 0 <= i < |init| ==> init[i] == os[i];
      CorrectWeightFlipped(init, w);
    }
  }

  /** The success rate is the share of the total weight that the
      sign-corrected classifier gets right. */
  lemma SuccessRateIsCorrectedAccuracy(os: seq<Outcome>, w: ClassWeights)
    requires forall i :: 0 <= i < |os| ==> os[i].response != 0.0
    ensures var r := TotalSuccessRate(os, w);
            0.0 <= CorrectWeight(os, w, r.sign) <= TotalWeight(os, w) &&
            r.rate == Ratio(CorrectWeight(os, w, r.sign), TotalWeight(os, w))
  {
    var total := TotalWeight(os, w);
    var error := ErrorWeight(os, w);
    assert TotalSuccessRate(os, w) == SignCorrection(total, error);
    SignCorrectionChoice(total, error);
    if 2.0 * error < total {
      CorrectWeightUncorrected(os, w);
    } else {
      CorrectWeightFlipped(os, w);
    }
  }

  lemma {:induction false} ErrorWeightAllWrong(os: seq<Outcome>, w: ClassWeights)
    requires forall i :: 0 <= i < |os| ==> Truth(os[i]) != SvmClass(os[i].response)
    ensures ErrorWeight(os, w) == TotalWeight(os, w)
    decreases |os|
  {
    if |os| > 0 {
      var init := os[..|os| - 1];
      assert forall i :: 0 <= i < |init| ==> init[i] == os[i];
      ErrorWeightAllWrong(init, w);
    }
  }

  /** A classifier that gets every example wrong is perfectly right once its
      sign is flipped. */
  lemma AllWrongFlipsSign(os: seq<Outcome>, w: ClassWeights)
    requires forall i :: 0 <= i < |os| ==> Truth(os[i]) != SvmClass(os[i].response)
    requires TotalWeight(os, w) > 0.0
    ensures TotalSuccessRate(os, w) == SuccessRate(-1.0, Some(1.0))
  {
    ErrorWeightAllWrong(os, w);
  }

  /** Of the examples the corrected classifier calls positive, the share
      that are positive; no value when it calls none positive. */
  function Precision(os: seq<Outcome>, sign: real): (r: Option<real>)
    ensures r.Some? <==> exists i :: 0 <= i < |os| && Predicted(os[i], sign)
    ensures r.Some? ==> 0.0 <= r.value <= 1.0
  {
    var labelled := CountIf(os, o => Predicted(o, sign));
    var actual := CountIf(os, o => Predicted(o, sign) && Truth(o));
    CountImplies(os, o => Predicted(o, sign) && Truth(o), o => Predicted(o, sign));
    CountPositive(os, o => Predicted(o, sign));
    Ratio(actual as real, labelled as real)
  }

  /** Precision is exactly 1 when something is called positive and nothing
      called positive is negative. */
  lemma PrecisionPerfect(os: seq<Outcome>, sign: real)
    ensures Precision(os, sign) == Some(1.0) <==>
              (exists i :: 0 <= i < |os| && Predicted(os[i], sign)) &&
              (forall i :: 0 <= i < |os| && Predicted(os[i], sign) ==> Truth(os[i]))
  {
    var p := o => Predicted(o, sign) && Truth(o);
    var q := o => Predicted(o, sign);
    CountImplies(os, p, q);
    CountPositive(os, q);
    var labelled := CountIf(os, q);
    var actual := CountIf(os, p);
    if (forall i :: 0 <= i < |os| && Predicted(os[i], sign) ==> Truth(os[i])) {
      CountCongruent(os, p, q);
    }
    if labelled > 0 {
      assert Precision(os, sign) == Some((actual as real) / (labelled as real));
      if (actual as real) / (labelled as real) == 1.0 {
        assert actual as real == labelled as real;
      }
    }
  }

  /** Number of examples of class `c`, and how many of them the corrected
      classifier gets wrong. */
  function ClassExamples(os: seq<Outcome>, c: bool): nat
  {
    CountIf(os, o => Truth(o) == c)
  }

  function ClassErrors(os: seq<Outcome>, sign: real, c: bool): (n: nat)
    ensures n <= ClassExamples(os, c)
  {
    CountImplies(os, o => Truth(o) == c && Predicted(o, sign) != c, o => Truth(o) == c);
    CountIf(os, o => Truth(o) == c && Predicted(o, sign) != c)
  }

  /** The success rate within class `c`; no value when the class is absent. */
  function ClassSuccessRate(os: seq<Outcome>, sign: real, c: bool): (r: Option<real>)
    ensures r.Some? <==> exists i :: 0 <= i < |os| && Truth(os[i]) == c
    ensures r.Some? ==> 0.0 <= r.value <= 1.0
  {
    CountPositive(os, o => Truth(o) == c);
    var examples := ClassExamples(os, c);
    var errors := ClassErrors(os, sign, c);
    Ratio((examples - errors) as real, examples as real)
  }

  /** The balanced success rate: the mean of the two class success rates.
      It has a value only when both classes are present (a missing class
      gives NaN in svm_wrapper.cpp, which the sum carries along). */
  function BalancedSuccessRate(os: seq<Outcome>, sign: real): (r: Option<real>)
    ensures r.Some? <==> (exists i :: 0 <= i < |os| && Truth(os[i])) && (exists i :: 0 <= i < |os| && !Truth(os[i]))
    ensures r.Some? ==> 0.0 <= r.value <= 1.0
  {
    var negative := ClassSuccessRate(os, sign, false);
    var positive := ClassSuccessRate(os, sign, true);
    if negative.Some? && positive.Some? then Some(0.5 * negative.value + 0.5 * positive.value) else None
  }

  /** A class is classified without error exactly when its success rate is 1. */
  lemma ClassRatePerfect(os: seq<Outcome>, sign: real, c: bool)
    requires exists i :: 0 <= i < |os| && Truth(os[i]) == c
    ensures ClassSuccessRate(os, sign, c) == Some(1.0) <==>
              forall i :: 0 <= i < |os| && Truth(os[i]) == c ==> Predicted(os[i], sign) == c
  {
    var p := o => Truth(o) == c && Predicted(o, sign) != c;
    CountPositive(os, o => Truth(o) == c);
    CountPositive(os, p);
    var examples := ClassExamples(os, c);
    var errors := ClassErrors(os, sign, c);
    assert ClassSuccessRate(os, sign, c) == Some(((examples - errors) as real) / (examples as real));
    if forall i :: 0 <= i < |os| && Truth(os[i]) == c ==> Predicted(os[i], sign) == c {
      CountNone(os, p);
      assert errors == 0;
      DivSelf(examples);
    }
    if ((examples - errors) as real) / (examples as real) == 1.0 {
      assert (examples - errors) as real == examples as real;
    }
  }

  /** The balanced success rate is 1 exactly when both classes are present
      and every example is classified correctly. */
  lemma BalancedRatePerfect(os: seq<Outcome>, sign: real)
    requires exists i :: 0 <= i < |os| && Truth(os[i])
    requires exists i :: 0 <= i < |os| && !Truth(os[i])
    ensures BalancedSuccessRate(os, sign) == Some(1.0) <==>
              forall i :: 0 <= i < |os| ==> Predicted(os[i], sign) == Truth(os[i])
  {
    ClassRatePerfect(os, sign, false);
    ClassRatePerfect(os, sign, true);
  }
}

=== FILE: search.dfy ===
/** The search over feature subsets and hyperparameters that maximises the
    cross-validation score. The score of training with one setting on one
    subset comes from an oracle: the cross-validation itself is modelled
    elsewhere, and the search only compares its results. */
module Search {
  import opened Select
  import opened Subsets
  import opened Hyper
  import opened Folds

  /** The cross-validation score of a subset under (nu, gamma). */
  type Oracle = (Subset, real, real) -> real

  /** Every setting scored on one subset; nu and gamma are kept. */
  function Evaluate(ps: seq<Param>, subset: Subset, oracle: Oracle): (r: seq<Param>)
    ensures |r| == |ps|
    ensures forall i :: 0 <= i < |ps| ==>
              r[i].nu == ps[i].nu && r[i].gamma == ps[i].gamma && r[i].cvScore == oracle(subset, ps[i].nu, ps[i].gamma)
  {
    seq(|ps|, i requires 0 <= i < |ps| => Param(ps[i].nu, ps[i].gamma, oracle(subset, ps[i].nu, ps[i].gamma)))
  }

  /** Scores left by an earlier subset do not influence a later
      evaluation: every score is overwritten. */
  lemma EvaluateForgets(ps: seq<Param>, a: Subset, b: Subset, oracle: Oracle)
    ensures Evaluate(Evaluate(ps, a, oracle), b, oracle) == Evaluate(ps, b, oracle)
  {
  }

  /** The best setting for one subset: scanned in order from an unscored
      setting, replaced only on a strictly higher score. */
  function TrainHyperparameters(ps: seq<Param>, subset: Subset, oracle: Oracle): (r: Param)
    ensures -1.0 <= r.cvScore
    ensures forall i :: 0 <= i < |ps| ==> oracle(subset, ps[i].nu, ps[i].gamma) <= r.cvScore
    ensures r == Unscored ||
            exists i :: 0 <= i < |ps| && r == Param(ps[i].nu, ps[i].gamma, oracle(subset, ps[i].nu, ps[i].gamma))
  {
    var evaluated := Evaluate(ps, subset, oracle);
    var r := Best(evaluated, Score, Unscored, false);
    assert forall i :: 0 <= i < |ps| ==> Score(evaluated[i]) == oracle(subset, ps[i].nu, ps[i].gamma);
    assert forall i :: 0 <= i < |ps| ==> evaluated[i] == Param(ps[i].nu, ps[i].gamma, oracle(subset, ps[i].nu, ps[i].gamma));
    r
  }

  /** When some setting beats -1 the best is the earliest setting with the
      top score; otherwise nothing replaces the unscored setting. */
  lemma TrainHyperparametersEarliest(ps: seq<Param>, subset: Subset, oracle: Oracle)
    ensures (forall i :: 0 <= i < |ps| ==> oracle(subset, ps[i].nu, ps[i].gamma) <= -1.0) ==>
              TrainHyperparameters(ps, subset, oracle) == Unscored
    ensures (exists i :: 0 <= i < |ps| && oracle(subset, ps[i].nu, ps[i].gamma) > -1.0) ==>
              exists k :: 0 <= k < |ps| &&
                TrainHyperparameters(ps, subset, oracle).nu == ps[k].nu &&
                TrainHyperparameters(ps, subset, oracle).gamma == ps[k].gamma &&
                forall j :: 0 <= j < k ==> oracle(subset, ps[j].nu, ps[j].gamma) < TrainHyperparameters(ps, subset, oracle).cvScore
  {
    var evaluated := Evaluate(ps, subset, oracle);
    BestStrictIsEarliest(evaluated, Score, Unscored);
    if exists i :: 0 <= i < |ps| && oracle(subset, ps[i].nu, ps[i].gamma) > -1.0 {
      var i :| 0 <= i < |ps| && oracle(subset, ps[i].nu, ps[i].gamma) > -1.0;
      assert Score(evaluated[i]) > Score(Unscored);
    }
  }

  /** A subset with the best setting found for it. */
  datatype Choice = Choice(param: Param, subset: Subset)

  /** Nothing chosen yet: an unscored setting and the empty subset. */
  const NoChoice := Choice(Unscored, [])

  function ChoiceScore(c: Choice): real
  {
    c.param.cvScore
  }

  /** Once a subset is larger than a third of the features, the settings
      are pruned to the best `NumFolds` before the next subset. */
  function Prune(evaluated: seq<Param>, subset: Subset, nDims: nat, filter: bool): (r: seq<Param>)
    ensures |r| <= |evaluated|
    ensures !(filter && |subset| > nDims / 3) ==> r == evaluated
  {
    if filter && |subset| > nDims / 3 then FilterHyperparameters(evaluated, NumFolds) else evaluated
  }

  /** The state carried through the candidates of one size: the best so
      far and the settings still in play. */
  datatype Round = Round(best: Choice, params: seq<Param>)

  /** One subset size: each candidate in order is trained over the current
      settings, the settings may be pruned, and the candidate replaces the
      best so far only on a strictly higher score. */
  function SizeRound(cands: seq<Subset>, params: seq<Param>, nDims: nat, filter: bool, oracle: Oracle, best: Choice): (r: Round)
    ensures ChoiceScore(best) <= ChoiceScore(r.best)
    ensures r.best == best || r.best.subset in cands
    ensures |r.params| <= |params|
    decreases |cands|
  {
    if |cands| == 0 then Round(best, params)
    else
      var subset := cands[0];
      var p := TrainHyperparameters(params, subset, oracle);
      var params' := Prune(Evaluate(params, subset, oracle), subset, nDims, filter);
      var best' := if p.cvScore > ChoiceScore(best) then Choice(p, subset) else best;
      var r := SizeRound(cands[1..], params', nDims, filter, oracle, best');
      assert r.best.subset in cands[1..] ==> r.best.subset in cands;
      r
  }

  /** The settings each candidate of a size is trained on: the settings the
      size starts with for the first candidate, then after each candidate
      the settings it re-scored, pruned when the pruning rule applies.
      The settings in play never grow. */
  function ParamsInForce(cands: seq<Subset>, params: seq<Param>, nDims: nat, filter: bool, oracle: Oracle): (r: seq<seq<Param>>)
    ensures |r| == |cands|
    ensures |cands| > 0 ==> r[0] == params
    ensures forall i :: 0 <= i < |cands| ==> |r[i]| <= |params|
    decreases |cands|
  {
    if |cands| == 0 then []
    else
      var params' := Prune(Evaluate(params, cands[0], oracle), cands[0], nDims, filter);
      var rest := ParamsInForce(cands[1..], params', nDims, filter, oracle);
      assert forall i :: 1 <= i < |cands| ==> ([params] + rest)[i] == rest[i - 1];
      [params] + rest
  }

  /** Each candidate of a size with the best setting it reaches on the
      settings in force at its turn. */
  function RoundChoices(cands: seq<Subset>, params: seq<Param>, nDims: nat, filter: bool, oracle: Oracle): seq<Choice>
  {
    var ps := ParamsInForce(cands, params, nDims, filter, oracle);
    seq(|cands|, i requires 0 <= i < |cands| => Choice(TrainHyperparameters(ps[i], cands[i], oracle), cands[i]))
  }

  /** After the first candidate, the rest of the size sees the settings
      that candidate leaves. */
  lemma RoundChoicesTail(cands: seq<Subset>, params: seq<Param>, nDims: nat, filter: bool, oracle: Oracle)
    requires |cands| > 0
    ensures var params' := Prune(Evaluate(params, cands[0], oracle), cands[0], nDims, filter);
            var choices := RoundChoices(cands, params, nDims, filter, oracle);
            && choices[0] == Choice(TrainHyperparameters(params, cands[0], oracle), cands[0])
            && RoundChoices(cands[1..], params', nDims, filter, oracle) == choices[1..]
  {
    var params' := Prune(Evaluate(params, cands[0], oracle), cands[0], nDims, filter);
    var ps := ParamsInForce(cands, params, nDims, filter, oracle);
    var ps' := ParamsInForce(cands[1..], params', nDims, filter, oracle);
    assert ps == [params] + ps';
    var choices := RoundChoices(cands, params, nDims, filter, oracle);
    var tail := RoundChoices(cands[1..], params', nDims, filter, oracle);
    assert forall i :: 0 <= i < |tail| ==> tail[i] == choices[1..][i];
  }

  /** With or without pruning, a size's result is the strict running best
      over its candidates, each trained on the settings in force at its
      turn, so the earliest top scorer wins. */
  lemma {:induction false} SizeRoundIsStrictBest(cands: seq<Subset>, params: seq<Param>, nDims: nat, filter: bool,
                                                 oracle: Oracle, best: Choice)
    ensures SizeRound(cands, params, nDims, filter, oracle, best).best ==
            Best(RoundChoices(cands, params, nDims, filter, oracle), ChoiceScore, best, false)
    decreases |cands|
  {
    if |cands| > 0 {
      var choices := RoundChoices(cands, params, nDims, filter, oracle);
      var params' := Prune(Evaluate(params, cands[0], oracle), cands[0], nDims, filter);
      var p := TrainHyperparameters(params, cands[0], oracle);
      var best' := if p.cvScore > ChoiceScore(best) then Choice(p, cands[0]) else best;
      RoundChoicesTail(cands, params, nDims, filter, oracle);
      assert Pick(best, choices[0], ChoiceScore, false) == best';
      BestFirstStep(choices, ChoiceScore, best, false);
      assert SizeRound(cands, params, nDims, filter, oracle, best) == SizeRound(cands[1..], params', nDims, filter, oracle, best');
      SizeRoundIsStrictBest(cands[1..], params', nDims, filter, oracle, best');
    }
  }

  /** No candidate of a size, trained on the settings in force at its
      turn, scores above the size's result, pruned or not. */
  lemma SizeRoundBeatsEveryCandidate(cands: seq<Subset>, params: seq<Param>, nDims: nat, filter: bool,
                                     oracle: Oracle, best: Choice)
    ensures var ps := ParamsInForce(cands, params, nDims, filter, oracle);
            forall i :: 0 <= i < |cands| ==>
              TrainHyperparameters(ps[i], cands[i], oracle).cvScore <= ChoiceScore(SizeRound(cands, params, nDims, filter, oracle, best).best)
  {
    SizeRoundIsStrictBest(cands, params, nDims, filter, oracle, best);
    var choices := RoundChoices(cands, params, nDims, filter, oracle);
    var ps := ParamsInForce(cands, params, nDims, filter, oracle);
    var r := SizeRound(cands, params, nDims, filter, oracle, best).best;
    forall i | 0 <= i < |cands|
      ensures TrainHyperparameters(ps[i], cands[i], oracle).cvScore <= ChoiceScore(r)
    {
      assert choices[i] == Choice(TrainHyperparameters(ps[i], cands[i], oracle), cands[i]);
      assert ChoiceScore(choices[i]) <= ChoiceScore(r);
    }
  }

  /** What each candidate scores when every candidate sees the same
      settings. */
  function CandidateChoices(cands: seq<Subset>, params: seq<Param>, oracle: Oracle): (r: seq<Choice>)
    ensures |r| == |cands|
    ensures forall i :: 0 <= i < |cands| ==> r[i] == Choice(TrainHyperparameters(params, cands[i], oracle), cands[i])
  {
    seq(|cands|, i requires 0 <= i < |cands| => Choice(TrainHyperparameters(params, cands[i], oracle), cands[i]))
  }

  lemma TrainAfterEvaluate(params: seq<Param>, a: Subset, b: Subset, oracle: Oracle)
    ensures TrainHyperparameters(Evaluate(params, a, oracle), b, oracle) == TrainHyperparameters(params, b, oracle)
  {
    EvaluateForgets(params, a, b, oracle);
  }

  /** Without pruning, a size's result is the strict best over the
      candidates each trained on the full grid, the earliest candidate
      winning ties. */
  lemma {:induction false} SizeRoundUnpruned(cands: seq<Subset>, params: seq<Param>, nDims: nat, oracle: Oracle, best: Choice)
    ensures SizeRound(cands, params, nDims, false, oracle, best).best ==
            Best(CandidateChoices(cands, params, oracle), ChoiceScore, best, false)
    decreases |cands|
  {
    if |cands| > 0 {
      var subset := cands[0];
      var params' := Evaluate(params, subset, oracle);
      var choices := CandidateChoices(cands, params, oracle);
      var p := TrainHyperparameters(params, subset, oracle);
      var best' := if p.cvScore > ChoiceScore(best) then Choice(p, subset) else best;
      SizeRoundUnpruned(cands[1..], params', nDims, oracle, best');
      forall i | 0 <= i < |cands| - 1
        ensures CandidateChoices(cands[1..], params', oracle)[i] == choices[1..][i]
      {
        TrainAfterEvaluate(params, subset, cands[i + 1], oracle);
      }
      assert CandidateChoices(cands[1..], params', oracle) == choices[1..];
      assert Pick(best, choices[0], ChoiceScore, false) == best';
    }
  }

  /** The search over sizes from `size` down to 1. Every size's best is
      compared with the best overall with `>=`, so a later size wins a
      tie. A fixed or saved subset is scored once. */
  function SearchFrom(mode: Mode, nDims: nat, size: nat, cands: seq<Subset>, params: seq<Param>,
                      filter: bool, oracle: Oracle, overall: Choice): (r: Choice)
    ensures ChoiceScore(overall) <= ChoiceScore(r)
    decreases size
  {
    if size == 0 then overall
    else
      var round := SizeRound(cands, params, nDims, filter, oracle, NoChoice);
      var overall' := if ChoiceScore(round.best) >= ChoiceScore(overall) then round.best else overall;
      if mode == LoadFromFile || mode == NoSelection then overall'
      else
        SearchFrom(mode, nDims, size - 1, NextCandidates(round.best.subset, nDims, mode == Forward),
                   round.params, filter, oracle, overall')
  }

  /** The best of each size the search visits, in the order it visits
      them. */
  function SizeBests(mode: Mode, nDims: nat, size: nat, cands: seq<Subset>, params: seq<Param>,
                     filter: bool, oracle: Oracle): (r: seq<Choice>)
    ensures |r| <= size
    ensures mode == LoadFromFile || mode == NoSelection ==> |r| == if size == 0 then 0 else 1
    ensures mode == Backward || mode == Forward ==> |r| == size
    decreases size
  {
    if size == 0 then []
    else
      var round := SizeRound(cands, params, nDims, filter, oracle, NoChoice);
      if mode == LoadFromFile || mode == NoSelection then [round.best]
      else
        [round.best] + SizeBests(mode, nDims, size - 1, NextCandidates(round.best.subset, nDims, mode == Forward),
                                 round.params, filter, oracle)
  }

  /** One size of the search: its best is compared with `>=` and the
      search moves on to the next size's candidates. */
  lemma SearchFromStep(mode: Mode, nDims: nat, size: nat, cands: seq<Subset>, params: seq<Param>,
                       filter: bool, oracle: Oracle, overall: Choice)
    requires size > 0 && (mode == Backward || mode == Forward)
    ensures var round := SizeRound(cands, params, nDims, filter, oracle, NoChoice);
            SearchFrom(mode, nDims, size, cands, params, filter, oracle, overall) ==
            SearchFrom(mode, nDims, size - 1, NextCandidates(round.best.subset, nDims, mode == Forward),
                       round.params, filter, oracle, Pick(overall, round.best, ChoiceScore, true))
  {
  }

  lemma SizeBestsStep(mode: Mode, nDims: nat, size: nat, cands: seq<Subset>, params: seq<Param>,
                      filter: bool, oracle: Oracle)
    requires size > 0 && (mode == Backward || mode == Forward)
    ensures var round := SizeRound(cands, params, nDims, filter, oracle, NoChoice);
            SizeBests(mode, nDims, size, cands, params, filter, oracle) ==
            [round.best] + SizeBests(mode, nDims, size - 1, NextCandidates(round.best.subset, nDims, mode == Forward),
                                     round.params, filter, oracle)
  {
  }

  /** The overall result is the last size's best among those attaining the
      top score (the non-strict scan over the sizes), or the starting
      choice if every size scores below it. */
  lemma {:induction false} SearchIsLatestBest(mode: Mode, nDims: nat, size: nat, cands: seq<Subset>, params: seq<Param>,
                                              filter: bool, oracle: Oracle, overall: Choice)
    ensures SearchFrom(mode, nDims, size, cands, params, filter, oracle, overall) ==
            Best(SizeBests(mode, nDims, size, cands, params, filter, oracle), ChoiceScore, overall, true)
    decreases size
  {
    var bests := SizeBests(mode, nDims, size, cands, params, filter, oracle);
    if size == 0 {
      assert bests == [];
    } else {
      var round := SizeRound(cands, params, nDims, filter, oracle, NoChoice);
      var overall' := Pick(overall, round.best, ChoiceScore, true);
      if mode == LoadFromFile || mode == NoSelection {
        assert bests == [round.best];
        assert SearchFrom(mode, nDims, size, cands, params, filter, oracle, overall) == overall';
        BestFirstStep(bests, ChoiceScore, overall, true);
        assert bests[1..] == [];
        assert Best(bests, ChoiceScore, overall, true) == Best([], ChoiceScore, overall', true) == overall';
      } else {
        var next := NextCandidates(round.best.subset, nDims, mode == Forward);
        var rest := SizeBests(mode, nDims, size - 1, next, round.params, filter, oracle);
        SizeBestsStep(mode, nDims, size, cands, params, filter, oracle);
        SearchFromStep(mode, nDims, size, cands, params, filter, oracle, overall);
        BestFirstStep(bests, ChoiceScore, overall, true);
        assert bests[1..] == rest;
        SearchIsLatestBest(mode, nDims, size - 1, next, round.params, filter, oracle, overall');
        assert SearchFrom(mode, nDims, size, cands, params, filter, oracle, overall) ==
               SearchFrom(mode, nDims, size - 1, next, round.params, filter, oracle, overall');
        assert Best(bests, ChoiceScore, overall, true) == Best(rest, ChoiceScore, overall', true);
      }
    }
  }

  /** A choice whose subset is a valid set of feature indices. */
  predicate ValidChoice(c: Choice, nDims: nat)
  {
    Distinct(c.subset) && InRange(c.subset, nDims)
  }

  /** Starting from valid candidates, every size's best names a valid
      subset of the features. */
  lemma {:induction false} SizeBestsValid(mode: Mode, nDims: nat, size: nat, cands: seq<Subset>, params: seq<Param>,
                                          filter: bool, oracle: Oracle)
    requires forall x :: x in cands ==> Distinct(x) && InRange(x, nDims)
    ensures forall c :: c in SizeBests(mode, nDims, size, cands, params, filter, oracle) ==> ValidChoice(c, nDims)
    decreases size
  {
    if size > 0 {
      var round := SizeRound(cands, params, nDims, filter, oracle, NoChoice);
      RoundBestValid(cands, params, nDims, filter, oracle);
      if mode == LoadFromFile || mode == NoSelection {
        assert SizeBests(mode, nDims, size, cands, params, filter, oracle) == [round.best];
      } else {
        var next := NextCandidates(round.best.subset, nDims, mode == Forward);
        NextCandidatesValid(round.best.subset, nDims, mode == Forward);
        SizeBestsValid(mode, nDims, size - 1, next, round.params, filter, oracle);
        SizeBestsStep(mode, nDims, size, cands, params, filter, oracle);
        ConsValid(round.best, SizeBests(mode, nDims, size - 1, next, round.params, filter, oracle), nDims);
      }
    }
  }

  /** The best of one size is the empty starting choice or one of the
      candidates, so it is valid when they all are. */
  lemma RoundBestValid(cands: seq<Subset>, params: seq<Param>, nDims: nat, filter: bool, oracle: Oracle)
    requires forall x :: x in cands ==> Distinct(x) && InRange(x, nDims)
    ensures ValidChoice(SizeRound(cands, params, nDims, filter, oracle, NoChoice).best, nDims)
  {
    var best := SizeRound(cands, params, nDims, filter, oracle, NoChoice).best;
    assert best == NoChoice || best.subset in cands;
    assert ValidChoice(NoChoice, nDims);
  }

  lemma ConsValid(b: Choice, rest: seq<Choice>, nDims: nat)
    requires ValidChoice(b, nDims) && forall c :: c in rest ==> ValidChoice(c, nDims)
    ensures forall c :: c in [b] + rest ==> ValidChoice(c, nDims)
  {
  }


  /** The whole search: from the initial candidates of the mode, over the
      grid, sizes from `nDims` down. */
  function TrainSvm(mode: Mode, nDims: nat, grid: seq<Param>, filter: bool, oracle: Oracle): (r: Choice)
    ensures -1.0 <= ChoiceScore(r)
    ensures ValidChoice(r, nDims)
  {
    var cands := InitialCandidates(mode, nDims);
    var r := SearchFrom(mode, nDims, nDims, cands, grid, filter, oracle, NoChoice);
    InitialCandidatesValid(mode, nDims);
    SizeBestsValid(mode, nDims, nDims, cands, grid, filter, oracle);
    SearchIsLatestBest(mode, nDims, nDims, cands, grid, filter, oracle, NoChoice);
    assert r == NoChoice || r in SizeBests(mode, nDims, nDims, cands, grid, filter, oracle);
    r
  }

  /** The chosen subset scores at least as well as the best of every size,
      and when it is not the empty starting choice it is the best of the
      last size attaining the top score. */
  lemma TrainSvmIsBestSize(mode: Mode, nDims: nat, grid: seq<Param>, filter: bool, oracle: Oracle)
    ensures var bests := SizeBests(mode, nDims, nDims, InitialCandidates(mode, nDims), grid, filter, oracle);
            var r := TrainSvm(mode, nDims, grid, filter, oracle);
            && (forall i :: 0 <= i < |bests| ==> ChoiceScore(bests[i]) <= ChoiceScore(r))
            && ((exists i :: 0 <= i < |bests| && ChoiceScore(bests[i]) >= ChoiceScore(NoChoice)) ==>
                  exists k :: 0 <= k < |bests| && r == bests[k] &&
                              forall j :: k < j < |bests| ==> ChoiceScore(bests[j]) < ChoiceScore(bests[k]))
  {
    var cands := InitialCandidates(mode, nDims);
    SearchIsLatestBest(mode, nDims, nDims, cands, grid, filter, oracle, NoChoice);
    BestTiesIsLatest(SizeBests(mode, nDims, nDims, cands, grid, filter, oracle), ChoiceScore, NoChoice);
  }
}

=== FILE: select.dfy ===
/** The running "keep the best so far" loops of the training code, written
    once. With `laterOnTies == false` an element replaces the current best
    only when its key is strictly greater (`>`): the earliest maximum wins.
    With `laterOnTies == true` it replaces on `>=`: the latest maximum wins. */
module Select {

  function Pick<T>(best: T, x: T, key: T -> real, laterOnTies: bool): T
  {
    if key(x) > key(best) || (laterOnTies && key(x) == key(best)) then x else best
  }

  /** Left-to-right scan of `xs` starting from `init`. */
  function Best<T>(xs: seq<T>, key: T -> real, init: T, laterOnTies: bool): (r: T)
    ensures key(init) <= key(r)
    ensures forall i :: 0 <= i < |xs| ==> key(xs[i]) <= key(r)
    ensures r == init || r in xs
    decreases |xs|
  {
    if |xs| == 0 then init
    else
      var r := Best(xs[1..], key, Pick(init, xs[0], key, laterOnTies), laterOnTies);
      assert forall i :: 1 <= i < |xs| ==> xs[i] == xs[1..][i - 1];
      r
  }

  /** One step of the scan: the first element is compared with `init`. */
  lemma BestFirstStep<T>(xs: seq<T>, key: T -> real, init: T, laterOnTies: bool)
    requires |xs| > 0
    ensures Best(xs, key, init, laterOnTies) == Best(xs[1..], key, Pick(init, xs[0], key, laterOnTies), laterOnTies)
  {
  }

  /** Strict scan: the result is `init` exactly when nothing beats it, and
      otherwise the earliest element attaining the maximum. */
  lemma {:induction false} BestStrictIsEarliest<T>(xs: seq<T>, key: T -> real, init: T)
    ensures (forall i :: 0 <= i < |xs| ==> key(xs[i]) <= key(init)) ==> Best(xs, key, init, false) == init
    ensures (exists i :: 0 <= i < |xs| && key(xs[i]) > key(init)) ==>
              exists k :: 0 <= k < |xs| && Best(xs, key, init, false) == xs[k] && key(init) < key(xs[k]) &&
                          forall j :: 0 <= j < k ==> key(xs[j]) < key(xs[k])
  {
    if forall i :: 0 <= i < |xs| ==> key(xs[i]) <= key(init) {
      BestStrictKeepsInit(xs, key, init);
    } else {
      BestStrictFinds(xs, key, init);
    }
  }

  lemma {:induction false} BestStrictKeepsInit<T>(xs: seq<T>, key: T -> real, init: T)
    requires forall i :: 0 <= i < |xs| ==> key(xs[i]) <= key(init)
    ensures Best(xs, key, init, false) == init
    decreases |xs|
  {
    if |xs| > 0 {
      assert Pick(init, xs[0], key, false) == init;
      assert forall i :: 0 <= i < |xs[1..]| ==> xs[1..][i] == xs[i + 1];
      BestStrictKeepsInit(xs[1..], key, init);
    }
  }

  lemma {:induction false} BestStrictFinds<T>(xs: seq<T>, key: T -> real, init: T)
    requires exists i :: 0 <= i < |xs| && key(xs[i]) > key(init)
    ensures exists k :: 0 <= k < |xs| && Best(xs, key, init, false) == xs[k] && key(init) < key(xs[k]) &&
                        forall j :: 0 <= j < k ==> key(xs[j]) < key(xs[k])
    decreases |xs|
  {
    var init' := Pick(init, xs[0], key, false);
    var r := Best(xs, key, init, false);
    var tail := xs[1..];
    assert r == Best(tail, key, init', false);
    assert forall i :: 0 <= i < |tail| ==> tail[i] == xs[i + 1];
    if key(xs[0]) > key(init) && forall i :: 0 <= i < |tail| ==> key(tail[i]) <= key(init') {
      BestStrictKeepsInit(tail, key, init');
      assert r == xs[0];
    } else {
      if key(xs[0]) <= key(init) {
        var i :| 0 <= i < |xs| && key(xs[i]) > key(init);
        assert i >= 1 && key(tail[i - 1]) > key(init');
      }
      BestStrictFinds(tail, key, init');
      var k' :| 0 <= k' < |tail| && r == tail[k'] && key(init') < key(tail[k']) &&
                forall j :: 0 <= j < k' ==> key(tail[j]) < key(tail[k']);
      assert r == xs[k' + 1];
      assert forall j :: 0 <= j < k' + 1 ==> key(xs[j]) < key(xs[k' + 1]);
    }
  }

  /** Non-strict scan: the result is `init` when every element is strictly
      below it, and otherwise the latest element attaining the maximum. */
  lemma {:induction false} BestTiesIsLatest<T>(xs: seq<T>, key: T -> real, init: T)
    ensures (forall i :: 0 <= i < |xs| ==> key(xs[i]) < key(init)) ==> Best(xs, key, init, true) == init
    ensures (exists i :: 0 <= i < |xs| && key(xs[i]) >= key(init)) ==>
              exists k :: 0 <= k < |xs| && Best(xs, key, init, true) == xs[k] &&
                          forall j :: k < j < |xs| ==> key(xs[j]) < key(xs[k])
    decreases |xs|
  {
    if |xs| > 0 {
      var init' := Pick(init, xs[0], key, true);
      var r := Best(xs, key, init, true);
      BestTiesIsLatest(xs[1..], key, init');
      assert r == Best(xs[1..], key, init', true);
      assert forall i :: 1 <= i < |xs| ==> xs[i] == xs[1..][i - 1];
      if exists i :: 0 <= i < |xs| && key(xs[i]) >= key(init) {
        if exists i :: 0 <= i < |xs[1..]| && key(xs[1..][i]) >= key(init') {
          var k' :| 0 <= k' < |xs[1..]| && r == xs[1..][k'] &&
                    forall j :: k' < j < |xs[1..]| ==> key(xs[1..][j]) < key(xs[1..][k']);
          assert r == xs[k' + 1];
          assert forall j :: k' + 1 < j < |xs| ==> key(xs[j]) < key(xs[k' + 1]);
        } else {
          assert r == init';
          assert key(xs[0]) >= key(init);
          assert r == xs[0];
          assert forall j :: 0 < j < |xs| ==> key(xs[j]) < key(xs[0]);
        }
      }
    }
  }
}

=== FILE: subsets.dfy ===
/** Feature subsets and the ordered sets of candidate subsets the search
    walks through. A subset is a list of feature indices; a set of subsets
    is kept, as `std::set` keeps it, in strictly increasing lexicographic
    order, which is the order the search visits them in. */
module Subsets {
  import opened Counting

  type Subset = seq<int>

  /** Lexicographic order of `std::vector`: the first differing index
      decides, and a proper prefix comes first. */
  predicate LexLess(a: Subset, b: Subset)
    decreases |a|
  {
    if |b| == 0 then false
    else if |a| == 0 then true
    else if a[0] != b[0] then a[0] < b[0]
    else LexLess(a[1..], b[1..])
  }

  lemma {:induction false} LexIrreflexive(a: Subset)
    ensures !LexLess(a, a)
    decreases |a|
  {
    if |a| > 0 {
      LexIrreflexive(a[1..]);
    }
  }

  lemma {:induction false} LexTransitive(a: Subset, b: Subset, c: Subset)
    requires LexLess(a, b) && LexLess(b, c)
    ensures LexLess(a, c)
    decreases |a|
  {
    if |a| > 0 && a[0] == b[0] && b[0] == c[0] {
      LexTransitive(a[1..], b[1..], c[1..]);
    }
  }

  /** Any two different subsets are ordered one way or the other. */
  lemma {:induction false} LexTotal(a: Subset, b: Subset)
    ensures a == b || LexLess(a, b) || LexLess(b, a)
    decreases |a|
  {
    if |a| > 0 && |b| > 0 && a[0] == b[0] {
      LexTotal(a[1..], b[1..]);
      if a[1..] == b[1..] {
        assert a == [a[0]] + a[1..] && b == [b[0]] + b[1..];
      }
    }
  }

  /** A set of subsets: strictly increasing, hence free of duplicates. */
  predicate Ordered(xs: seq<Subset>)
  {
    forall i, j :: 0 <= i < j < |xs| ==> LexLess(xs[i], xs[j])
  }

  /** `std::set::insert`: adds `x` at its place unless it is already there. */
  function Insert(xs: seq<Subset>, x: Subset): (r: seq<Subset>)
    requires Ordered(xs)
    ensures Ordered(r)
    ensures forall y :: y in r <==> y in xs || y == x
    decreases |xs|
  {
    if |xs| == 0 then [x]
    else if x == xs[0] then xs
    else if LexLess(x, xs[0]) then
      assert forall j :: 0 <= j < |xs| ==> LexLess(x, xs[j]) by {
        forall j | 0 < j < |xs| {
          LexTransitive(x, xs[0], xs[j]);
        }
      }
      [x] + xs
    else
      LexTotal(x, xs[0]);
      var tail := Insert(xs[1..], x);
      assert forall y :: y in xs[1..] ==> LexLess(xs[0], y);
      assert xs == [xs[0]] + xs[1..];
      [xs[0]] + tail
  }

  /** The set holding the subsets of a list, duplicates collapsed. */
  function FromList(xs: seq<Subset>): (r: seq<Subset>)
    ensures Ordered(r)
    ensures forall y :: y in r <==> y in xs
    decreases |xs|
  {
    if |xs| == 0 then []
    else
      var r := Insert(FromList(xs[..|xs| - 1]), xs[|xs| - 1]);
      assert xs == xs[..|xs| - 1] + [xs[|xs| - 1]];
      r
  }

  /** No index occurs twice. */
  predicate Distinct(s: Subset)
  {
    forall i, j :: 0 <= i < j < |s| ==> s[i] != s[j]
  }

  /** Every index names one of the `nDims` features. */
  predicate InRange(s: Subset, nDims: nat)
  {
    forall i :: 0 <= i < |s| ==> 0 <= s[i] < nDims
  }

  /** The subset with every occurrence of `v` removed, order kept. */
  function Without(s: Subset, v: int): (r: Subset)
    ensures forall x :: x in r <==> x in s && x != v
    decreases |s|
  {
    if |s| == 0 then []
    else
      var init := s[..|s| - 1];
      assert s == init + [s[|s| - 1]];
      Without(init, v) + (if s[|s| - 1] == v then [] else [s[|s| - 1]])
  }

  /** Removing a member of a duplicate-free subset shortens it by one, keeps
      the remaining indices in their order and keeps them distinct. */
  lemma {:induction false} WithoutMember(s: Subset, v: int)
    requires Distinct(s)
    ensures v in s ==> |Without(s, v)| == |s| - 1
    ensures v !in s ==> Without(s, v) == s
    ensures IsSubsequence(Without(s, v), s)
    ensures Distinct(Without(s, v))
    decreases |s|
  {
    if |s| == 0 {
    } else {
      var init := s[..|s| - 1];
      var last := s[|s| - 1];
      assert s == init + [last];
      assert Distinct(init);
      assert last !in init;
      WithoutMember(init, v);
      var w := Without(init, v);
      if last == v {
        assert Without(s, v) == w;
        SubsequenceAppend(w, init, [last]);
      } else {
        assert Without(s, v) == w + [last];
        SubsequenceAppend(w, init, [last]);
        SubsequenceReflexive([last]);
        SubsequenceConcat(w, init, [last], [last]);
        assert last !in w;
      }
    }
  }

  /** Appending to the longer sequence keeps a subsequence. */
  lemma {:induction false} SubsequenceAppend<T>(a: seq<T>, b: seq<T>, c: seq<T>)
    requires IsSubsequence(a, b)
    ensures IsSubsequence(a, b + c)
    decreases |b|
  {
    if |a| > 0 && |b| > 0 {
      assert (b + c)[1..] == b[1..] + c;
      if a[0] == b[0] {
        SubsequenceAppend(a[1..], b[1..], c);
      } else {
        SubsequenceAppend(a, b[1..], c);
      }
    }
  }

  /** Subsequences concatenate. */
  lemma {:induction false} SubsequenceConcat<T>(a: seq<T>, b: seq<T>, c: seq<T>, d: seq<T>)
    requires IsSubsequence(a, b) && IsSubsequence(c, d)
    ensures IsSubsequence(a + c, b + d)
    decreases |b|
  {
    if |a| == 0 {
      assert a + c == c;
      SubsequencePrepend(c, d, b);
    } else {
      assert |b| > 0;
      assert (a + c)[1..] == a[1..] + c;
      assert (b + d)[1..] == b[1..] + d;
      if a[0] == b[0] {
        SubsequenceConcat(a[1..], b[1..], c, d);
      } else {
        SubsequenceConcat(a, b[1..], c, d);
      }
    }
  }

  /** Prepending to the longer sequence keeps a subsequence. */
  lemma {:induction false} SubsequencePrepend<T>(a: seq<T>, b: seq<T>, c: seq<T>)
    requires IsSubsequence(a, b)
    ensures IsSubsequence(a, c + b)
    decreases |c|
  {
    if |c| == 0 {
      assert c + b == b;
    } else {
      SubsequencePrepend(a, b, c[1..]);
      assert c + b == [c[0]] + (c[1..] + b);
      SubsequenceSkip(a, c[1..] + b, c[0]);
    }
  }

  /** Backward selection: the best subset of this size less each of its
      members in turn. */
  function Backwards(best: Subset): (r: seq<Subset>)
    ensures Ordered(r)
    ensures forall x :: x in r <==> exists i :: 0 <= i < |best| && x == Without(best, best[i])
  {
    var dropped := seq(|best|, i requires 0 <= i < |best| => Without(best, best[i]));
    assert forall i :: 0 <= i < |best| ==> Without(best, best[i]) == dropped[i];
    FromList(dropped)
  }

  /** The indices below `nDims` that `best` does not hold, ascending. */
  function Absent(best: Subset, nDims: nat): (r: seq<int>)
    ensures forall i :: i in r <==> 0 <= i < nDims && i !in best
    ensures forall a, b :: 0 <= a < b < |r| ==> r[a] < r[b]
    decreases nDims
  {
    if nDims == 0 then []
    else
      var r := Absent(best, nDims - 1);
      var res := r + (if nDims - 1 in best then [] else [nDims - 1]);
      forall a | 0 <= a < |r|
        ensures r[a] < nDims - 1
      {
        assert r[a] in r;
      }
      forall a, b | 0 <= a < b < |res|
        ensures res[a] < res[b]
      {
        assert res[a] == r[a];
        if b >= |r| {
          assert res[b] == nDims - 1;
        } else {
          assert res[b] == r[b];
        }
      }
      res
  }

  /** Forward selection: the best subset of this size extended by each
      feature it lacks. */
  function Forwards(best: Subset, nDims: nat): (r: seq<Subset>)
    ensures Ordered(r)
    ensures forall x :: x in r <==> exists i :: 0 <= i < nDims && i !in best && x == best + [i]
  {
    var absent := Absent(best, nDims);
    var grown := seq(|absent|, j requires 0 <= j < |absent| => best + [absent[j]]);
    forall x | x in grown
      ensures exists i :: 0 <= i < nDims && i !in best && x == best + [i]
    {
      var j :| 0 <= j < |grown| && grown[j] == x;
      assert absent[j] in absent;
    }
    forall i | 0 <= i < nDims && i !in best
      ensures best + [i] in grown
    {
      var j :| 0 <= j < |absent| && absent[j] == i;
      assert grown[j] == best + [i];
    }
    FromList(grown)
  }

  /** Backward selection from a duplicate-free subset offers subsets one
      shorter, each a duplicate-free sub-list of it. */
  lemma BackwardsShrinks(best: Subset, nDims: nat)
    requires Distinct(best) && InRange(best, nDims)
    ensures forall x :: x in Backwards(best) ==>
              |x| == |best| - 1 && Distinct(x) && InRange(x, nDims) && IsSubsequence(x, best)
  {
    forall x | x in Backwards(best)
      ensures |x| == |best| - 1 && Distinct(x) && InRange(x, nDims) && IsSubsequence(x, best)
    {
      var i :| 0 <= i < |best| && x == Without(best, best[i]);
      WithoutMember(best, best[i]);
      forall j | 0 <= j < |x| ensures 0 <= x[j] < nDims {
        assert x[j] in best;
      }
    }
  }

  /** Forward selection from a duplicate-free subset offers subsets one
      longer, each duplicate-free and within range, and starting with it. */
  lemma ForwardsGrows(best: Subset, nDims: nat)
    requires Distinct(best) && InRange(best, nDims)
    ensures forall x :: x in Forwards(best, nDims) ==>
              |x| == |best| + 1 && Distinct(x) && InRange(x, nDims) && x[..|best|] == best
  {
    forall x | x in Forwards(best, nDims)
      ensures |x| == |best| + 1 && Distinct(x) && InRange(x, nDims) && x[..|best|] == best
    {
      var i :| 0 <= i < nDims && i !in best && x == best + [i];
      assert x[|best|] == i;
      assert forall j :: 0 <= j < |best| ==> x[j] == best[j];
    }
  }

  /** The subset of every feature index, ascending. */
  function AllFeatures(nDims: nat): (r: Subset)
    ensures |r| == nDims
    ensures forall i :: 0 <= i < nDims ==> r[i] == i
  {
    seq(nDims, i => i)
  }

  /** How the search moves between subset sizes. `LoadFromFile` is the mode
      svm_wrapper.cpp switches to when it finds a saved feature set. */
  datatype Mode = Backward | Forward | NoSelection | LoadFromFile

  /** The first candidates when no saved feature set exists: every feature
      for backward selection and for no selection, each single feature for
      forward selection, and nothing otherwise. */
  function InitialCandidates(mode: Mode, nDims: nat): (r: seq<Subset>)
    ensures Ordered(r)
    ensures mode == Backward || mode == NoSelection ==> r == [AllFeatures(nDims)]
    ensures mode == Forward ==> forall x :: x in r <==> exists i :: 0 <= i < nDims && x == [i]
    ensures mode == LoadFromFile ==> r == []
  {
    match mode
    case Backward => [AllFeatures(nDims)]
    case NoSelection => [AllFeatures(nDims)]
    case Forward => Forwards([], nDims)
    case LoadFromFile => []
  }

  /** Every first candidate is duplicate-free and within range. */
  lemma InitialCandidatesValid(mode: Mode, nDims: nat)
    ensures forall x :: x in InitialCandidates(mode, nDims) ==> Distinct(x) && InRange(x, nDims)
  {
    AllFeaturesValid(nDims);
    ForwardsGrows([], nDims);
  }

  /** The candidates of the next, smaller or larger, subset size. */
  function NextCandidates(best: Subset, nDims: nat, forward: bool): (r: seq<Subset>)
    ensures Ordered(r)
  {
    if forward then Forwards(best, nDims) else Backwards(best)
  }

  /** Every candidate the search ever offers is duplicate-free and within
      range, one size from the subset it came from. */
  lemma NextCandidatesValid(best: Subset, nDims: nat, forward: bool)
    requires Distinct(best) && InRange(best, nDims)
    ensures forall x :: x in NextCandidates(best, nDims, forward) ==>
              Distinct(x) && InRange(x, nDims) && |x| == (if forward then |best| + 1 else |best| - 1)
  {
    if forward {
      ForwardsGrows(best, nDims);
    } else {
      BackwardsShrinks(best, nDims);
    }
  }

  lemma AllFeaturesValid(nDims: nat)
    ensures Distinct(AllFeatures(nDims)) && InRange(AllFeatures(nDims), nDims)
  {
  }
}

=== FILE: training.dfy ===
/** The trainer: examples arrive one at a time with their label, and on
    completion the trainer builds the cascade (when boosting is on), the
    class weights and the SVM chosen by the search, or saves nothing when
    either class has too few examples. */
module Training {
  import opened Wrappers
  import opened Labels
  import opened Cascade
  import CascadeBuilder
  import opened Subsets
  import opened Hyper
  import opened Search

  /** Fewest examples of each class the trainer will train from. */
  const MinExamples: nat := 20

  datatype TrainingError = BadNegRelativeWeight

  /** The settings fixed at construction and the examples collected so far,
      in arrival order. */
  datatype Trainer = Trainer(negRelativeWeight: real, mode: Mode, filter: bool,
                             neg: seq<Feature>, pos: seq<Feature>)

  /** Construction refuses a relative weight that is not positive, and
      otherwise starts with no examples. */
  function NewTrainer(negRelativeWeight: real, mode: Mode, filter: bool): (r: Result<Trainer, TrainingError>)
    ensures r.Failure? <==> negRelativeWeight <= 0.0
    ensures r.Success? ==> r.value.neg == [] && r.value.pos == []
    ensures r.Success? ==> r.value.negRelativeWeight == negRelativeWeight && r.value.mode == mode
                           && r.value.filter == filter
  {
    if negRelativeWeight <= 0.0 then Failure(BadNegRelativeWeight)
    else Success(Trainer(negRelativeWeight, mode, filter, [], []))
  }

  /** Appends one example to the collection of its class; duplicates are
      kept. */
  function AddTrainingFeature(t: Trainer, f: Feature, positive: bool): (r: Trainer)
    ensures |r.neg| + |r.pos| == |t.neg| + |t.pos| + 1
    ensures positive ==> r.pos == t.pos + [f] && r.neg == t.neg
    ensures !positive ==> r.neg == t.neg + [f] && r.pos == t.pos
    ensures r.negRelativeWeight == t.negRelativeWeight && r.mode == t.mode && r.filter == t.filter
  {
    if positive then t.(pos := t.pos + [f]) else t.(neg := t.neg + [f])
  }

  /** Adding a whole stream of labelled examples in order. */
  function AddAll(t: Trainer, ex: seq<(Feature, bool)>): (r: Trainer)
    ensures |r.neg| + |r.pos| == |t.neg| + |t.pos| + |ex|
    ensures r.negRelativeWeight == t.negRelativeWeight && r.mode == t.mode && r.filter == t.filter
    decreases |ex|
  {
    if |ex| == 0 then t else AddAll(AddTrainingFeature(t, ex[0].0, ex[0].1), ex[1..])
  }

  /** The features of the stream carrying `positive`, in order. */
  function WithLabel(ex: seq<(Feature, bool)>, positive: bool): (r: seq<Feature>)
    ensures |r| <= |ex|
    decreases |ex|
  {
    if |ex| == 0 then []
    else (if ex[0].1 == positive then [ex[0].0] else []) + WithLabel(ex[1..], positive)
  }

  /** After a stream of additions each collection holds exactly the stream's
      examples of its class, in arrival order, after those it already had,
      and the settings are untouched. */
  lemma {:induction false} AddAllSorts(t: Trainer, ex: seq<(Feature, bool)>)
    ensures AddAll(t, ex).pos == t.pos + WithLabel(ex, true)
    ensures AddAll(t, ex).neg == t.neg + WithLabel(ex, false)
    ensures AddAll(t, ex).negRelativeWeight == t.negRelativeWeight
    ensures AddAll(t, ex).mode == t.mode && AddAll(t, ex).filter == t.filter
    decreases |ex|
  {
    if |ex| == 0 {
      assert t.pos + [] == t.pos;
      assert t.neg + [] == t.neg;
    } else {
      var t' := AddTrainingFeature(t, ex[0].0, ex[0].1);
      AddAllSorts(t', ex[1..]);
      var hp := if ex[0].1 == true then [ex[0].0] else [];
      var hn := if ex[0].1 == false then [ex[0].0] else [];
      assert t'.pos == t.pos + hp;
      assert t'.neg == t.neg + hn;
      assert t.pos + hp + WithLabel(ex[1..], true) == t.pos + (hp + WithLabel(ex[1..], true));
      assert t.neg + hn + WithLabel(ex[1..], false) == t.neg + (hn + WithLabel(ex[1..], false));
    }
  }

  /** Every example of the stream lands in exactly one class. */
  lemma {:induction false} WithLabelSplits(ex: seq<(Feature, bool)>)
    ensures |WithLabel(ex, true)| + |WithLabel(ex, false)| == |ex|
    decreases |ex|
  {
    if |ex| > 0 {
      WithLabelSplits(ex[1..]);
    }
  }

  /** What the trainer leaves behind: the cascade, and, unless the cascade
      removed a whole class, the class weights and the chosen SVM. */
  datatype SavedState = SavedState(cascade: seq<BoosterState>, weights: Option<ClassWeights>, choice: Option<Choice>)

  /** Completing the training. With too few examples of either class
      nothing is saved. Otherwise the cascade is built when boosting is on,
      and if examples of both classes survive it the weights are computed
      from the surviving counts and the search runs on the survivors
      (`cv` gives the cross-validation score on a pair of collections);
      if not, a cascade-only state is saved. */
  function Finish(t: Trainer, useBoosting: bool, d: nat, grid: seq<Param>,
                  cv: (seq<Feature>, seq<Feature>) -> Oracle): (r: Option<SavedState>)
    requires t.negRelativeWeight > 0.0
    requires CascadeBuilder.SameDimension(t.neg, d) && CascadeBuilder.SameDimension(t.pos, d)
    ensures r.None? <==> |t.pos| < MinExamples || |t.neg| < MinExamples
    ensures r.Some? ==> (r.value.weights.Some? <==> r.value.choice.Some?)
    ensures r.Some? && r.value.choice.Some? ==>
              -1.0 <= ChoiceScore(r.value.choice.value) && ValidChoice(r.value.choice.value, d)
    ensures r.Some? && !useBoosting ==> r.value.cascade == [] && r.value.choice.Some?
  {
    if |t.pos| < MinExamples || |t.neg| < MinExamples then None
    else
      var run := if useBoosting then CascadeBuilder.FindBoosterStates(t.neg, t.pos, d)
                 else CascadeBuilder.CascadeRun([], t.neg, t.pos);
      if |run.pos| > 0 && |run.neg| > 0 then
        var w := ComputeNegWeight(|run.pos|, |run.neg|, t.negRelativeWeight);
        Some(SavedState(run.cascade, Some(w), Some(TrainSvm(t.mode, d, grid, t.filter, cv(run.neg, run.pos)))))
      else
        Some(SavedState(run.cascade, None, None))
  }

  /** With boosting off and enough data, the weights balance the two whole
      classes (so the total negative cost is the relative weight times the
      total positive cost) and the SVM is the search's choice on all the examples. */
  lemma FinishWithoutBoosting(t: Trainer, d: nat, grid: seq<Param>, cv: (seq<Feature>, seq<Feature>) -> Oracle)
    requires t.negRelativeWeight > 0.0
    requires CascadeBuilder.SameDimension(t.neg, d) && CascadeBuilder.SameDimension(t.pos, d)
    requires |t.pos| >= MinExamples && |t.neg| >= MinExamples
    ensures var r := Finish(t, false, d, grid, cv);
            && r.Some? && r.value.weights.Some? && r.value.choice.Some?
            && r.value.weights.value == ComputeNegWeight(|t.pos|, |t.neg|, t.negRelativeWeight)
            && r.value.choice.value == TrainSvm(t.mode, d, grid, t.filter, cv(t.neg, t.pos))
  {
    var w := ComputeNegWeight(|t.pos|, |t.neg|, t.negRelativeWeight);
    var choice := TrainSvm(t.mode, d, grid, t.filter, cv(t.neg, t.pos));
    assert Finish(t, false, d, grid, cv) == Some(SavedState([], Some(w), Some(choice)));
  }

  /** With boosting on, the saved cascade is the builder's, and whatever
      is trained is trained on exactly the examples the cascade keeps,
      weighted by their counts; a cascade-only state is saved exactly when
      the cascade removes every example of a class. */
  lemma FinishWithBoosting(t: Trainer, d: nat, grid: seq<Param>, cv: (seq<Feature>, seq<Feature>) -> Oracle)
    requires t.negRelativeWeight > 0.0
    requires CascadeBuilder.SameDimension(t.neg, d) && CascadeBuilder.SameDimension(t.pos, d)
    requires |t.pos| >= MinExamples && |t.neg| >= MinExamples
    ensures var r := Finish(t, true, d, grid, cv);
            var c := CascadeBuilder.FindBoosterStates(t.neg, t.pos, d).cascade;
            var neg' := FilterByCascade(t.neg, c);
            var pos' := FilterByCascade(t.pos, c);
            && r.Some? && r.value.cascade == c
            && (r.value.choice.None? <==> |neg'| == 0 || |pos'| == 0)
            && (r.value.choice.Some? ==>
                  r.value.choice.value == TrainSvm(t.mode, d, grid, t.filter, cv(neg', pos'))
                  && r.value.weights.value == ComputeNegWeight(|pos'|, |neg'|, t.negRelativeWeight))
  {
  }

  /** A freshly constructed trainer that never received an example saves
      nothing. */
  lemma NewTrainerSavesNothing(negRelativeWeight: real, mode: Mode, filter: bool, useBoosting: bool, d: nat,
                               grid: seq<Param>, cv: (seq<Feature>, seq<Feature>) -> Oracle)
    requires negRelativeWeight > 0.0
    ensures NewTrainer(negRelativeWeight, mode, filter).Success?
    ensures Finish(NewTrainer(negRelativeWeight, mode, filter).value, useBoosting, d, grid, cv).None?
  {
  }
}

=== FILE: wrappers.dfy ===
/** Failure-carrying results used wherever svm_wrapper.cpp throws (its CHECK
    macros) or returns a sentinel instead of a value. */
module Wrappers {

  datatype Option<+T> = None | Some(value: T)

  datatype Result<+T, +E> = Success(value: T) | Failure(error: E)
}
